=== FILE: README.md ===
# Cotação de Seguro — a Dafny model of the quotation bot's core

The repository is a WhatsApp bot for Equinos Seguros. It talks to a horse owner, collects the animal's data for an insurance quotation, and runs the quotation on the Swiss Re broker site. It can also hand the conversation over to a human agent. This project models the bot's logic as pure Dafny functions over immutable data and proves properties of them. The parts covered are:

- the per-contact conversation state machine (`ConversationFlow`), with its ten-minute timeout, its handlers per state and its history-preserving reset;
- the orchestration of one inbound message (`BotHandler`): the extraction path, the command path, the quotation step, and agent takeover and release;
- the extraction, merge and validation rules:
  - `DataExtractor`;
  - `ParserValidacao`;
  - the guarded collector (`Collect`, `UtilsCollector`) and the overwriting collector (`BotCollector`);
  - the extraction variants of `main.py` (`MainBot`) and `response_generator.py` (`ResponseGenerator`);
- the in-memory stores: `DatabaseManager`, `DatabaseAdapter` and the memory branch of `app/db/database.py` (`MemoryDatabase`);
- the pure helpers:
  - phone formatting and request shaping (`UltraMsg`, `UltraMsgApi`);
  - hand-off keywords (`HandoffHandler`);
  - file types, names and URLs (`FileManager`);
  - CEP extraction (`Cep`);
  - the quotation sequence of the Swiss Re automation (`SwissRe`).

Shared helper modules carry Python's string and dict semantics:
- `Text`: `str.lower`, `strip`, `replace`, `title` and `in`; digits; decimal numerals;
- `Fields`: the bot's data dicts, as maps from field name to text;
- `OrderedDict`: an insertion-ordered dict, where key order matters;
- `Positions`: the increasing positions of a table's flagged entries, which pin down the order of every list built by walking a table (missing fields, blank keys, reported fields);
- `Wrappers`: `Option`.

How the model stands in for the world:
- **The clock** is an integer argument, one instant per inbound message.
- **Regular expressions** are abstract matchers, `string -> Option<string>`, in their source order. Only the CEP pattern `\d{5}-?\d{3}` is modelled character by character (`Cep`), because both the collector and the Swiss Re form depend on its shape.
- **Collaborators** (the language model, the messaging API, the browser, the database, the file system) are datatypes or functions given as parameters. What the code sends out is returned as a list of effects.
- **Bot replies** are tags carrying their data, not the literal Portuguese text. Literal strings are kept where a property depends on them: keywords, statuses, file names, error messages.

Where the code and its documentation disagree, the model follows the code:
- **`_make_request` in `app/integrations/ultramsg_api.py`**: a 200 answer whose body is not JSON raises inside the `try`. The error `response.json()` raises is a `RequestException` in the requests library from version 2.27 on, so it is reported as "Erro de conexão" with `success` False. So success holds only for a 200 answer with a JSON body, not for every 200.
- **`ConversationFlow`**: the ten-minute idle reset also applies to a conversation held by an agent, so the 24-hour branch for agents is never reached (`ConversationFlow.AgentHoldEndsAfterTenMinutes`).

Behaviour the proofs make explicit (the model keeps each as written):
- **`main.py` (`MainBot`)**: never collects `endereco_cocheira` (`MainBot.AddressNeverCollected`).
- **`response_generator.py`**:
  - the fallback path never sets its flag;
  - `generate_response` does not store the data it extracts.
- **`database_adapter.py`**: `reset_client` calls a method the manager does not have, so it always fails. `save_quotation_pdf` on an unknown phone creates a client that counts as `completed` with empty data.
- **`database_manager.py`**: an agent status is overwritten by the next save of client data (`DatabaseManager.SaveDropsAgentStatus`).
- **`ultramsg_integration.py`**: `_format_phone_number` is not idempotent. An eight-digit number formats to ten digits, and a second formatting then adds "5511" (`UltraMsg.EightDigitsFormatTwice`).
- **`app/db/database.py`**: in memory mode, `get_or_create_conversation` returns the phone's first conversation whatever its status (the Mongo branch looks only at open ones), so a closed conversation is reused.
- **`file_manager.py`**:
  - ".m4a" counts as supported audio but is uploaded to Cloudinary as raw (`FileManager.M4aUploadedRaw`);
  - animal names differing only in spaces versus underscores get the same PDF name (`FileManager.SpacesAndUnderscoresCollide`).
- **`swissre_melhorado.py`**:
  - the breed and use dropdowns are fixed options, whatever the data says;
  - the `logged_in` guard in `navegar_para_cotacao` never decides anything;
  - the generic `except` of `gerar_cotacao` cannot be reached, because every step catches its own errors;
  - `cleanup` resets the login flag only when a browser exists, which is why `SwissRe.GerarCotacao` states its fresh end state for consistent sessions;
  - `executar_cotacao_swissre` never returns a PDF.

## Model

| member | source | states |
|---|---|---|
| ConversationFlow.GetState | app/bot/conversation_flow.py:233-258 | An unknown phone reads INITIAL and creates no session. A session idle for more than ten minutes is reset and reads INITIAL. Any other session reads its stored state. Only that phone's session can change. |
| ConversationFlow.SetState | app/bot/conversation_flow.py:260-273 | Creates a fresh session when the phone has none. Otherwise only the state and the last-interaction time change. Data, count, creation time and history are kept, and every other phone is untouched. |
| ConversationFlow.UpdateData | app/bot/conversation_flow.py:275-289 | The session is created if absent. Every given key overwrites, every other key keeps its value, and the message count grows by one. |
| ConversationFlow.Reset | app/bot/conversation_flow.py:297-309 | Back to INITIAL with no data and a zero count, with both clocks at now. The quotation history survives and no other phone changes. |
| ConversationFlow.AddQuote | app/bot/conversation_flow.py:311-320 | Appends exactly one history entry to an existing session. A phone without a session is left alone. |
| ConversationFlow.MissingFields | app/bot/conversation_flow.py:322-331 | A display name is listed exactly when its one of the fourteen fields is absent or empty. The list is empty exactly when all fourteen are filled. |
| ConversationFlow.MissingFieldsInOrder | app/bot/conversation_flow.py:322-331 | The names come in the order of the field table: the a-th name is that of the a-th missing field, so each missing field is named once. |
| ConversationFlow.CompleteIffAllFilled | app/bot/conversation_flow.py:322-335 | Complete exactly when all fourteen fields hold a non-empty value. |
| ConversationFlow.ProcessInitial | app/bot/conversation_flow.py:439-444 | Always moves to MENU_PRINCIPAL. Data and history are kept. |
| ConversationFlow.ProcessMenu | app/bot/conversation_flow.py:446-483 | The next state is the transition table's entry for MENU_PRINCIPAL and the text. Only the state changes. |
| ConversationFlow.ProcessInfo | app/bot/conversation_flow.py:485-514 | The next state is the transition table's entry for INFO_EMPRESA. Data and history are kept. |
| ConversationFlow.ProcessInicio | app/bot/conversation_flow.py:516-531 | Always moves to COTACAO_COLETANDO. Nothing is extracted from the message. |
| ConversationFlow.ProcessColetando | app/bot/conversation_flow.py:533-553 | Moves to COTACAO_VALIDANDO exactly when the fourteen fields are complete, and stays in COTACAO_COLETANDO otherwise. |
| ConversationFlow.ProcessValidando | app/bot/conversation_flow.py:555-581 | A confirmation moves to COTACAO_PROCESSANDO. A correction moves back to COTACAO_COLETANDO. Anything else stays. |
| ConversationFlow.StartAgain | app/bot/conversation_flow.py:585-593 | "Nova cotação" archives a snapshot of the data, clears the data and the count, and moves to COTACAO_INICIO. |
| ConversationFlow.ProcessConcluida | app/bot/conversation_flow.py:583-614 | Follows the transition table. Data is cleared and one snapshot is appended exactly for the new-quotation options. |
| ConversationFlow.ProcessPos | app/bot/conversation_flow.py:616-656 | Follows the transition table. Data is cleared and one snapshot is appended exactly for the new-quotation options. |
| ConversationFlow.Restart | app/bot/conversation_flow.py:424-427 | A state without a handler is reset and then answered as INITIAL, which leads to MENU_PRINCIPAL with empty data and the history kept. |
| ConversationFlow.Dispatch | app/bot/conversation_flow.py:400-427 | For a message that is no hand-off request, the next state is the transition table's entry for the current state. |
| ConversationFlow.DispatchSettles | app/bot/conversation_flow.py:400-427 | Dispatch changes only the phone's session. It clears the data exactly when it resets the session, and appends a snapshot exactly when a new quotation starts. |
| ConversationFlow.ProcessUserInput | app/bot/conversation_flow.py:383-427 | The state is read with the timeout applied, and the next state follows the transition table. The resulting store differs from the one read only in that phone's session. |
| ConversationFlow.ReadIsStable | app/bot/conversation_flow.py:233-258 | Reading the state twice at the same instant gives the same state and store as reading it once. |
| ConversationFlow.AgentHoldEndsAfterTenMinutes | app/bot/conversation_flow.py:244-256 | A session held by an agent reads ATENDENTE_ATIVO exactly while it has been idle at most ten minutes. The 24-hour branch is therefore never reached. |
| ConversationFlow.HandoffFromEveryState | app/bot/conversation_flow.py:393-398 | A hand-off request leads to AGUARDANDO_ATENDENTE from every state. |
| ConversationFlow.ProcessingOnlyAfterConfirmation | app/bot/conversation_flow.py:555-562 | COTACAO_PROCESSANDO is reached exactly from COTACAO_VALIDANDO, with a confirmation that is no hand-off request. |
| ConversationFlow.Transition | app/bot/conversation_flow.py:383-656 | No message leads to ATENDENTE_ATIVO. A state without a handler goes back to MENU_PRINCIPAL unless the text asks for an agent. ENCERRADA is reached only from INFO_EMPRESA, COTACAO_CONCLUIDA and POS_COTACAO. A new quotation starts only from the menu, the company info and the two post-quotation states. |
| ConversationFlow.ValidationNeedsCompleteData | app/bot/conversation_flow.py:540-545 | COTACAO_VALIDANDO is entered only from COTACAO_COLETANDO with complete data, or by staying in it. |
| ConversationFlow.CollectingNeverProcesses | app/bot/conversation_flow.py:516-553 | From COTACAO_INICIO or COTACAO_COLETANDO the next state is always COTACAO_COLETANDO, COTACAO_VALIDANDO or AGUARDANDO_ATENDENTE. |
| BotHandler.QuotationSucceeded | app/bot/bot_handler.py:213-275 | Ends in COTACAO_CONCLUIDA with the data kept. The PDF is sent exactly when a messenger is configured and a PDF path exists. The quotation is added to the history exactly when a database is configured. Without collaborators nothing is sent or recorded. |
| BotHandler.QuotationFailedWith | app/bot/bot_handler.py:276-308 | Back to COTACAO_COLETANDO with data and history kept. The reply carries the reported error, or "Erro desconhecido". |
| BotHandler.QuotationSimulatedOnly | app/bot/bot_handler.py:310-332 | Without an automation the quotation is concluded as a simulation. Nothing is recorded in the history. |
| BotHandler.ProcessQuotation | app/bot/bot_handler.py:189-351 | The first send is always the processing announcement. An exception from the automation leaves the sessions exactly as they were. Only the sender's session can change. |
| BotHandler.Answered | app/bot/bot_handler.py:134-154 | The extraction path's answer reports the extracted data and the missing fields. Its only effects are sending and recording the reply. |
| BotHandler.ExtractionPath | app/bot/bot_handler.py:87-154 | The status is error exactly when validation raises. In that case the only effect is the apology, sent only when a messaging API is configured, and the session keeps the old data overwritten by the extracted data. Without a messaging API nothing is sent, and without a database nothing is recorded. |
| BotHandler.Continued | app/bot/bot_handler.py:128-154 | After a validation that does not raise, the outcome is neither error nor agent_active. The collaborator gates hold. |
| BotHandler.CommandPath | app/bot/bot_handler.py:156-187 | Without a messaging API nothing is sent, and without a database nothing is recorded. |
| BotHandler.Commanded | app/bot/bot_handler.py:163-187 | The command path's answer is success with the state machine's state and sessions. It notifies the agents exactly when a database is configured and the step leads to AGUARDANDO_ATENDENTE. |
| BotHandler.Route | app/bot/bot_handler.py:66-86 | Whichever branch the read state selects, nothing is sent without a messaging API and nothing is recorded without a database. |
| BotHandler.Received | app/bot/bot_handler.py:51-58 | The saving of the incoming message goes before every other effect when a database is configured, and nothing else of the outcome changes. |
| BotHandler.AgentTakeover | app/bot/bot_handler.py:366-375 | The session moves to ATENDENTE_ATIVO with data and history kept. The agent is assigned exactly when a database is configured. |
| BotHandler.AgentRelease | app/bot/bot_handler.py:377-398 | The session is reset with its history kept. The agent is released exactly when a database is configured, and the user is welcomed back exactly when a messenger is configured. |
| BotHandler.GetConversationStatus | app/bot/bot_handler.py:400-414 | The status reads the state with the timeout applied. It is complete exactly when nothing is missing, which holds exactly when all fourteen fields are filled. |
| BotHandler.UpdateKeepsReadState | app/bot/bot_handler.py:111-127 | After the data update at the same instant, the second state read sees the state of the first and applies no timeout. |
| BotHandler.InputKeepsOthers | app/bot/conversation_flow.py:383-427 | The state machine's step changes only the sender's session. |
| BotHandler.CollectingStep | app/bot/bot_handler.py:117-127 | From COTACAO_INICIO or COTACAO_COLETANDO, the state machine judges completeness on the merged data and never answers COTACAO_PROCESSANDO. |
| BotHandler.ExtractionPathOutcome | app/bot/bot_handler.py:87-154 | The extraction path stores the old data overwritten by the extracted data and never notifies an agent. It answers "error" exactly when validation raises, and then the apology is the only send and nothing moves the state. Otherwise it succeeds, with the state machine judging completeness on the merged data. |
| BotHandler.AnsweredPath | app/bot/bot_handler.py:101-154 | When validation does not raise, the extraction path answers success with the state machine's next state, stores the merged data, reports the extracted data and notifies no agent. |
| BotHandler.CommandPathOutcome | app/bot/bot_handler.py:156-187 | The command path follows the state machine. It notifies the agents exactly when it leads to AGUARDANDO_ATENDENTE with a database configured. |
| BotHandler.MessagesNeverRunQuotation | app/bot/bot_handler.py:37-99 | No incoming message reaches the quotation branch of line 130. Every outcome is agent_active, success or error. It is agent_active exactly when the session is held by an agent, and error exactly when the extraction path is taken and validation raises. |
| BotHandler.ExtractionMergesBeforeTransition | app/bot/bot_handler.py:76-122 | While a quotation is being collected, the extracted data is stored before validation can raise. Without a raise, completeness is judged on the merged data. With one, the effects are the saved incoming message and the apology, and the status is error. |
| BotHandler.AgentHeldSessionIsSilent | app/bot/bot_handler.py:67-74 | A session held by an agent gets no reply and leaves the sessions as they were. Its only effect is recording the incoming message when a database is configured. |
| BotHandler.CommandPathNotifiesAgents | app/bot/bot_handler.py:83-86 | In the other states the agents are notified exactly when the message leads to AGUARDANDO_ATENDENTE and a database is configured. |
| BotHandler.HandoffWhileCollectingNotifiesNoAgent | app/bot/bot_handler.py:76-187 | While collecting, no message notifies an agent; a hand-off request typed then still moves to AGUARDANDO_ATENDENTE (unless validation raises first). |
| BotHandler.MessageTouchesOnlySender | app/bot/bot_handler.py:37-99 | A message changes only the sender's session. |
| BotHandler.ProcessMessage | app/bot/bot_handler.py:37-99 | When a database is configured, the first effect is always the saving of the incoming message, also when an agent holds the session or processing fails. Without a messaging API nothing is sent, and without a database nothing is recorded. |
| DataExtractor.FillFields | app/bot/data_extractor.py:198-219 | Each field in the list takes its own value, and keys outside the list keep theirs. |
| DataExtractor.ExtractSimple | app/bot/data_extractor.py:135-221 | Every known field that is absent or empty takes the cleaned first hit on the lower-cased message. Unknown keys are untouched. |
| DataExtractor.ExtractSimpleKeepsFilled | app/bot/data_extractor.py:200-201 | A filled value survives the regex extraction unchanged. |
| DataExtractor.ExtractSimpleCleans | app/bot/data_extractor.py:207-215 | A CPF, value or CEP written by the extraction holds digits only. A UF it writes holds no lower-case letter. |
| DataExtractor.ExtractSimpleIdempotent | app/bot/data_extractor.py:135-221 | Extracting twice from the same message gives the same data as extracting once. |
| DataExtractor.MergeAnswer | app/bot/data_extractor.py:117-126 | With existing data, every non-blank answered value overwrites and everything else is kept. With none, the answer is returned as it came. |
| DataExtractor.MergeKeepsFilled | app/bot/data_extractor.py:118-124 | A blank answer never erases a filled field. |
| DataExtractor.ExtractWithModel | app/bot/data_extractor.py:49-133 | A decoded answer is merged: taken as it came without existing data, otherwise every non-blank answered value overwrites and the rest is kept. No JSON keeps the existing data, and a failed call falls back to the regex extraction. |
| DataExtractor.ExtractData | app/bot/data_extractor.py:33-47 | The regex extraction runs without a client and whenever the model call fails. With a client, an answer without JSON leaves the data as it was and a decoded answer is merged. |
| DataExtractor.ExtractKeepsFilled | app/bot/data_extractor.py:33-47 | On every path (regex, model merge, no JSON, model failure) a field that was filled stays filled. |
| DataExtractor.Validate | app/bot/data_extractor.py:223-270 | An error is reported exactly when its check fails. Absent or empty fields are never checked. |
| DataExtractor.ValidateDataAsWritten | app/bot/data_extractor.py:233-236 | With Python's `$`, a CPF that passes is eleven digits, optionally followed by one final newline. |
| DataExtractor.ValidateData | app/bot/data_extractor.py:223-270 | With no error, the CPF is exactly eleven digits, the CEP eight, the date is DD/MM/AAAA, the UF is one of the 27, and the value is a positive integer. |
| DataExtractor.ValidIffNoFailedCheck | app/bot/data_extractor.py:223-270 | The validation passes if and only if every filled field passes its check. |
| DataExtractor.TrailingNewlineCpf | app/bot/data_extractor.py:235 | "12345678901\n" passes the check as written, and the whole-value reading rejects it. |
| ParserValidacao.OnlyDigits | parser_validacao.py:13-14 | The digits of the text in their order. A missing text gives "". |
| ParserValidacao.NormaliseValue | parser_validacao.py:16-20 | An empty value gives "". Otherwise the result holds no comma and no space, and keeps every digit of the stripped value, in order. |
| ParserValidacao.RenameAll | parser_validacao.py:25-27 | Every item keeps its position and value, with its key renamed through MAPA_CAMPOS. |
| ParserValidacao.RenamedLookup | parser_validacao.py:24-27 | After the renaming, a key reads the value of the last item renamed to it. |
| ParserValidacao.RenamedAwayIsGone | parser_validacao.py:6-11 | A key that MAPA_CAMPOS renames away, such as "estado", is absent after the renaming. |
| ParserValidacao.UnmappedKeyKept | parser_validacao.py:24-27 | A key that MAPA_CAMPOS neither renames nor targets reads what the input last held under it. |
| ParserValidacao.RenameFixes | parser_validacao.py:26 | Outside the table, renaming lands on a key exactly from that key itself. |
| ParserValidacao.RenameCollisionLastWins | parser_validacao.py:25-27 | "nome" and "nome_solicitante" collide, and the later item wins in either order. |
| ParserValidacao.Blanks | parser_validacao.py:36 | A required key is listed exactly when its value is absent or blank after stripping. The a-th listed key is the one at the a-th blank position of the required list, so the order is that of the list and no key is listed twice. |
| ParserValidacao.BlanksEmpty | parser_validacao.py:36-39 | Nothing is listed exactly when every required key holds a non-blank value. |
| ParserValidacao.Normalise | parser_validacao.py:22-40 | The completeness flag is set exactly when nothing is missing, which holds exactly when every one of the nine required keys is non-blank. The missing list names exactly the blank required keys, in the order of the required list. The result has no duplicate key. |
| ParserValidacao.Assign | parser_validacao.py:30-33 | One assignment sets its key and leaves every other key as it was. |
| ParserValidacao.CleanUf | parser_validacao.py:32 | The cleaned UF holds no lower-case letter. |
| ParserValidacao.Normalised | parser_validacao.py:29-33 | CEP and CPF become their digits, and the UF is stripped and upper-cased. The value comes from 'valor', or else 'valor_animal', and is normalised. Every other key is untouched. |
| ParserValidacao.NormaliseFields | parser_validacao.py:22-33 | The returned dict has a digit-only CEP and CPF, an upper-case UF and the normalised value. Every other key is as the renaming left it. |
| ParserValidacao.NormaliseKeepsCleanValues | parser_validacao.py:30-31 | A CEP or CPF that is already digits only comes out unchanged. |
| Collect.Step | app/utils/animal_data_collector.py:68-83 | One guarded field block. Its own field takes the value written, if any, and every other key keeps its value. |
| Collect.ApplyRules | app/utils/animal_data_collector.py:59-208 | After the field blocks in order, each field holds its own block's outcome and keys outside the blocks keep their values. A field is reported exactly when its block wrote it, and no field is reported twice. |
| Collect.ReportedInRuleOrder | app/utils/animal_data_collector.py:59-208 | `updated_fields` follows the order of the field blocks: its a-th key is that of the a-th block that writes its field. |
| Collect.ApplyKeepsFilled | app/utils/animal_data_collector.py:68 | A truthy field survives the extraction unchanged and is not reported. |
| Collect.ApplyReports | app/utils/animal_data_collector.py:59-208 | A reported key was empty before and now holds a value. An unreported key holds what it held before. |
| Collect.ApplyIdempotent | app/utils/animal_data_collector.py:59-208 | Extracting a second time from the same message changes nothing. |
| UtilsCollector.Guard | app/utils/animal_data_collector.py:79 | A cleaned capture is kept exactly when it is longer than the minimum, and then unchanged. |
| UtilsCollector.Rules | app/utils/animal_data_collector.py:59-208 | One block per required field, in REQUIRED_FIELDS order, with no field twice. |
| UtilsCollector.ExtractAndUpdate | app/utils/animal_data_collector.py:59-208 | A truthy field never changes. Only required fields that were empty are written, each reported once, and every other key is untouched. |
| UtilsCollector.LengthGuards | app/utils/animal_data_collector.py:79-203 | A written name, registration, breed or use has more than two characters. A written stable address has more than five. |
| UtilsCollector.AcceptedLongerThan | app/utils/animal_data_collector.py:117-203 | Whatever the guarded blocks accept is longer than their minimum. |
| UtilsCollector.SexoFirstOption | app/utils/animal_data_collector.py:166-172 | An empty sexo is written exactly when an option of SEXO_OPTIONS occurs in the lower-cased message. The value written is the title-cased first such option. |
| UtilsCollector.ExtractIdempotent | app/utils/animal_data_collector.py:59-208 | Running the collector again on the same message changes no field. |
| UtilsCollector.MissingFields | app/utils/animal_data_collector.py:210-216 | A display name is listed exactly when its field is empty. The list is empty exactly when all eight fields are filled. |
| UtilsCollector.IsComplete | app/utils/animal_data_collector.py:218-220 | Complete exactly when every required field is truthy. |
| UtilsCollector.FormattedForSwissre | app/utils/animal_data_collector.py:240-254 | None exactly when the data is incomplete. Otherwise the result has exactly the eight required keys, with the collected values. |
| BotCollector.NomeAccept | app/bot/animal_data_collector.py:64-71 | A kept name has more than two characters and is not a numeral. |
| BotCollector.ValorText | app/bot/animal_data_collector.py:84 | The captured value with the thousands points dropped and the comma made a point. No comma remains, and the digits are those of the capture, in order. |
| BotCollector.RegistroAccept | app/bot/animal_data_collector.py:101-108 | A kept registration has more than two characters. |
| BotCollector.RacaAccept | app/bot/animal_data_collector.py:122-130 | A breed is kept exactly when it names a known breed or has more than three characters. It is kept title-cased. |
| BotCollector.DateAccept | app/bot/animal_data_collector.py:140-158 | The rendering of the first format that parses the text to a year from 1990 to the current year. None exactly when no format does. |
| BotCollector.Sexo | app/bot/animal_data_collector.py:161-169 | Male words win over gelding words, which win over female words. There is no value exactly when no word of any list occurs. |
| BotCollector.FirstUse | app/bot/animal_data_collector.py:181-185 | The first use, in dict order, one of whose keywords occurs. None exactly when none occurs. |
| BotCollector.Utilizacao | app/bot/animal_data_collector.py:171-185 | The title-cased name of the first use, in dict order, one of whose keywords the message contains. None exactly when it contains none. |
| BotCollector.Address | app/bot/animal_data_collector.py:208-211 | The address has the "CEP: NNNNN-NNN" shape and carries the given CEP at positions 5 to 13. It ends there exactly when the city is empty; otherwise ", " and the city follow. |
| BotCollector.Endereco | app/bot/animal_data_collector.py:188-213 | An address is built exactly when the message holds a CEP. It stores the hyphenated spelling of the first CEP match. It stops after the CEP exactly when no city pattern gives a non-blank city; otherwise it ends with the stripped, title-cased city of the first city pattern that matches. |
| BotCollector.WriteFrom | app/bot/animal_data_collector.py:44-215 | Each field with a hit takes that hit, whatever it held. Every other key keeps its value, and the keys stay distinct. |
| BotCollector.ReportedFrom | app/bot/animal_data_collector.py:44-215 | The a-th reported key is the key of the a-th field, from the given one on, that has a hit, so the keys come in field order. |
| BotCollector.Reported | app/bot/animal_data_collector.py:44-215 | A field is reported exactly when it has a hit. Every reported key is a known field and none is reported twice. |
| BotCollector.ReportedInFieldOrder | app/bot/animal_data_collector.py:44-215 | The updated-fields list of one extraction names the fields with a hit in the order the collector tries them. |
| BotCollector.ExtractAndUpdate | app/bot/animal_data_collector.py:44-215 | Every field the message gives a value is overwritten, and every unknown key keeps its value. The written keys are reported exactly once each. |
| BotCollector.LaterMatchOverwrites | app/bot/animal_data_collector.py:69-213 | No guard protects a filled field. Two collectors that differ only in their earlier data agree on every field the message gives. |
| BotCollector.DateYearInRange | app/bot/animal_data_collector.py:146-151 | A written birth date is the rendering of a format that parsed a capture to a year from 1990 to the current one. |
| BotCollector.MissingFields | app/bot/animal_data_collector.py:223-227 | A key is listed exactly when it is a required field that is absent or empty. The a-th key is that of the a-th such field in REQUIRED_FIELDS order, so the list follows that order and names no field twice. |
| BotCollector.CompleteIffNoneMissing | app/bot/animal_data_collector.py:217-227 | is_complete holds exactly when no field is missing. |
| BotCollector.FormattedForSwissre | app/bot/animal_data_collector.py:244-259 | Always all eight fields, with '' for an absent one, plus the phone and the timestamp, whether complete or not. |
| BotCollector.SummaryLines | app/bot/animal_data_collector.py:236-242 | A line is listed exactly for an item with a non-empty value, under the field's display name or, if unknown, its key. The a-th line belongs to the a-th such item, so the lines follow the dict's insertion order. |
| BotCollector.GetSummary | app/bot/animal_data_collector.py:229-242 | "Nothing collected" exactly when the data is empty. Otherwise one line per non-empty item, in insertion order. |
| Cep.Search | app/bot/swissre_melhorado.py:347-348 | The leftmost match of five digits, an optional hyphen and three digits. None exactly when no position starts a match. |
| Cep.Hyphenated | app/bot/animal_data_collector.py:191-193 | A match without a hyphen gains one after the fifth digit. |
| Cep.SpellingsAgree | app/bot/animal_data_collector.py:191-193 | The collector's hyphenated spelling and the quotation's unhyphenated one carry the same eight digits. |
| Patterns.FirstMatch | app/bot/data_extractor.py:202-219 | The capture of the first pattern that matches. None exactly when no pattern matches. |
| Patterns.FirstAccepted | app/utils/animal_data_collector.py:68-83 | The first hit that post-processing accepts. A rejected hit falls through to the next pattern, and the result is None exactly when no hit is accepted. |
| Patterns.FirstAcceptedKeep | app/bot/data_extractor.py:202-219 | When every hit is kept, the first accepted hit is the first hit. |
| MainBot.ReplaceEachMaps | main.py:68-69 | For this table, replacing one pair after another is the same as mapping every character through the table once. |
| MainBot.ReplacementsSettled | main.py:52-66 | Every letter the table produces is plain ASCII, and every letter it replaces is not. |
| MainBot.CleanText | main.py:49-71 | Every listed accented letter becomes its plain counterpart and every other character stays. The length is kept and no listed letter is left. |
| MainBot.CleanTextIdempotent | main.py:49-71 | Cleaning an already cleaned text changes nothing. |
| MainBot.CleanTextOfPlain | main.py:49-71 | A text with no listed letter is returned as it is. |
| MainBot.SimpleRules | main.py:117-160 | One rule per extracted key, in dict order, keeping the hit as captured, with no key twice. |
| MainBot.ExtractSimple | main.py:113-162 | A truthy field is kept. An empty one takes the first hit of its patterns on the lower-cased message, if any. Keys without patterns are untouched. |
| MainBot.ExtractSimpleIdempotent | main.py:113-162 | Extracting again from the same message changes nothing. |
| MainBot.GenerateResponse | main.py:164-244 | The phone's counter goes up by one and its data is extracted afresh, with other phones untouched. The greeting is sent exactly on the first message. "All collected" is sent exactly when every field is filled on a later message. Otherwise the collected and the missing fields are listed. |
| MainBot.ReplyPartition | main.py:183-188 | Each required field is listed exactly once, as collected or as missing. |
| MainBot.AddressNeverCollected | main.py:119-151 | No pattern writes endereco_cocheira. A client whose address is empty keeps it empty and is never told that everything was collected. |
| ResponseGenerator.FillFrom | response_generator.py:190-197 | Each field from a given one on takes its own outcome. Every other key keeps its value and the keys stay distinct. |
| ResponseGenerator.ExtractSimple | response_generator.py:176-198 | A truthy field keeps its value. An empty or absent one takes the stripped first hit of its patterns on the lower-cased message, or stays as it was. Every other key is untouched. |
| ResponseGenerator.ExtractSimpleStable | response_generator.py:176-198 | Running the simple extraction again on the same message changes no value. |
| ResponseGenerator.ExtractAnimalData | response_generator.py:86-174 | Without a key, or after an exception, the simple extraction. Without JSON, the existing data as it was. With JSON, the answer merged over the existing data and normalised, with the flag set exactly when nothing is missing. |
| ResponseGenerator.ModelValueWins | response_generator.py:163-168 | On the model path, a key that normalisation leaves alone holds the model's value when the model gave one, and the earlier value otherwise. |
| ResponseGenerator.LabelsCoverRequired | response_generator.py:218-223 | Every key normaliza_e_valida can report missing has a label in obrigatorios_pt. |
| ResponseGenerator.CollectedLines | response_generator.py:224-225 | A line is listed exactly for a labelled item with a non-empty value. The a-th line belongs to the a-th such item, so the lines follow dict order. |
| ResponseGenerator.MissingLabels | response_generator.py:223 | One label per missing key, in the same order. |
| ResponseGenerator.CompleteLines | response_generator.py:213-214 | One line per summary key, in the fixed order, with its value. |
| ResponseGenerator.MissingAllLabelled | response_generator.py:222-223 | Every key normaliza_e_valida reports missing has a label, so that lookup never raises. |
| ResponseGenerator.ReplyFor | response_generator.py:211-233 | The complete summary exactly when the flag is set and every summary key is present. The partial lists exactly when the flag is unset. The error template exactly when a summary key is absent. |
| ResponseGenerator.GenerateResponse | response_generator.py:200-233 | The welcome text exactly on the first message. Later replies follow the extracted data, and a partial reply is given exactly when the flag is unset. |
| ResponseGenerator.ModelCompleteIsSummarised | response_generator.py:211-215 | A flag set by normaliza_e_valida always gives the complete summary and never the error template. |
| ResponseGenerator.SummaryKeysRequired | response_generator.py:213-214 | Every summary key is one of the keys normaliza_e_valida checks. |
| ResponseGenerator.FallbackStaysPartial | response_generator.py:86-90 | Without the model's JSON the flag is never set, so an unset flag keeps every reply partial. |
| ResponseGenerator.TruthyPositions | response_generator.py:294-310 | The positions of the truthy keys, in increasing order, and no others. |
| ResponseGenerator.FormatFinalSummary | response_generator.py:289-320 | One line per truthy key, in the fixed order, and no other line. |
| HandoffHandler.CheckForHandoffRequest | app/bot/handler.py:65-70 | Reports a hand-off exactly when the lowercased message contains one of the six keywords. |
| HandoffHandler.ContainsTail | app/bot/handler.py:18-25 | Text that contains a longer keyword ending in a shorter one also contains the shorter one. |
| HandoffHandler.CoreKeywordsSuffice | app/bot/handler.py:18-25 | "falar com atendente" and "falar com humano" add nothing: the test gives the same answer over "atendente", "humano", "suporte" and "ajuda humana". |
| HandoffHandler.GetBotResponse | app/bot/handler.py:72-100 | Without an API key the reply is the not-configured apology and no hand-off. Otherwise a keyword gives the transfer text and the flag. Failing that, the reply is the model's answer, or the apology when the call raised. |
| HandoffHandler.AttendantAnywhere | app/bot/handler.py:65-70 | Any message whose lowercased text holds "atendente" at some position is a hand-off request. |
| UltraMsg.CleaningKeepsDigits | ultramsg_integration.py:53 | Removing "whatsapp:" and '+' and stripping whitespace leaves the digits of the number unchanged. |
| UltraMsg.FormatPhoneNumber | ultramsg_integration.py:41-70 | Always '+' then "55" then digits only. The result is the country-code rules applied to the digits of the input. |
| UltraMsg.WithCountryCode | ultramsg_integration.py:59-68 | 11 digits starting "11" gain "55". Ten digits gain "5511". Anything else lacking "55" gains "55". The result always starts "55" and never loses digits. |
| UltraMsg.FormatTwice | ultramsg_integration.py:41-70 | Formatting its own output changes nothing exactly when that output has other than ten digits after the '+'. |
| UltraMsg.EightDigitsFormatTwice | ultramsg_integration.py:59-68 | An eight-digit local number becomes "+55" and the number. Formatting that again changes it, so the formatter is not idempotent. |
| UltraMsg.Report | ultramsg_integration.py:93-115 | One attempt succeeds exactly on a 200 answer. An empty 200 body reports the empty object. |
| UltraMsg.MakeRequest | ultramsg_integration.py:72-144 | At most four attempts. It stops at the first 200, and every earlier attempt failed. A failure is reported only once the retries are used up. |
| UltraMsg.RequestSucceedsIffSomeOk | ultramsg_integration.py:72-144 | A request succeeds exactly when one of the first four attempts meets a 200. No earlier attempt did. |
| UltraMsg.Send | ultramsg_integration.py:146-185 | The phone is sent formatted and the original is recorded. The send succeeds exactly when some attempt among the retries meets a 200. |
| UltraMsg.ResultFor | ultramsg_integration.py:427-442 | An entry is sent exactly when it has both a non-empty phone and a non-empty message. Otherwise the error names the entry's phone. |
| UltraMsg.SendBulkMessages | ultramsg_integration.py:415-444 | One result per entry, in order. Sends are made exactly for the complete entries, in order. |
| UltraMsg.CompleteEntriesAppend | ultramsg_integration.py:427-442 | Appending an entry adds its send exactly when it is complete. |
| UltraMsg.Dispatch | ultramsg_integration.py:456-480 | With no media the body goes as text. Otherwise the first extension list matching anywhere in the lowercased URL picks image, document or audio. Any other URL goes as a document named "arquivo". |
| UltraMsgApi.FormatPhone | app/integrations/ultramsg_api.py:221-242 | '+' then "55" then digits only. "55" is added exactly when the digits do not already start with it. |
| UltraMsgApi.FormatPhoneIdempotent | app/integrations/ultramsg_api.py:221-242 | Formatting a formatted number changes nothing. |
| UltraMsgApi.FormattedIsFixed | app/integrations/ultramsg_api.py:221-242 | A number already written "+55" and digits is returned as it is. |
| UltraMsgApi.MakeRequest | app/integrations/ultramsg_api.py:28-62 | The token is added to the data, overwriting any earlier one, and every other key is kept in order. Success comes exactly from a 200 answer with a JSON body. A 200 answer with another body, like a connection error, gives "Erro de conexão: " and the message. Other statuses, timeouts and other exceptions give their own messages. |
| DatabaseManager.StatusOf | database_manager.py:49-53 | 'completed' exactly when all eight fields are filled, and 'collecting' otherwise. |
| DatabaseManager.SaveClientData | database_manager.py:21-59 | A new phone gets a record. New values overwrite old ones and other keys are kept. The counter goes up by one, and the status is 'completed' exactly when the merged data is complete. Other phones are untouched and the result is always success. |
| DatabaseManager.GetClientData | database_manager.py:61-63 | The stored record exactly when the phone is known, None otherwise. |
| DatabaseManager.GetMissingFields | database_manager.py:65-86 | A name is listed exactly when its field is absent or empty, and every name for an unknown phone. For a known phone the list is empty exactly when the data is complete. |
| DatabaseManager.GetMissingFieldsInOrder | database_manager.py:65-86 | The names come in the order of the field table: all eight, in order, for an unknown phone, and the a-th missing field's name at position a otherwise. |
| DatabaseManager.SavedStatusMatchesMissing | database_manager.py:49-86 | After a save, the status is 'completed' exactly when nothing is missing. |
| DatabaseManager.HistoryAppend | database_manager.py:109-111 | Logging one entry extends only its own phone's history, by exactly that entry. |
| DatabaseManager.SaveConversation | database_manager.py:88-107 | One entry is appended to the phone's history, numbered one past its length. Every other history and every client record is unchanged. |
| DatabaseManager.SaveConversationNumbered | database_manager.py:96-105 | Saving keeps every phone's entries numbered 1, 2, 3, … in order. |
| DatabaseManager.GetStatistics | database_manager.py:117-130 | The total is the number of clients and the completed count the number whose status is 'completed'; the collecting count is the rest, and the conversation count the number of entries. With clients, the rate times the total is the completed count times 100. The rate is 100 exactly when there are clients and all are completed, and 0 exactly when none is. |
| DatabaseManager.ExportClientData | database_manager.py:132-146 | Nothing unless the client exists with status 'completed'. Otherwise its data, history and counter. |
| DatabaseAdapter.LastMessage | database_adapter.py:48-53 | The phone's last saved message, or "" when it has no history. |
| DatabaseAdapter.SaveMessage | database_adapter.py:28-62 | One entry is appended to the phone's history with the next number. A user message is saved with an empty response. A bot reply is saved as the response to the last saved message. Other phones are unchanged. |
| DatabaseAdapter.ReplyPairsWithMessage | database_adapter.py:45-57 | A user message followed by the bot's reply leaves one entry holding both, after one holding the message alone. |
| DatabaseAdapter.NotifyAgentNeeded | database_adapter.py:64-81 | A known client becomes 'awaiting_agent' with nothing else changed but the time. An unknown phone changes nothing. |
| DatabaseAdapter.AssignAgent | database_adapter.py:83-101 | A known client becomes 'agent_active' with the agent and the instant recorded. Every other part of the record, updated_at, data, count, quotations and creation time included, is unchanged. An unknown phone changes nothing. |
| DatabaseAdapter.ReleaseAgent | database_adapter.py:103-122 | A known client goes back to 'collecting' with no agent recorded. Every other part of the record, updated_at and count included, is unchanged. An unknown phone changes nothing. |
| DatabaseAdapter.AssignThenRelease | database_adapter.py:83-122 | Assigning and then releasing gives back the record with status 'collecting' and no agent. |
| DatabaseAdapter.SaveQuotationPdf | database_adapter.py:124-165 | A known phone's record gains exactly one quotation and a new update time; its phone, creation time, data, status, count and agent are kept. An unknown phone gets a 'completed' record with no data, count 0, no agent, both times set to now, and the one quotation. Other clients and the log are untouched. |
| DatabaseAdapter.QuotationCompletesEmptyClient | database_adapter.py:138-152 | A quotation for an unknown phone leaves a client that is 'completed' and exportable, although all eight fields are missing. |
| DatabaseAdapter.SaveDropsAgentStatus | database_manager.py:45-52 | The next data save recomputes the status from the fields, so an assigned agent's status is lost. |
| MemoryDatabase.FindConversation | app/db/database.py:146-149 | The first stored conversation for the phone, in insertion order, whatever its status. None exactly when the phone has none. |
| MemoryDatabase.GetOrCreateConversation | app/db/database.py:141-155 | The phone's existing conversation, with nothing changed. Otherwise a new 'bot_active' conversation is created under the next id. |
| MemoryDatabase.SamePhoneSameConversation | app/db/database.py:141-155 | Asking again for the same phone at any later instant gives the same id and changes nothing. |
| MemoryDatabase.GetConversationStatus | app/db/database.py:170-175 | The stored status, or 'bot_active' for an unknown id. |
| MemoryDatabase.SetConversationStatus | app/db/database.py:196-199 | A known conversation takes the status and the instant, and nothing else changes. An unknown id changes nothing. |
| MemoryDatabase.SetThenGetStatus | app/db/database.py:170-199 | Reading back after a set gives that status for a known id, and 'bot_active' otherwise. |
| MemoryDatabase.SaveMessage | app/db/database.py:70-113 | The phone's conversation is found or created, and the message is stored once under it. The conversation id is returned and the store stays well-formed. |
| MemoryDatabase.MessagesOfAppend | app/db/database.py:104-107 | Saving a message adds exactly that message to its own conversation and none to any other. |
| MemoryDatabase.Prefix | app/db/database.py:229 | Python's `s[:limit]`: the first `limit` elements. A negative limit counts from the end. |
| MemoryDatabase.InsertDescSorted | app/db/database.py:227-228 | Inserting into a list sorted by descending time keeps it sorted. |
| MemoryDatabase.SortDesc | app/db/database.py:227-228 | The sort is a permutation of its input. |
| MemoryDatabase.SortDescSorted | app/db/database.py:227-228 | The sorted list is in descending order of time. |
| MemoryDatabase.GetConversationMessages | app/db/database.py:221-229 | The conversation's own messages, newest first, cut to the limit. All of them when the limit is large enough. |
| MemoryDatabase.GetConversationMessagesKeepsNewest | app/db/database.py:221-229 | The kept messages are the newest: none is kept more often than it is stored, and every stored message left out is at most as recent as every message kept. |
| MemoryDatabase.SaveAnimalData | app/db/database.py:253-254 | The record for the conversation is replaced and every other record is kept. |
| MemoryDatabase.GetAnimalData | app/db/database.py:270-273 | The saved data exactly when a record exists. |
| MemoryDatabase.SaveThenGetAnimal | app/db/database.py:253-273 | What was saved is read back, even when empty, and other conversations read as before. |
| MemoryDatabase.ActiveFrom | app/db/database.py:296-305 | Exactly the active conversations, with their ids. |
| MemoryDatabase.GetActiveConversations | app/db/database.py:296-305 | A permutation of the active conversations, each listed once, most recently updated first. There is one entry per active conversation. |
| MemoryDatabase.GetConversationStats | app/db/database.py:328-338 | The total is the number of conversations. The active count equals the number of active conversations and the length of the active list. The message count is the number of messages. |
| FileManager.Basename | app/utils/file_manager.py:115 | A suffix of the path with no '/'. Either it is the whole path or a '/' precedes it. |
| FileManager.LastDot | app/utils/file_manager.py:83 | None exactly when there is no dot. Otherwise it is a dot's position with no dot after it. |
| FileManager.Extension | app/utils/file_manager.py:83 | `os.path.splitext(...)[1]`: a suffix of the path that is empty or is a dot and then neither dot nor '/'. It is empty exactly when the last component has no dot after a non-dot character. |
| FileManager.ExtensionOfName | app/utils/file_manager.py:83 | A name with a stem and a dotted final word has that word, with its dot, as its extension. |
| FileManager.ResourceType | app/utils/file_manager.py:83-92 | An image extension gives image. A video or audio extension gives video. Anything else gives raw. Each holds in both directions. |
| FileManager.IsFileTypeSupported | app/utils/file_manager.py:321-341 | True exactly when the lowercased extension is in the type's list. An unknown type supports nothing. |
| FileManager.ImagesAgree | app/utils/file_manager.py:83-92 | Cloudinary receives a file as an image exactly when it is a supported image file. |
| FileManager.M4aUploadedRaw | app/utils/file_manager.py:83-92 | ".m4a" counts as supported audio, yet such a file is uploaded as raw, not as video. |
| FileManager.GetFileUrl | app/utils/file_manager.py:294-304 | The base URL, the fixed fourteen-character "/static_files/" segment, then the file name. |
| FileManager.UploadFileToPublicUrl | app/utils/file_manager.py:55-129 | When Cloudinary is on, its URL or nothing. Otherwise a URL exactly when the copy worked, and that URL is the static URL of the path's basename. |
| FileManager.PdfFilename | app/utils/file_manager.py:153-159 | "cotacao_", then the animal's name with every space made '_', then ".pdf". It is "cotacao_seguro.pdf" when there is no name. No space ever remains. |
| FileManager.PdfCaption | app/utils/file_manager.py:152-159 | The caption starts with the document title. With an animal name, " - " and the name follow it; without one, the closing line follows directly. |
| FileManager.SpacesAndUnderscoresCollide | app/utils/file_manager.py:153-159 | Two names that differ only in spaces versus underscores give the same filename. |
| FileManager.SendPdfToWhatsapp | app/utils/file_manager.py:131-192 | No public URL gives no send and False. Otherwise the document is sent with the derived name and caption. Only when it is delivered does the follow-up text go, and True come back. |
| FileManager.SendImageToWhatsapp | app/utils/file_manager.py:194-226 | No URL gives no send and False. Otherwise exactly one image send, whose success is the answer. |
| FileManager.SendAudioToWhatsapp | app/utils/file_manager.py:228-259 | No URL gives no send and False. Otherwise exactly one audio send, whose success is the answer. |
| FileManager.SendDocumentToWhatsapp | whatsapp_file_manager.py:245-283 | No URL gives no send and False. Otherwise one document send with the given caption. It is named by the given filename, or by the path's basename when that is missing or empty. |
| FileManager.NoUrlNoSend | app/utils/file_manager.py:146-150 | A file without a public URL is never sent by any of the four senders and never reported as sent. |
| FileManager.FirstStop | app/utils/file_manager.py:268-292 | The position of the first regular file whose getmtime raises, or which is old and whose unlink raises; every entry before it gets through. The listing's length when there is none. |
| FileManager.CleanupOldFiles | app/utils/file_manager.py:261-292 | The removed names are those of the old regular files before the first failing entry, in listing order: the a-th removed name is that of the a-th such file. A name is removed exactly when some old regular file before that entry has it. |
| FileManager.CleanupWithoutFailures | app/utils/file_manager.py:261-292 | When no getmtime or unlink raises, a name is removed exactly when an old regular file has it. |
| FileManager.FailureStopsCleanup | app/utils/file_manager.py:268-292 | An old file whose unlink raises ends the cleanup: every removed name belongs to an old file listed before it. |
| SwissRe.ExtractCep | app/bot/swissre_melhorado.py:344-351 | None exactly when the address holds no CEP-shaped match. Otherwise the eight digits of the first match, with its hyphen removed. |
| SwissRe.HyphenDeleted | app/bot/swissre_melhorado.py:349 | Deleting '-' from a CEP match leaves exactly its eight digits. |
| SwissRe.CepField | app/bot/swissre_melhorado.py:292-298 | Always eight digits. It is "76280000" when the address has no CEP, and the match's digits otherwise. |
| SwissRe.BirthDate | app/bot/swissre_melhorado.py:264-268 | The typed date has no '/'. It keeps every digit in order and adds no character. |
| SwissRe.BirthDateOfSlashed | app/bot/swissre_melhorado.py:264-268 | DD/MM/AAAA is typed as DDMMAAAA. |
| SwissRe.SexoOption | app/bot/swissre_melhorado.py:277-284 | "inteiro" and "castrado", in any case, pick their own options. Everything else, including unknown text, picks "2 - Fêmea". Each holds in both directions. |
| SwissRe.AnimalForm | app/bot/swissre_melhorado.py:246-321 | The animal step fails exactly when one of the five keys it reads is missing. Otherwise name and registration are copied, the CEP is eight digits, the date has no '/', and the sex is one of the three options. |
| SwissRe.FormReadsFiveKeys | app/bot/swissre_melhorado.py:255-311 | Data that agree on the five keys fill the same form. Breed, use and value never reach the site. |
| SwissRe.Cleanup | app/bot/swissre_melhorado.py:390-398 | No browser remains open afterwards. A consistent session returns to the fresh state. |
| SwissRe.LoginFrom | app/bot/swissre_melhorado.py:58-147 | The login succeeds exactly when one of the remaining attempts up to three reaches the logged-in page. It stops at the first such attempt. A failure has used all three. |
| SwissRe.LoginSwissre | app/bot/swissre_melhorado.py:52-147 | It logs in exactly when a browser is or can be started and one of three attempts succeeds. Success leaves an open, logged-in session. Failure leaves the login flag as it was, and consistency is kept. |
| SwissRe.GerarCotacao | app/bot/swissre_melhorado.py:353-388 | Success exactly when every step passes, with the success message. Otherwise the message is that of the first failing step. The browser is always closed afterwards, and a consistent start ends fresh. |
| SwissRe.ExecutarCotacaoSwissre | app/bot/swissre_melhorado.py:400-417 | A run from a fresh session succeeds exactly when every step passes. On success the message is the success text; otherwise it is the failure message of the first step that does not pass, every earlier step having passed. No PDF path is ever returned. |
| SwissRe.CollectorDataFillsForm | app/bot/swissre_melhorado.py:255-298 | The data the collector formats for the quotation always holds the five keys the form reads. |

## Left out

- The MongoDB branches of `app/db/database.py` and of the collectors' persistence. Only the in-memory branches are modelled, because the others are calls into a database server.
- Browser automation: `setup_driver`, the element lookups, clicks, waits and screenshots of `swissre_melhorado.py`. The site's behaviour is a parameter (`SwissRe.Site`): whether the driver starts, at which login attempts the logged-in page shows, and whether each later step gets through.
- SwissRe.LoginFrom: the inner branches of one login attempt (which fields and buttons are found, the retries after a page error) collapse into one yes/no per attempt, because they only decide whether that attempt reaches the logged-in page.
- SwissRe.GerarCotacao: `_selecionar_dropdown` swallows its own errors. A step's success is therefore the site's answer as a whole, not the outcome of each dropdown.
- Network calls, `time.sleep`, URL quoting and the latin-1 re-decoding of the request payload. A request's outcome is a parameter per attempt, and sends are returned as effects.
- The language-model prompts and the parsing of the model's free text. The model's answer is a parameter: a JSON object, no JSON, or an exception.
- Speech and audio processing, Twilio wrappers, and the PDF storage in MongoDB. They are I/O around the core.
- The web applications (`main_ultramsg.py`, `app.py`, `app_corrigido.py`, `wsgi.py`, `gunicorn.conf.py`), the agent portal templates and their login. They are HTTP routing and HTML.
- `DatabaseAdapter.reset_client` (database_adapter.py:201-203): it delegates to a `reset_client` the manager does not define, so every call raises `AttributeError`. There is no behaviour to model.
- `get_file_size`, file metadata and the existence checks of the file managers. They only read the file system.
- The regular-expression engine. Patterns are abstract matchers in their source order, except the CEP pattern.
- Calendar parsing with `strptime` and the float formatting of an animal's value as currency text (`R$ 1.234,56`). Both are parameters of the collectors (`UtilsCollector`, `BotCollector`); the model proves the rules around them.
- DatabaseManager.GetStatistics: `completion_rate` is an exact real, not a Python float. Its rounding is not modelled.
- FileManager.CleanupOldFiles: `time.time()` and `os.path.getmtime` give float seconds; the model reads them as whole seconds, so a file within a second of the age limit may be judged differently. A missing or unlistable directory is read as an empty listing, and the log lines are left out.
- Text.LowerStr: the case mapping covers ASCII and the Latin-1 letters only. Python's full Unicode `str.lower`, `str.upper` and `str.title` differ for other scripts. Every member that lowercases inherits this, including SwissRe.SexoOption, HandoffHandler.CheckForHandoffRequest and UltraMsg.Dispatch.
- Text.IsDigit: `\d` and `str.isdigit` are read as ASCII digits. Python also accepts other Unicode decimal digits.
- MemoryDatabase.GetConversationMessages: the contract states the conversation's messages in descending timestamp order. For messages with equal timestamps it does not state Python's order, which keeps insertion order.
- UltraMsgApi.MakeRequest: assumes requests 2.27 or later, where the JSON decoding error of `response.json()` is a `RequestException`. With an older requests it is a plain `ValueError`, and a 200 answer whose body is not JSON would give "Erro inesperado: " instead of "Erro de conexão: ".
- BotHandler.ProcessMessage: of the exceptions the `except Exception` branch of `process_message` catches, only the one `validate_data` raises on a value that is not a text is modelled, and only as the flag `Extractor.validationRaises` given with each message. Data values are texts in the model, so which keys hold numbers, lists or objects from the language model's JSON is not tracked. Exceptions from the collaborators (database, messaging API) are not modelled either. The returned "message" (the exception text) is left out.
- The free-form `metadata` of a stored message and the `conversation_history` argument of `get_bot_response`. Neither affects any modelled decision.

## Findings

| source | as written | input that shows it | evidently intended | confidence | as-written member | corrected member |
|---|---|---|---|---|---|---|
| app/bot/data_extractor.py:233-248 | `re.match(r'^\d{11}$', cpf)` and the CEP and date checks use `$` (modelled by DataExtractor.ValidateDataAsWritten). In Python `$` also matches just before a final newline, so a value ending in "\n" passes. | `cpf_solicitante` = "12345678901\n" (twelve characters) is accepted as a valid CPF. | Exactly eleven digits and nothing else (`\Z` or `re.fullmatch`). | not executed | DataExtractor.TrailingNewlineCpf | DataExtractor.ValidateData |

=== FILE: bot_collector.dfy ===
/*
 * The overwriting collector of the eight horse fields
 * (app/bot/animal_data_collector.py): every field with a hit in the message
 * is written, whatever it held before; sexo and utilização come from keyword
 * lists with a fixed precedence; the stable address is built around the
 * first CEP in the message.
 *
 * The collected data is an insertion-ordered dict, as the summary lists the
 * fields in the order they were first written. Patterns are abstract; the
 * currency text of a value and the date formats are parameters.
 */
module BotCollector {
  import opened Wrappers
  import opened Text
  import opened Fields
  import opened Patterns
  import opened OrderedDict
  import opened Positions
  import Cep

  /** REQUIRED_FIELDS, in dict order: key and display name. */
  const Schema: Fields.Schema := [
    Field("nome_animal", "Nome do Animal"),
    Field("valor_animal", "Valor do Animal"),
    Field("registro_passaporte", "Número de Registro/Passaporte"),
    Field("raca", "Raça"),
    Field("data_nascimento", "Data de Nascimento"),
    Field("sexo", "Sexo"),
    Field("utilizacao", "Utilização"),
    Field("endereco_cocheira", "Endereço da Cocheira")
  ]

  /** The eight keys are distinct: all lengths differ except "raca" and "sexo", which differ at the start. */
  lemma SchemaKeysDistinct()
    ensures forall i, j | 0 <= i < j < |Schema| :: Schema[i].key != Schema[j].key
  {
    assert |Schema[0].key| == 11 && |Schema[1].key| == 12 && |Schema[2].key| == 19 && |Schema[3].key| == 4;
    assert |Schema[4].key| == 15 && |Schema[5].key| == 4 && |Schema[6].key| == 10 && |Schema[7].key| == 17;
    assert Schema[3].key[0] != Schema[5].key[0];
  }

  /** The regex lists the collector leaves abstract: five fields and the city next to a CEP. */
  datatype BotPatterns = BotPatterns(
    nome: seq<Matcher>, valor: seq<Matcher>, registro: seq<Matcher>, raca: seq<Matcher>,
    nascimento: seq<Matcher>, cidade: seq<Matcher>)

  /** `datetime.strptime(text, fmt)`: the year and the `DD/MM/YYYY` rendering of a parsed date. */
  datatype ParsedDate = ParsedDate(year: int, text: string)

  /**
   * The conversions the model leaves abstract: the currency text of a
   * captured value (None unless it parses as a positive float), and one
   * parser per date format, in the order they are tried.
   */
  datatype BotConversions = BotConversions(value: string -> Option<string>, formats: seq<string -> Option<ParsedDate>>)

  // ------------------------------------------------------------ field checks

  /** `str.isdigit()` on a non-empty text. */
  predicate IsNumeral(s: string) {
    |s| > 0 && AllDigits(s)
  }

  /** A name is kept when, title-cased, it has more than two characters and is not a number. */
  function NomeAccept(x: string): (r: Option<string>)
    ensures r.Some? ==> |r.value| > 2 && !IsNumeral(r.value)
  {
    var n := Title(Strip(x));
    if |n| > 2 && !IsNumeral(n) then Some(n) else None
  }

  /**
   * `match.group(1).replace('.', '').replace(',', '.')`: the thousands
   * points dropped and the decimal comma turned into a point. No comma is
   * left, and the digits are those of the capture, in order.
   */
  function ValorText(x: string): (r: string)
    ensures forall i | 0 <= i < |r| :: r[i] != ','
    ensures Digits(r) == Digits(x)
  {
    var a := Replace(x, ".", "");
    assert Digits(".") == [];
    DigitsOfDeletion(x, ".");
    ReplaceChar(a, ',', '.');
    ReplaceKeepsDigits(a, ',', '.');
    Replace(a, ",", ".")
  }

  /** The currency text of a captured value. */
  function ValorAccept(c: BotConversions, x: string): Option<string> {
    c.value(ValorText(x))
  }

  /** A registration is kept upper-cased when longer than two characters. */
  function RegistroAccept(x: string): (r: Option<string>)
    ensures r.Some? ==> |r.value| > 2
  {
    var t := UpperStr(Strip(x));
    if |t| > 2 then Some(t) else None
  }

  const KnownBreeds: seq<string> := [
    "quarto de milha", "puro sangue inglês", "mangalarga", "crioulo", "andaluz", "árabe",
    "appaloosa", "paint horse", "campolina", "brasileiro de hipismo", "lusitano", "friesian",
    "clydesdale"
  ]

  /** `any(r in raca for r in racas_conhecidas) or len(raca) > 3`. */
  predicate BreedLike(raca: string) {
    (exists i | 0 <= i < |KnownBreeds| :: Contains(raca, KnownBreeds[i])) || |raca| > 3
  }

  /** A breed is kept title-cased when it names a known breed or has more than three characters. */
  function RacaAccept(x: string): (r: Option<string>)
    ensures r.Some? <==> BreedLike(Strip(x))
    ensures r.Some? ==> r.value == Title(Strip(x))
  {
    if BreedLike(Strip(x)) then Some(Title(Strip(x))) else None
  }

  /** The year test of a parsed date. */
  predicate InRange(pd: Option<ParsedDate>, currentYear: int) {
    pd.Some? && 1990 <= pd.value.year <= currentYear
  }

  /**
   * The format loop: the rendering of the first format that parses the
   * text to a year between 1990 and the current year; a format that parses
   * to another year falls through to the next.
   */
  function DateAccept(formats: seq<string -> Option<ParsedDate>>, currentYear: int, x: string): (r: Option<string>)
    ensures r.None? <==> forall i | 0 <= i < |formats| :: !InRange(formats[i](x), currentYear)
    ensures r.Some? ==>
              exists i | 0 <= i < |formats| ::
                && InRange(formats[i](x), currentYear)
                && r.value == formats[i](x).value.text
                && forall j | 0 <= j < i :: !InRange(formats[j](x), currentYear)
  {
    if formats == [] then None
    else if InRange(formats[0](x), currentYear) then Some(formats[0](x).value.text)
    else
      var r := DateAccept(formats[1..], currentYear, x);
      assert forall j | 1 <= j < |formats| :: formats[j] == formats[1..][j - 1];
      r
  }

  // ---------------------------------------------------------- keyword fields

  const Males: seq<string> := ["macho", "inteiro", "garanhão"]
  const Geldings: seq<string> := ["castrado", "capado"]
  const Females: seq<string> := ["fêmea", "égua", "potra"]

  /** The sexo chain: male words first, then gelding words, then female words. */
  function Sexo(lower: string): (r: Option<string>)
    ensures ContainsAny(lower, Males) ==> r == Some("Macho/Inteiro")
    ensures !ContainsAny(lower, Males) && ContainsAny(lower, Geldings) ==> r == Some("Castrado")
    ensures !ContainsAny(lower, Males) && !ContainsAny(lower, Geldings) && ContainsAny(lower, Females) ==> r == Some("Fêmea")
    ensures r.None? <==> !ContainsAny(lower, Males) && !ContainsAny(lower, Geldings) && !ContainsAny(lower, Females)
  {
    if ContainsAny(lower, Males) then Some("Macho/Inteiro")
    else if ContainsAny(lower, Geldings) then Some("Castrado")
    else if ContainsAny(lower, Females) then Some("Fêmea")
    else None
  }

  /** `utilizacoes`, in dict order: each use with its keywords. */
  const Uses: seq<(string, seq<string>)> := [
    ("lazer", ["lazer", "passeio", "recreação"]),
    ("salto", ["salto", "hipismo", "obstáculo"]),
    ("laço", ["laço", "rodeio", "vaquejada"]),
    ("corrida", ["corrida", "turfe", "galope"]),
    ("adestramento", ["adestramento", "dressage"]),
    ("reprodução", ["reprodução", "cobertura", "monta"])
  ]

  /** The first use, in dict order, one of whose keywords the message contains. */
  function FirstUse(uses: seq<(string, seq<string>)>, lower: string): (r: Option<string>)
    ensures r.None? <==> forall i | 0 <= i < |uses| :: !ContainsAny(lower, uses[i].1)
    ensures r.Some? ==>
              exists i | 0 <= i < |uses| ::
                && ContainsAny(lower, uses[i].1)
                && r.value == uses[i].0
                && forall j | 0 <= j < i :: !ContainsAny(lower, uses[j].1)
  {
    if uses == [] then None
    else if ContainsAny(lower, uses[0].1) then Some(uses[0].0)
    else
      var r := FirstUse(uses[1..], lower);
      assert forall j | 1 <= j < |uses| :: uses[j] == uses[1..][j - 1];
      r
  }

  /**
   * `uso.title()` of the first use, in dict order, one of whose keywords the
   * message contains; nothing when it contains none.
   */
  function Utilizacao(lower: string): (r: Option<string>)
    ensures r.None? <==> forall i | 0 <= i < |Uses| :: !ContainsAny(lower, Uses[i].1)
    ensures r.Some? ==>
              exists i | 0 <= i < |Uses| ::
                && ContainsAny(lower, Uses[i].1)
                && r.value == Title(Uses[i].0)
                && forall j | 0 <= j < i :: !ContainsAny(lower, Uses[j].1)
  {
    match FirstUse(Uses, lower)
    case Some(u) => Some(Title(u))
    case None => None
  }

  /** "CEP: NNNNN-NNN", optionally followed by ", " and more. */
  predicate AddressShaped(r: string) {
    && |r| >= 14 && r[..5] == "CEP: "
    && AllDigits(r[5..10]) && r[10] == '-' && AllDigits(r[11..14])
    && (|r| == 14 || (|r| >= 16 && r[14..16] == ", "))
  }

  /** `f"CEP: {cep}"`, with `f", {cidade}"` appended for a non-empty city. */
  function Address(cep: string, city: string): (r: string)
    requires |cep| == 9 && AllDigits(cep[..5]) && cep[5] == '-' && AllDigits(cep[6..])
    ensures AddressShaped(r)
    ensures r[5..14] == cep
    ensures |r| == 14 <==> city == ""
    ensures city != "" ==> r[16..] == city
  {
    var head := "CEP: " + cep;
    assert head[5..10] == cep[..5] && head[11..14] == cep[6..] && head[..5] == "CEP: ";
    if city != "" then
      var r := head + ", " + city;
      assert r[..14] == head && r[14..16] == ", ";
      assert r[..5] == "CEP: " && r[5..10] == cep[..5] && r[11..14] == cep[6..];
      r
    else head
  }

  /**
   * The stable address: "CEP: " and the first CEP of the message, always
   * hyphenated, then ", " and the title-cased city when a city pattern
   * gives a non-blank one.
   */
  function Endereco(cidade: seq<Matcher>, message: string, lower: string): (r: Option<string>)
    ensures r.Some? <==> Cep.Search(message).Some?
    ensures r.Some? ==> AddressShaped(r.value)
    ensures r.Some? ==> r.value[5..14] == Cep.Hyphenated(Cep.Search(message).value)
    ensures r.Some? ==> (|r.value| == 14 <==> City(cidade, lower) == "")
    ensures r.Some? && City(cidade, lower) != "" ==> r.value[16..] == City(cidade, lower)
  {
    match Cep.Search(message)
    case None => None
    case Some(m) => Some(Address(Cep.Hyphenated(m), City(cidade, lower)))
  }

  /** The title-cased, stripped capture of the first city pattern that matches, or "". */
  function City(cidade: seq<Matcher>, lower: string): string {
    match FirstMatch(cidade, lower) case Some(g) => Title(Strip(g)) case None => ""
  }

  // ---------------------------------------------------------------- writing

  /** What the message gives each of the eight fields, in the order the method tries them. */
  function Writes(p: BotPatterns, c: BotConversions, currentYear: int, message: string): (r: seq<Option<string>>)
    ensures |r| == |Schema|
  {
    var lower := LowerStr(message);
    [
      FirstAccepted(p.nome, lower, NomeAccept),
      FirstAccepted(p.valor, lower, x => ValorAccept(c, x)),
      FirstAccepted(p.registro, lower, RegistroAccept),
      FirstAccepted(p.raca, lower, RacaAccept),
      FirstAccepted(p.nascimento, message, x => DateAccept(c.formats, currentYear, x)),
      Sexo(lower),
      Utilizacao(lower),
      Endereco(p.cidade, message, lower)
    ]
  }

  /** The data after the writes and the keys written, in the order written. */
  datatype Collected = Collected(data: Items, updated: seq<string>)

  predicate Known(k: string) {
    exists i | 0 <= i < |Schema| :: Schema[i].key == k
  }

  /** The key of a field from `from` on. */
  predicate KnownFrom(k: string, from: nat) {
    exists i | from <= i < |Schema| :: Schema[i].key == k
  }

  /** The writes from field `from` on: each hit overwrites its field, whatever it held. */
  function WriteFrom(d: Items, writes: seq<Option<string>>, from: nat): (r: Items)
    requires |writes| == |Schema| && from <= |Schema|
    ensures forall i | from <= i < |Schema| ::
              Lookup(r, Schema[i].key) == if writes[i].Some? then writes[i] else Lookup(d, Schema[i].key)
    ensures forall k | !KnownFrom(k, from) :: Lookup(r, k) == Lookup(d, k)
    ensures DistinctKeys(d) ==> DistinctKeys(r)
    decreases |Schema| - from
  {
    if from == |Schema| then d
    else
      SchemaKeysDistinct();
      var key := Schema[from].key;
      var next := if writes[from].Some? then Set(d, key, writes[from].value) else d;
      SetKeepsDistinctWhen(d, key, writes[from]);
      var r := WriteFrom(next, writes, from + 1);
      WriteFromStep(d, next, r, writes, from);
      r
  }

  /** One step of WriteFrom: field `from` gets its write, and the later fields and the other keys see only theirs. */
  lemma WriteFromStep(d: Items, next: Items, r: Items, writes: seq<Option<string>>, from: nat)
    requires |writes| == |Schema| && from < |Schema|
    requires next == if writes[from].Some? then Set(d, Schema[from].key, writes[from].value) else d
    requires forall i | from + 1 <= i < |Schema| ::
               Lookup(r, Schema[i].key) == if writes[i].Some? then writes[i] else Lookup(next, Schema[i].key)
    requires forall k | !KnownFrom(k, from + 1) :: Lookup(r, k) == Lookup(next, k)
    ensures forall i | from <= i < |Schema| ::
              Lookup(r, Schema[i].key) == if writes[i].Some? then writes[i] else Lookup(d, Schema[i].key)
    ensures forall k | !KnownFrom(k, from) :: Lookup(r, k) == Lookup(d, k)
  {
    SchemaKeysDistinct();
    var key := Schema[from].key;
    assert !KnownFrom(key, from + 1);
    assert Lookup(r, key) == Lookup(next, key);
    forall i | from < i < |Schema|
      ensures Lookup(r, Schema[i].key) == if writes[i].Some? then writes[i] else Lookup(d, Schema[i].key)
    {
      assert Schema[i].key != key;
      assert Lookup(next, Schema[i].key) == Lookup(d, Schema[i].key);
    }
    forall k | !KnownFrom(k, from)
      ensures Lookup(r, k) == Lookup(d, k)
    {
      assert !KnownFrom(k, from + 1) && k != key;
    }
  }

  /** Which fields have a hit. */
  function HitFlags(writes: seq<Option<string>>): (r: seq<bool>)
    ensures |r| == |writes|
    ensures forall i | 0 <= i < |writes| :: r[i] == writes[i].Some?
  {
    seq(|writes|, i requires 0 <= i < |writes| => writes[i].Some?)
  }

  /**
   * The keys of the fields from `from` on that have a hit, in field order:
   * the a-th key is the one at the a-th position with a hit.
   */
  function ReportedFrom(writes: seq<Option<string>>, from: nat): (r: seq<string>)
    requires |writes| == |Schema| && from <= |Schema|
    ensures |r| == |SetFrom(HitFlags(writes), from)|
    ensures forall a | 0 <= a < |r| :: r[a] == Schema[SetFrom(HitFlags(writes), from)[a]].key
  {
    PickFrom(KeysOf(Schema), HitFlags(writes), from)
  }

  /** The keys reported for a message: each field with a hit, once, and nothing else. */
  function Reported(writes: seq<Option<string>>): (r: seq<string>)
    requires |writes| == |Schema|
    ensures forall i | 0 <= i < |Schema| :: Schema[i].key in r <==> writes[i].Some?
    ensures forall k | k in r :: Known(k)
    ensures NoDuplicates(r)
  {
    var r := ReportedFrom(writes, 0);
    ReportedMembers(writes, r);
    ReportedKnown(writes, r);
    r
  }

  /** A list that names the positions with a hit in order names exactly the hit fields. */
  lemma ReportedMembers(writes: seq<Option<string>>, r: seq<string>)
    requires |writes| == |Schema|
    requires |r| == |SetFrom(HitFlags(writes), 0)|
    requires forall a | 0 <= a < |r| :: r[a] == Schema[SetFrom(HitFlags(writes), 0)[a]].key
    ensures forall i | 0 <= i < |Schema| :: Schema[i].key in r <==> writes[i].Some?
  {
    ReportedOnlyHits(writes, r);
    var f := HitFlags(writes);
    var p := SetFrom(f, 0);
    SetFromCovers(f, 0);
    forall i | 0 <= i < |Schema| && writes[i].Some?
      ensures Schema[i].key in r
    {
      assert f[i];
      var a :| 0 <= a < |p| && p[a] == i;
      assert r[a] == Schema[i].key;
    }
  }

  /** Such a list names no field without a hit. */
  lemma ReportedOnlyHits(writes: seq<Option<string>>, r: seq<string>)
    requires |writes| == |Schema|
    requires |r| == |SetFrom(HitFlags(writes), 0)|
    requires forall a | 0 <= a < |r| :: r[a] == Schema[SetFrom(HitFlags(writes), 0)[a]].key
    ensures forall i | 0 <= i < |Schema| && Schema[i].key in r :: writes[i].Some?
  {
    SchemaKeysDistinct();
    var p := SetFrom(HitFlags(writes), 0);
    forall i | 0 <= i < |Schema| && Schema[i].key in r
      ensures writes[i].Some?
    {
      var a :| 0 <= a < |r| && r[a] == Schema[i].key;
      assert Schema[p[a]].key == Schema[i].key;
    }
  }

  /** Such a list holds only field keys, none twice. */
  lemma ReportedKnown(writes: seq<Option<string>>, r: seq<string>)
    requires |writes| == |Schema|
    requires |r| == |SetFrom(HitFlags(writes), 0)|
    requires forall a | 0 <= a < |r| :: r[a] == Schema[SetFrom(HitFlags(writes), 0)[a]].key
    ensures forall k | k in r :: Known(k)
    ensures NoDuplicates(r)
  {
    SchemaKeysDistinct();
    var p := SetFrom(HitFlags(writes), 0);
    forall k | k in r
      ensures Known(k)
    {
      var a :| 0 <= a < |r| && r[a] == k;
      assert Schema[p[a]].key == k;
    }
  }

  lemma SetKeepsDistinctWhen(d: Items, k: string, w: Option<string>)
    ensures w.Some? && DistinctKeys(d) ==> DistinctKeys(Set(d, k, w.value))
  {
    if w.Some? && DistinctKeys(d) {
      SetKeepsDistinct(d, k, w.value);
    }
  }

  /**
   * extract_and_update_data: every field the message gives a value is
   * overwritten; the others, and every unknown key, keep what they held;
   * the written keys are reported once each.
   */
  function ExtractAndUpdate(p: BotPatterns, c: BotConversions, currentYear: int, d: Items, message: string): (r: Collected)
    ensures var w := Writes(p, c, currentYear, message);
            forall i | 0 <= i < |Schema| ::
              Lookup(r.data, Schema[i].key) == if w[i].Some? then w[i] else Lookup(d, Schema[i].key)
    ensures forall k | !Known(k) :: Lookup(r.data, k) == Lookup(d, k)
    ensures forall i | 0 <= i < |Schema| :: Schema[i].key in r.updated <==> Writes(p, c, currentYear, message)[i].Some?
    ensures NoDuplicates(r.updated)
    ensures DistinctKeys(d) ==> DistinctKeys(r.data)
  {
    var w := Writes(p, c, currentYear, message);
    Collected(WriteFrom(d, w, 0), Reported(w))
  }

  /** The written keys are reported in field order: the a-th is the key of the a-th field with a hit. */
  lemma ReportedInFieldOrder(p: BotPatterns, c: BotConversions, currentYear: int, d: Items, message: string)
    ensures var u := ExtractAndUpdate(p, c, currentYear, d, message).updated;
            var hits := SetFrom(HitFlags(Writes(p, c, currentYear, message)), 0);
            |u| == |hits| && forall a | 0 <= a < |u| :: u[a] == Schema[hits[a]].key
  {
    var w := Writes(p, c, currentYear, message);
    assert ExtractAndUpdate(p, c, currentYear, d, message).updated == ReportedFrom(w, 0);
  }

  /**
   * No guard protects a filled field: a field the message gives a value
   * ends with that value whatever the data held, so two collectors that
   * differ only in their earlier data agree on it.
   */
  lemma LaterMatchOverwrites(p: BotPatterns, c: BotConversions, currentYear: int, d: Items, e: Items, message: string, i: int)
    requires 0 <= i < |Schema| && Writes(p, c, currentYear, message)[i].Some?
    ensures Lookup(ExtractAndUpdate(p, c, currentYear, d, message).data, Schema[i].key)
         == Lookup(ExtractAndUpdate(p, c, currentYear, e, message).data, Schema[i].key)
         == Writes(p, c, currentYear, message)[i]
  {
  }

  /** A written birth date is the rendering of a format that parsed a capture to a year from 1990 to the current one. */
  lemma DateYearInRange(p: BotPatterns, c: BotConversions, currentYear: int, message: string)
    requires Writes(p, c, currentYear, message)[4].Some?
    ensures exists x, i | 0 <= i < |c.formats| ::
              && InRange(c.formats[i](x), currentYear)
              && Writes(p, c, currentYear, message)[4].value == c.formats[i](x).value.text
  {
    var w := Writes(p, c, currentYear, message)[4];
    var accept := x => DateAccept(c.formats, currentYear, x);
    var k :| 0 <= k < |p.nascimento| && AcceptedAt(p.nascimento, message, accept, k) && w == accept(p.nascimento[k](message).value);
    var x := p.nascimento[k](message).value;
    assert w == DateAccept(c.formats, currentYear, x);
  }

  // ----------------------------------------------------------------- queries

  /** get_missing_fields: the keys, not the names, of the fields absent or empty, in field order. */
  function MissingFrom(d: Items, from: nat): (r: seq<string>)
    requires from <= |Schema|
    ensures forall k :: k in r <==> exists i | from <= i < |Schema| :: Schema[i].key == k && !Truthy(d, k)
    decreases |Schema| - from
  {
    if from == |Schema| then []
    else
      var head := if Truthy(d, Schema[from].key) then [] else [Schema[from].key];
      var rest := MissingFrom(d, from + 1);
      assert forall k :: k in head + rest <==> k in head || k in rest;
      head + rest
  }

  /** Which fields, in field order, are absent or empty. */
  function Unfilled(d: Items): (r: seq<bool>)
    ensures |r| == |Schema| && forall i | 0 <= i < |Schema| :: r[i] == !Truthy(d, Schema[i].key)
  {
    seq(|Schema|, i requires 0 <= i < |Schema| => !Truthy(d, Schema[i].key))
  }

  /** The missing keys from `from` on are the keys at the unfilled positions. */
  lemma {:induction false} MissingFromPicks(d: Items, from: nat)
    requires from <= |Schema|
    ensures MissingFrom(d, from) == PickFrom(KeysOf(Schema), Unfilled(d), from)
    decreases |Schema| - from
  {
    if from < |Schema| {
      MissingFromPicks(d, from + 1);
    }
  }

  /**
   * The missing keys, in field order: the a-th key is that of the a-th field
   * that is absent or empty, so no key is listed twice.
   */
  function MissingFields(d: Items): (r: seq<string>)
    ensures forall k :: k in r <==> Known(k) && !Truthy(d, k)
    ensures |r| == |SetFrom(Unfilled(d), 0)|
    ensures forall a | 0 <= a < |r| :: r[a] == Schema[SetFrom(Unfilled(d), 0)[a]].key
  {
    MissingFromPicks(d, 0);
    MissingFrom(d, 0)
  }

  /** is_complete: every field present and truthy. */
  predicate IsComplete(d: Items) {
    forall i | 0 <= i < |Schema| :: Truthy(d, Schema[i].key)
  }

  lemma CompleteIffNoneMissing(d: Items)
    ensures IsComplete(d) <==> MissingFields(d) == []
  {
    var m := MissingFields(d);
    if m != [] {
      assert m[0] in m;
    } else {
      forall i | 0 <= i < |Schema| ensures Truthy(d, Schema[i].key) {
        assert Schema[i].key !in m;
      }
    }
  }

  /**
   * get_formatted_data_for_swissre: all eight fields, '' for an absent one,
   * plus the phone and the timestamp, complete or not.
   */
  function FormattedForSwissre(d: Items, phone: string, timestamp: string): (r: Data)
    ensures forall k :: k in r <==> Known(k) || k == "phone_number" || k == "timestamp"
    ensures forall k | Known(k) :: r[k] == GetOr(d, k)
    ensures r["phone_number"] == phone && r["timestamp"] == timestamp
  {
    SchemaKeysDistinct();
    ExtrasUnknown();
    var fields := map i | 0 <= i < |Schema| :: Schema[i].key := GetOr(d, Schema[i].key);
    fields["phone_number" := phone]["timestamp" := timestamp]
  }

  /** The two extra keys of the formatted data are no field keys. */
  lemma ExtrasUnknown()
    ensures !Known("phone_number") && !Known("timestamp")
  {
    assert |Schema[0].key| == 11 && |Schema[1].key| == 12 && |Schema[2].key| == 19 && |Schema[3].key| == 4;
    assert |Schema[4].key| == 15 && |Schema[5].key| == 4 && |Schema[6].key| == 10 && |Schema[7].key| == 17;
    assert Schema[1].key[0] != "phone_number"[0];
  }

  /** `REQUIRED_FIELDS.get(field, field)`. */
  function DisplayName(k: string): string {
    if exists i | 0 <= i < |Schema| :: Schema[i].key == k then
      var i :| 0 <= i < |Schema| && Schema[i].key == k; Schema[i].name
    else k
  }

  /** get_summary: no data at all, or one line per item with a non-empty value. */
  datatype Summary = NothingCollected | Lines(lines: seq<(string, string)>)

  /** Which items of the data have a non-empty value. */
  function Filled(d: Items): (r: seq<bool>)
    ensures |r| == |d| && forall i | 0 <= i < |d| :: r[i] == (d[i].1 != "")
  {
    seq(|d|, i requires 0 <= i < |d| => d[i].1 != "")
  }

  /**
   * The summary lines: the a-th line names the a-th item with a non-empty
   * value, so the lines follow the dict's insertion order.
   */
  function SummaryLines(d: Items): (r: seq<(string, string)>)
    ensures |r| <= |d|
    ensures forall line :: line in r <==> exists i | 0 <= i < |d| :: d[i].1 != "" && line == (DisplayName(d[i].0), d[i].1)
    ensures |r| == |SetFrom(Filled(d), 0)|
    ensures forall a | 0 <= a < |r| ::
              var i := SetFrom(Filled(d), 0)[a]; r[a] == (DisplayName(d[i].0), d[i].1)
  {
    var lines := seq(|d|, i requires 0 <= i < |d| => (DisplayName(d[i].0), d[i].1));
    PickFromMembers(lines, Filled(d));
    PositionsBound(SetFrom(Filled(d), 0), |d|);
    PickFrom(lines, Filled(d), 0)
  }

  /** The summary lists the items in insertion order, skipping empty values. */
  function GetSummary(d: Items): (r: Summary)
    ensures r.NothingCollected? <==> d == []
    ensures r.Lines? ==> forall line :: line in r.lines <==> exists i | 0 <= i < |d| :: d[i].1 != "" && line == (DisplayName(d[i].0), d[i].1)
    ensures r.Lines? ==> |r.lines| == |SetFrom(Filled(d), 0)|
    ensures r.Lines? ==> forall a | 0 <= a < |r.lines| ::
              var i := SetFrom(Filled(d), 0)[a]; r.lines[a] == (DisplayName(d[i].0), d[i].1)
  {
    if d == [] then NothingCollected else Lines(SummaryLines(d))
  }
}

=== FILE: bot_handler.dfy ===
/*
 * The message handler of the bot (app/bot/bot_handler.py): it decides, from
 * the session's state, whether a message carries quotation data to extract or
 * a menu option, drives the conversation state machine, runs the quotation
 * automation when the machine asks for it, and hands sessions to and from
 * human agents.
 *
 * The handler's collaborators (the database adapter, the messaging API, the
 * quotation automation) are optional. Their calls are returned as a list of
 * effects, in the order they are made; what the automation answers is a
 * parameter. The clock `now` is one instant for the whole message.
 */
module BotHandler {
  import opened Wrappers
  import opened Fields
  import opened DataExtractor
  import opened ConversationFlow

  /** Which optional collaborators the handler was built with. */
  datatype Collaborators = Collaborators(hasDb: bool, hasMessenger: bool)

  /**
   * How the data extractor answers: whether a language model is configured,
   * its answer, the regex lists, and whether validate_data raises on the
   * extracted data. The model's data values are texts; a language model may
   * answer a number, a list or an object instead, and validate_data raises
   * when cpf_solicitante, cep, data_nascimento or uf holds a truthy value
   * that is not a text, or valor_animal one that int() cannot take.
   */
  datatype Extractor = Extractor(hasClient: bool, answer: ModelAnswer, patterns: PatternTable, validationRaises: bool)

  /**
   * What the quotation automation's `process_quotation` did: a result with
   * `success` (its `cotacao_id` and `pdf_path`), a result without it (its
   * `error`, if any), or an exception.
   */
  datatype AutomationResult =
    | Succeeded(cotacaoId: Option<string>, pdfPath: Option<string>)
    | Failed(error: Option<string>)
    | Raised

  /** The texts the handler sends or records. */
  datatype Message =
    | FlowReply(reply: Reply)
    | Incoming(text: string)
    | QuoteDone(cotacaoId: Option<string>)
    | QuoteFailed(reason: string)
    | QuoteSimulated
    | QuoteError
    | WelcomeBack
    | Apology

  datatype Sender = User | Bot

  /** One call into a collaborator. */
  datatype Effect =
    | SaveMessage(phone: string, sender: Sender, message: Message, messageType: string)
    | Send(phone: string, message: Message)
    | SendDocument(phone: string, pdfPath: string, cotacaoId: Option<string>)
    | SaveQuotationPdf(phone: string, cotacaoId: Option<string>, pdfPath: string, data: Data)
    | NotifyAgentNeeded(phone: string)
    | AssignAgent(phone: string, agentId: string)
    | ReleaseAgent(phone: string)

  /** The "status" of the dict process_message returns. */
  datatype Status =
    | AgentActive
    | Success
    | QuotationSuccess
    | QuotationFailed
    | QuotationSimulated
    | QuotationError
    | Error

  /**
   * The outcome of one message: the returned dict (status, state, should_reply,
   * response, and on the extraction path the extracted data and the missing
   * fields), the sessions afterwards and the collaborator calls made.
   */
  datatype Outcome = Outcome(
    status: Status,
    state: Option<State>,
    shouldReply: bool,
    response: Option<Message>,
    extracted: Option<Data>,
    missing: Option<seq<string>>,
    store: Store,
    effects: seq<Effect>)

  /** _send_response: a send when the messaging API is configured, nothing otherwise. */
  function SendIf(c: Collaborators, phone: string, m: Message): seq<Effect> {
    if c.hasMessenger then [Send(phone, m)] else []
  }

  /** Saving a bot message, when a database is configured. */
  function LogIf(c: Collaborators, phone: string, m: Message): seq<Effect> {
    if c.hasDb then [SaveMessage(phone, Bot, m, "text")] else []
  }

  /** No message or document reaches the user. */
  predicate Silent(effects: seq<Effect>) {
    forall i | 0 <= i < |effects| :: !effects[i].Send? && !effects[i].SendDocument?
  }

  /** No database call. */
  predicate Unrecorded(effects: seq<Effect>) {
    forall i | 0 <= i < |effects| :: effects[i].Send? || effects[i].SendDocument?
  }

  /** The sessions of phones other than `phone` are as they were, and no session disappeared. */
  predicate OthersKept(before: Store, after: Store, phone: string) {
    before.Keys <= after.Keys && after.Keys <= before.Keys + {phone}
    && forall p | p in before && p != phone :: after[p] == before[p]
  }

  /** Both gates survive concatenation. */
  lemma GatesAppend(a: seq<Effect>, b: seq<Effect>)
    ensures Silent(a) && Silent(b) ==> Silent(a + b)
    ensures Unrecorded(a) && Unrecorded(b) ==> Unrecorded(a + b)
  {
    assert forall i | 0 <= i < |a + b| :: (a + b)[i] == if i < |a| then a[i] else b[i - |a|];
  }

  // --------------------------------------------------------------- quotation

  /** The automation produced a quotation: conclude, save and send its PDF when there is one, record it. */
  function QuotationSucceeded(c: Collaborators, store: Store, phone: string, data: Data,
                              id: Option<string>, pdf: Option<string>, now: int): (r: Outcome)
    ensures OthersKept(store, r.store, phone)
    ensures r.status == QuotationSuccess && r.state == Some(CotacaoConcluida) && At(r.store, phone, CotacaoConcluida)
    ensures r.shouldReply && r.response == Some(QuoteDone(id))
    ensures GetData(r.store, phone) == GetData(store, phone)
    ensures HistoryOf(r.store, phone)
            == HistoryOf(store, phone) + (if c.hasDb then [Quotation(id, data, pdf, now)] else [])
    ensures (exists i | 0 <= i < |r.effects| :: r.effects[i].SendDocument?) <==> c.hasMessenger && pdf.Some? && pdf.value != ""
    ensures !c.hasMessenger ==> Silent(r.effects)
    ensures !c.hasDb ==> Unrecorded(r.effects)
  {
    var hasPdf := pdf.Some? && pdf.value != "";
    var saved := if c.hasDb && hasPdf then [SaveQuotationPdf(phone, id, pdf.value, data)] else [];
    var document := if c.hasMessenger && hasPdf then [SendDocument(phone, pdf.value, id)] else [];
    var concluded := SetState(store, phone, CotacaoConcluida, now);
    var m := QuoteDone(id);
    var recorded := if c.hasDb then AddQuote(concluded, phone, Quotation(id, data, pdf, now)) else concluded;
    var effects := saved + document + SendIf(c, phone, m) + LogIf(c, phone, m);
    assert document != [] ==> effects[|saved|] == document[0];
    Outcome(QuotationSuccess, Some(CotacaoConcluida), true, Some(m), None, None, recorded, effects)
  }

  /** The automation reported a failure: back to collecting, with the data kept. */
  function QuotationFailedWith(c: Collaborators, store: Store, phone: string, error: Option<string>, now: int): (r: Outcome)
    ensures OthersKept(store, r.store, phone)
    ensures r.status == QuotationFailed && r.state == Some(CotacaoColetando) && At(r.store, phone, CotacaoColetando)
    ensures r.shouldReply && r.response == Some(QuoteFailed(error.UnwrapOr("Erro desconhecido")))
    ensures GetData(r.store, phone) == GetData(store, phone) && HistoryOf(r.store, phone) == HistoryOf(store, phone)
    ensures !c.hasMessenger ==> Silent(r.effects)
    ensures !c.hasDb ==> Unrecorded(r.effects)
  {
    var m := QuoteFailed(error.UnwrapOr("Erro desconhecido"));
    Outcome(QuotationFailed, Some(CotacaoColetando), true, Some(m), None, None,
            SetState(store, phone, CotacaoColetando, now), SendIf(c, phone, m) + LogIf(c, phone, m))
  }

  /** No automation configured: the quotation is concluded as a simulation, with nothing recorded. */
  function QuotationSimulatedOnly(c: Collaborators, store: Store, phone: string, now: int): (r: Outcome)
    ensures OthersKept(store, r.store, phone)
    ensures r.status == QuotationSimulated && r.state == Some(CotacaoConcluida) && At(r.store, phone, CotacaoConcluida)
    ensures r.shouldReply && r.response == Some(QuoteSimulated)
    ensures GetData(r.store, phone) == GetData(store, phone) && HistoryOf(r.store, phone) == HistoryOf(store, phone)
    ensures !c.hasMessenger ==> Silent(r.effects)
    ensures Unrecorded(r.effects)
  {
    Outcome(QuotationSimulated, Some(CotacaoConcluida), true, Some(QuoteSimulated), None, None,
            SetState(store, phone, CotacaoConcluida, now), SendIf(c, phone, QuoteSimulated))
  }

  /**
   * _process_quotation: announce the processing, then run the automation.
   * An exception from the automation leaves the session as it was.
   */
  function ProcessQuotation(c: Collaborators, automation: Option<AutomationResult>, store: Store, phone: string,
                            data: Data, initial: Reply, now: int): (r: Outcome)
    ensures OthersKept(store, r.store, phone)
    ensures r.shouldReply && r.status in {QuotationSuccess, QuotationFailed, QuotationSimulated, QuotationError}
    ensures automation == Some(Raised) ==> r.status == QuotationError && r.state.None? && r.store == store
    ensures c.hasMessenger ==> |r.effects| > 0 && r.effects[0] == Send(phone, FlowReply(initial))
    ensures !c.hasMessenger ==> Silent(r.effects)
    ensures !c.hasDb ==> Unrecorded(r.effects)
  {
    var announced := SendIf(c, phone, FlowReply(initial)) + LogIf(c, phone, FlowReply(initial));
    var rest :=
      match automation
      case None => QuotationSimulatedOnly(c, store, phone, now)
      case Some(Raised) => Outcome(QuotationError, None, true, Some(QuoteError), None, None, store, SendIf(c, phone, QuoteError))
      case Some(Failed(error)) => QuotationFailedWith(c, store, phone, error, now)
      case Some(Succeeded(id, pdf)) => QuotationSucceeded(c, store, phone, data, id, pdf, now);
    GatesAppend(announced, rest.effects);
    rest.(effects := announced + rest.effects)
  }

  // ------------------------------------------------------------------- paths

  /** extract_data over the session's data, as the extraction path calls it. */
  function Extract(ext: Extractor, store: Store, phone: string, message: string): Data {
    ExtractData(ext.hasClient, ext.answer, ext.patterns, message, GetData(store, phone))
  }

  /**
   * _process_with_data_extraction: extract, store the extracted data,
   * validate it, then let the state machine move on; a move to
   * COTACAO_PROCESSANDO runs the quotation. When validation raises, the
   * exception reaches process_message, which sends an apology (without
   * recording it) and answers "error"; the extracted data stays stored.
   */
  function ExtractionPath(c: Collaborators, ext: Extractor, automation: Option<AutomationResult>,
                          store: Store, phone: string, message: string, now: int): (r: Outcome)
    ensures r.status == Error <==> ext.validationRaises
    ensures ext.validationRaises ==>
              && r.response == Some(Apology) && r.effects == SendIf(c, phone, Apology)
              && GetData(r.store, phone) == GetData(store, phone) + Extract(ext, store, phone, message)
    ensures !c.hasMessenger ==> Silent(r.effects)
    ensures !c.hasDb ==> Unrecorded(r.effects)
  {
    var extracted := Extract(ext, store, phone, message);
    var updated := UpdateData(store, phone, extracted, now);
    if ext.validationRaises then
      assert GetData(updated, phone) == GetData(store, phone) + extracted;
      Outcome(Error, None, true, Some(Apology), None, None, updated, SendIf(c, phone, Apology))
    else Continued(c, automation, phone, ProcessUserInput(updated, phone, message, now), extracted, now)
  }

  /** After a validation that does not raise: the quotation on a move to COTACAO_PROCESSANDO, the ordinary answer otherwise. */
  function Continued(c: Collaborators, automation: Option<AutomationResult>, phone: string, step: Step, extracted: Data, now: int)
    : (r: Outcome)
    ensures r.status != Error && r.status != AgentActive
    ensures !c.hasMessenger ==> Silent(r.effects)
    ensures !c.hasDb ==> Unrecorded(r.effects)
  {
    if step.state == CotacaoProcessando then ProcessQuotation(c, automation, step.store, phone, extracted, step.reply, now)
    else Answered(c, phone, step, extracted)
  }

  /** Two steps that each change only the sender's session change only that session together. */
  lemma OthersKeptChain(a: Store, b: Store, c: Store, phone: string)
    requires OthersKept(a, b, phone) && OthersKept(b, c, phone)
    ensures OthersKept(a, c, phone)
  {
  }

  /** The state machine's step changes only the sender's session. */
  lemma InputKeepsOthers(store: Store, phone: string, message: string, now: int)
    ensures OthersKept(store, ProcessUserInput(store, phone, message, now).store, phone)
  {
    var read := GetState(store, phone, now);
    assert read.store.Keys == store.Keys;
    assert forall p | p in store && p != phone :: read.store[p] == store[p];
  }

  /** The extraction path's ordinary answer: send and record the reply, report the extracted data and what is missing. */
  function Answered(c: Collaborators, phone: string, step: Step, extracted: Data): (r: Outcome)
    ensures r.status == Success && r.state == Some(step.state) && r.store == step.store && r.extracted == Some(extracted)
    ensures r.missing == Some(MissingFields(step.store, phone))
    ensures forall e | e in r.effects :: e == Send(phone, FlowReply(step.reply)) || e == SaveMessage(phone, Bot, FlowReply(step.reply), "text")
    ensures !c.hasMessenger ==> Silent(r.effects)
    ensures !c.hasDb ==> Unrecorded(r.effects)
  {
    Outcome(Success, Some(step.state), true, Some(FlowReply(step.reply)), Some(extracted),
            Some(MissingFields(step.store, phone)), step.store,
            SendIf(c, phone, FlowReply(step.reply)) + LogIf(c, phone, FlowReply(step.reply)))
  }

  /** _process_command: let the state machine move on; a move to AGUARDANDO_ATENDENTE notifies the agents. */
  function CommandPath(c: Collaborators, store: Store, phone: string, message: string, now: int): (r: Outcome)
    ensures !c.hasMessenger ==> Silent(r.effects)
    ensures !c.hasDb ==> Unrecorded(r.effects)
  {
    Commanded(c, phone, ProcessUserInput(store, phone, message, now))
  }

  /** The command path's answer to the state machine's step: send and record the reply, then notify the agents on a hand-off. */
  function Commanded(c: Collaborators, phone: string, step: Step): (r: Outcome)
    ensures r.status == Success && r.state == Some(step.state) && r.store == step.store
    ensures NotifyAgentNeeded(phone) in r.effects <==> c.hasDb && step.state == AguardandoAtendente
    ensures !c.hasMessenger ==> Silent(r.effects)
    ensures !c.hasDb ==> Unrecorded(r.effects)
  {
    var reply := SendIf(c, phone, FlowReply(step.reply)) + LogIf(c, phone, FlowReply(step.reply));
    var notify := if step.state == AguardandoAtendente && c.hasDb then [NotifyAgentNeeded(phone)] else [];
    GatesAppend(SendIf(c, phone, FlowReply(step.reply)), LogIf(c, phone, FlowReply(step.reply)));
    GatesAppend(reply, notify);
    assert notify != [] ==> (reply + notify)[|reply|] == NotifyAgentNeeded(phone);
    Outcome(Success, Some(step.state), true, Some(FlowReply(step.reply)), None, None, step.store, reply + notify)
  }

  /**
   * process_message: record the incoming message, read the state (applying
   * the timeout), leave agent-held sessions alone, and take the extraction
   * path while a quotation is being collected, the command path otherwise.
   * The incoming message is the first thing recorded; without a messaging
   * API nothing is sent and without a database nothing is recorded.
   */
  function ProcessMessage(c: Collaborators, ext: Extractor, automation: Option<AutomationResult>,
                          store: Store, phone: string, message: string, messageType: string, now: int): (r: Outcome)
    ensures c.hasDb ==> |r.effects| > 0 && r.effects[0] == SaveMessage(phone, User, Incoming(message), messageType)
    ensures !c.hasMessenger ==> Silent(r.effects)
    ensures !c.hasDb ==> Unrecorded(r.effects)
  {
    var read := GetState(store, phone, now);
    Received(c, phone, message, messageType, Route(c, ext, automation, read.state, read.store, phone, message, now))
  }

  /** An outcome preceded by the saving of the incoming message, when a database is configured. */
  function Received(c: Collaborators, phone: string, message: string, messageType: string, out: Outcome): (r: Outcome)
    requires !c.hasMessenger ==> Silent(out.effects)
    requires !c.hasDb ==> Unrecorded(out.effects)
    ensures r == out.(effects := r.effects)
    ensures c.hasDb ==> r.effects == [SaveMessage(phone, User, Incoming(message), messageType)] + out.effects
    ensures !c.hasDb ==> r.effects == out.effects
    ensures !c.hasMessenger ==> Silent(r.effects)
    ensures !c.hasDb ==> Unrecorded(r.effects)
  {
    var incoming := if c.hasDb then [SaveMessage(phone, User, Incoming(message), messageType)] else [];
    GatesAppend(incoming, out.effects);
    out.(effects := incoming + out.effects)
  }

  /** The branch process_message takes on the state it read: none while an agent holds the session, then the two paths. */
  function Route(c: Collaborators, ext: Extractor, automation: Option<AutomationResult>,
                 state: State, store: Store, phone: string, message: string, now: int): (r: Outcome)
    ensures !c.hasMessenger ==> Silent(r.effects)
    ensures !c.hasDb ==> Unrecorded(r.effects)
  {
    if state == AtendenteAtivo then Outcome(AgentActive, None, false, None, None, None, store, [])
    else if state == CotacaoInicio || state == CotacaoColetando then
      ExtractionPath(c, ext, automation, store, phone, message, now)
    else CommandPath(c, store, phone, message, now)
  }

  // ------------------------------------------------------------ agent control

  /** handle_agent_takeover: the session goes to ATENDENTE_ATIVO and the agent is assigned. */
  function AgentTakeover(c: Collaborators, store: Store, phone: string, agentId: string, now: int): (r: (Store, seq<Effect>))
    ensures At(r.0, phone, AtendenteAtivo) && OthersKept(store, r.0, phone)
    ensures GetData(r.0, phone) == GetData(store, phone) && HistoryOf(r.0, phone) == HistoryOf(store, phone)
    ensures r.1 == if c.hasDb then [AssignAgent(phone, agentId)] else []
  {
    (SetState(store, phone, AtendenteAtivo, now), if c.hasDb then [AssignAgent(phone, agentId)] else [])
  }

  /** handle_agent_release: the session is reset (its history kept), the agent released, the user welcomed back. */
  function AgentRelease(c: Collaborators, store: Store, phone: string, now: int): (r: (Store, seq<Effect>))
    ensures r.0.Keys == store.Keys && OthersKept(store, r.0, phone)
    ensures phone in store ==> At(r.0, phone, Initial) && GetData(r.0, phone) == map[]
    ensures HistoryOf(r.0, phone) == HistoryOf(store, phone)
    ensures ReleaseAgent(phone) in r.1 <==> c.hasDb
    ensures Send(phone, WelcomeBack) in r.1 <==> c.hasMessenger
  {
    (Reset(store, phone, now),
     (if c.hasDb then [ReleaseAgent(phone)] else []) + SendIf(c, phone, WelcomeBack))
  }

  /** The dict get_conversation_status returns. */
  datatype ConversationStatus = ConversationStatus(phone: string, state: State, data: Data, missing: seq<string>, isComplete: bool)

  /** get_conversation_status: reading the state may apply the timeout, so the sessions afterwards are returned too. */
  function GetConversationStatus(store: Store, phone: string, now: int): (r: (ConversationStatus, Store))
    ensures r.1 == GetState(store, phone, now).store
    ensures r.0.state == GetState(store, phone, now).state
    ensures r.0.isComplete <==> r.0.missing == []
    ensures r.0.isComplete <==> AllFilled(RequiredFields, r.0.data)
    ensures forall x :: x in r.0.missing <==>
              exists i | 0 <= i < |RequiredFields| :: !Filled(r.0.data, RequiredFields[i].key) && RequiredFields[i].name == x
  {
    var read := GetState(store, phone, now);
    var data := GetData(read.store, phone);
    var missing := MissingFields(read.store, phone);
    (ConversationStatus(phone, read.state, data, missing, |missing| == 0), read.store)
  }

  // ------------------------------------------------------------------ lemmas

  /**
   * The extraction path's second read of the state sees the state of the
   * first: the stored data carries the same instant, so no timeout applies.
   */
  lemma UpdateKeepsReadState(store: Store, phone: string, d: Data, now: int)
    requires phone in store
    ensures GetState(UpdateData(store, phone, d, now), phone, now) == Read(store[phone].state, UpdateData(store, phone, d, now))
  {
  }

  /**
   * The extraction path from COTACAO_INICIO or COTACAO_COLETANDO: the session
   * ends with the old data overwritten by the extracted data and no agent is
   * notified. When validation raises, the answer is the apology and nothing
   * else is sent; otherwise the state machine sees the merged data and never
   * answers COTACAO_PROCESSANDO, so no quotation runs.
   */
  lemma ExtractionPathOutcome(c: Collaborators, ext: Extractor, automation: Option<AutomationResult>,
                              store: Store, phone: string, message: string, now: int)
    requires At(store, phone, CotacaoInicio) || At(store, phone, CotacaoColetando)
    ensures var merged := GetData(store, phone) + Extract(ext, store, phone, message);
            var r := ExtractionPath(c, ext, automation, store, phone, message, now);
            && GetData(r.store, phone) == merged
            && OthersKept(store, r.store, phone)
            && NotifyAgentNeeded(phone) !in r.effects
            && (r.status == Error <==> ext.validationRaises)
            && (ext.validationRaises ==>
                  r.state.None? && r.shouldReply && r.response == Some(Apology) && r.extracted.None?
                  && r.effects == SendIf(c, phone, Apology))
            && (!ext.validationRaises ==>
                  r.status == Success
                  && r.state == Some(Transition(store[phone].state, Normalise(message), AllFilled(RequiredFields, merged)))
                  && r.extracted == Some(Extract(ext, store, phone, message)))
  {
    var extracted := Extract(ext, store, phone, message);
    if ext.validationRaises {
      var updated := UpdateData(store, phone, extracted, now);
      assert GetData(updated, phone) == GetData(store, phone) + extracted;
    } else {
      AnsweredPath(c, ext, automation, store, phone, message, now);
    }
  }

  /** The extraction path when validation does not raise: the state machine's answer, sent and recorded. */
  lemma AnsweredPath(c: Collaborators, ext: Extractor, automation: Option<AutomationResult>,
                     store: Store, phone: string, message: string, now: int)
    requires At(store, phone, CotacaoInicio) || At(store, phone, CotacaoColetando)
    requires !ext.validationRaises
    ensures var merged := GetData(store, phone) + Extract(ext, store, phone, message);
            var r := ExtractionPath(c, ext, automation, store, phone, message, now);
            && r.status == Success
            && r.state == Some(Transition(store[phone].state, Normalise(message), AllFilled(RequiredFields, merged)))
            && GetData(r.store, phone) == merged
            && r.extracted == Some(Extract(ext, store, phone, message))
            && NotifyAgentNeeded(phone) !in r.effects
            && OthersKept(store, r.store, phone)
  {
    var extracted := Extract(ext, store, phone, message);
    CollectingStep(store, phone, extracted, message, now);
    var step := ProcessUserInput(UpdateData(store, phone, extracted, now), phone, message, now);
    ExtractionContinues(c, ext, automation, store, phone, message, now);
    assert Continued(c, automation, phone, step, extracted, now) == Answered(c, phone, step, extracted);
    AnsweredNotifiesNoAgent(c, phone, step, extracted);
  }

  /** Without a raise, the extraction path continues with the state machine's step on the merged data. */
  lemma ExtractionContinues(c: Collaborators, ext: Extractor, automation: Option<AutomationResult>,
                            store: Store, phone: string, message: string, now: int)
    requires !ext.validationRaises
    ensures var extracted := Extract(ext, store, phone, message);
            ExtractionPath(c, ext, automation, store, phone, message, now)
            == Continued(c, automation, phone, ProcessUserInput(UpdateData(store, phone, extracted, now), phone, message, now), extracted, now)
  {
  }

  /** An answered message never asks for an agent. */
  lemma AnsweredNotifiesNoAgent(c: Collaborators, phone: string, step: Step, extracted: Data)
    ensures NotifyAgentNeeded(phone) !in Answered(c, phone, step, extracted).effects
  {
    var r := Answered(c, phone, step, extracted);
    forall i | 0 <= i < |r.effects|
      ensures r.effects[i] != NotifyAgentNeeded(phone)
    {
      assert r.effects[i] in r.effects;
    }
  }

  /** The state machine's step on the extraction path, from a session that is collecting data. */
  lemma CollectingStep(store: Store, phone: string, extracted: Data, message: string, now: int)
    requires At(store, phone, CotacaoInicio) || At(store, phone, CotacaoColetando)
    ensures var merged := GetData(store, phone) + extracted;
            var step := ProcessUserInput(UpdateData(store, phone, extracted, now), phone, message, now);
            && step.state == Transition(store[phone].state, Normalise(message), AllFilled(RequiredFields, merged))
            && step.state != CotacaoProcessando
            && GetData(step.store, phone) == merged
            && OthersKept(store, step.store, phone)
  {
    var updated := UpdateData(store, phone, extracted, now);
    UpdateKeepsReadState(store, phone, extracted, now);
    var text := Normalise(message);
    var step := ProcessUserInput(updated, phone, message, now);
    assert step.state == Transition(store[phone].state, text, IsComplete(updated, phone));
    CollectingNeverProcesses(store[phone].state, text, IsComplete(updated, phone));
    CompleteIffAllFilled(updated, phone);
    assert GetData(updated, phone) == GetData(store, phone) + extracted;
    assert !ResetsSession(store[phone].state, text);
    assert !StartsNewQuote(store[phone].state, text);
    assert Settled(updated, phone, step, GetData(updated, phone), HistoryOf(updated, phone));
  }

  /** The command path notifies the agents exactly when it leads to AGUARDANDO_ATENDENTE with a database configured. */
  lemma CommandPathOutcome(c: Collaborators, store: Store, phone: string, message: string, now: int)
    ensures var r := CommandPath(c, store, phone, message, now);
            && r.status == Success
            && r.state == Some(ProcessUserInput(store, phone, message, now).state)
            && (NotifyAgentNeeded(phone) in r.effects <==> c.hasDb && r.state == Some(AguardandoAtendente))
            && OthersKept(store, r.store, phone)
  {
    var step := ProcessUserInput(store, phone, message, now);
    InputKeepsOthers(store, phone, message, now);
    assert CommandPath(c, store, phone, message, now) == Commanded(c, phone, step);
  }

  /**
   * No message ever runs the quotation: the extraction path only runs it when
   * the state machine answers COTACAO_PROCESSANDO, and from COTACAO_INICIO
   * and COTACAO_COLETANDO it never does; the command path never runs it. A
   * message fails with "error" exactly when it takes the extraction path and
   * validation raises.
   */
  lemma MessagesNeverRunQuotation(c: Collaborators, ext: Extractor, automation: Option<AutomationResult>,
                                  store: Store, phone: string, message: string, messageType: string, now: int)
    ensures var r := ProcessMessage(c, ext, automation, store, phone, message, messageType, now);
            var s := GetState(store, phone, now).state;
            && r.status in {AgentActive, Success, Error}
            && (r.status == AgentActive <==> s == AtendenteAtivo)
            && (r.status == Error <==> (s == CotacaoInicio || s == CotacaoColetando) && ext.validationRaises)
  {
    var read := GetState(store, phone, now);
    if read.state == CotacaoInicio || read.state == CotacaoColetando {
      ExtractionPathOutcome(c, ext, automation, read.store, phone, message, now);
    } else if read.state != AtendenteAtivo {
      CommandPathOutcome(c, read.store, phone, message, now);
    }
  }

  /**
   * While a quotation is being collected, the extracted data is stored before
   * anything else can go wrong: the session ends with the old data overwritten
   * by the extracted data. Completeness is judged on that merged data; when
   * validation raises instead, the user gets the apology and nothing else.
   */
  lemma ExtractionMergesBeforeTransition(c: Collaborators, ext: Extractor, automation: Option<AutomationResult>,
                                         store: Store, phone: string, message: string, messageType: string, now: int)
    requires var s := GetState(store, phone, now).state; s == CotacaoInicio || s == CotacaoColetando
    ensures var read := GetState(store, phone, now);
            var merged := GetData(read.store, phone) + Extract(ext, read.store, phone, message);
            var r := ProcessMessage(c, ext, automation, store, phone, message, messageType, now);
            && GetData(r.store, phone) == merged
            && (!ext.validationRaises ==>
                  r.state == Some(Transition(read.state, Normalise(message), AllFilled(RequiredFields, merged)))
                  && r.extracted == Some(Extract(ext, read.store, phone, message)))
            && (ext.validationRaises ==>
                  r.status == Error && r.state.None? && r.response == Some(Apology)
                  && r.effects == (if c.hasDb then [SaveMessage(phone, User, Incoming(message), messageType)] else [])
                                  + SendIf(c, phone, Apology))
  {
    var read := GetState(store, phone, now);
    ExtractionPathOutcome(c, ext, automation, read.store, phone, message, now);
  }

  /** A session held by an agent gets no answer: nothing is sent and the sessions stay as they were. */
  lemma AgentHeldSessionIsSilent(c: Collaborators, ext: Extractor, automation: Option<AutomationResult>,
                                 store: Store, phone: string, message: string, messageType: string, now: int)
    requires GetState(store, phone, now).state == AtendenteAtivo
    ensures var r := ProcessMessage(c, ext, automation, store, phone, message, messageType, now);
            && r.status == AgentActive && !r.shouldReply && r.store == store && Silent(r.effects)
            && r.effects == if c.hasDb then [SaveMessage(phone, User, Incoming(message), messageType)] else []
  {
  }

  /**
   * On the command path the agents are notified exactly when the message
   * leads to AGUARDANDO_ATENDENTE and a database is configured.
   */
  lemma CommandPathNotifiesAgents(c: Collaborators, ext: Extractor, automation: Option<AutomationResult>,
                                  store: Store, phone: string, message: string, messageType: string, now: int)
    requires GetState(store, phone, now).state !in {AtendenteAtivo, CotacaoInicio, CotacaoColetando}
    ensures var r := ProcessMessage(c, ext, automation, store, phone, message, messageType, now);
            NotifyAgentNeeded(phone) in r.effects <==> c.hasDb && r.state == Some(AguardandoAtendente)
  {
    var read := GetState(store, phone, now);
    CommandPathOutcome(c, read.store, phone, message, now);
    RoutedToCommand(c, ext, automation, read.state, read.store, phone, message, now);
    ReceivedKeepsNotice(c, phone, message, messageType, CommandPath(c, read.store, phone, message, now));
  }

  /** A state outside the agent hold and the collection goes down the command path. */
  lemma RoutedToCommand(c: Collaborators, ext: Extractor, automation: Option<AutomationResult>,
                        state: State, store: Store, phone: string, message: string, now: int)
    requires state != AtendenteAtivo && state != CotacaoInicio && state != CotacaoColetando
    ensures Route(c, ext, automation, state, store, phone, message, now) == CommandPath(c, store, phone, message, now)
  {
  }

  /** Saving the incoming message neither adds nor removes an agent notification. */
  lemma ReceivedKeepsNotice(c: Collaborators, phone: string, message: string, messageType: string, out: Outcome)
    requires !c.hasMessenger ==> Silent(out.effects)
    requires !c.hasDb ==> Unrecorded(out.effects)
    ensures var r := Received(c, phone, message, messageType, out);
            r.state == out.state && (NotifyAgentNeeded(phone) in r.effects <==> NotifyAgentNeeded(phone) in out.effects)
  {
  }

  /**
   * While a quotation is being collected no message notifies an agent: a
   * hand-off request typed then does move the session to
   * AGUARDANDO_ATENDENTE, but the extraction path never notifies one.
   */
  lemma HandoffWhileCollectingNotifiesNoAgent(c: Collaborators, ext: Extractor, automation: Option<AutomationResult>,
                                              store: Store, phone: string, message: string, messageType: string, now: int)
    requires var s := GetState(store, phone, now).state; s == CotacaoInicio || s == CotacaoColetando
    ensures var r := ProcessMessage(c, ext, automation, store, phone, message, messageType, now);
            IsHandoffRequest(Normalise(message)) && !ext.validationRaises ==> r.state == Some(AguardandoAtendente)
    ensures NotifyAgentNeeded(phone) !in ProcessMessage(c, ext, automation, store, phone, message, messageType, now).effects
  {
    var read := GetState(store, phone, now);
    ExtractionPathOutcome(c, ext, automation, read.store, phone, message, now);
    RoutedToExtraction(c, ext, automation, read.state, read.store, phone, message, now);
    ReceivedKeepsNotice(c, phone, message, messageType, ExtractionPath(c, ext, automation, read.store, phone, message, now));
  }

  /** A session that is collecting data goes down the extraction path. */
  lemma RoutedToExtraction(c: Collaborators, ext: Extractor, automation: Option<AutomationResult>,
                           state: State, store: Store, phone: string, message: string, now: int)
    requires state == CotacaoInicio || state == CotacaoColetando
    ensures Route(c, ext, automation, state, store, phone, message, now) == ExtractionPath(c, ext, automation, store, phone, message, now)
  {
  }

  /** A message changes only the sender's session. */
  lemma MessageTouchesOnlySender(c: Collaborators, ext: Extractor, automation: Option<AutomationResult>,
                                 store: Store, phone: string, message: string, messageType: string, now: int)
    ensures OthersKept(store, ProcessMessage(c, ext, automation, store, phone, message, messageType, now).store, phone)
  {
    var read := GetState(store, phone, now);
    var out := ProcessMessage(c, ext, automation, store, phone, message, messageType, now);
    assert OthersKept(store, read.store, phone);
    if read.state == CotacaoInicio || read.state == CotacaoColetando {
      ExtractionPathOutcome(c, ext, automation, read.store, phone, message, now);
    } else if read.state != AtendenteAtivo {
      CommandPathOutcome(c, read.store, phone, message, now);
    }
    OthersKeptChain(store, read.store, out.store, phone);
  }
}

=== FILE: cep.dfy ===
/*
 * The CEP (Brazilian postal code) search both the collector and the
 * quotation automation run: `re.search(r'(\d{5}-?\d{3})', text)`, the
 * leftmost match, five digits, an optional hyphen, three digits.
 */
module Cep {
  import opened Wrappers
  import opened Text

  /** `n` digits start at position `i`. */
  predicate DigitsAt(s: string, i: int, n: nat) {
    0 <= i && i + n <= |s| && forall j | i <= j < i + n :: IsDigit(s[j])
  }

  /**
   * The match of `\d{5}-?\d{3}` that starts at `i`, if any: the greedy `-?`
   * takes a hyphen when one follows the five digits and three digits follow
   * it; a hyphen that is not followed by three digits cannot be skipped, as
   * it is no digit either.
   */
  function MatchAt(s: string, i: nat): (r: Option<string>)
    ensures r.Some? ==> i + |r.value| <= |s| && r.value == s[i..i + |r.value|]
  {
    if !DigitsAt(s, i, 5) then None
    else if i + 5 < |s| && s[i + 5] == '-' && DigitsAt(s, i + 6, 3) then Some(s[i..i + 9])
    else if DigitsAt(s, i + 5, 3) then Some(s[i..i + 8])
    else None
  }

  /** A match is eight digits, or five digits, a hyphen and three digits. */
  predicate CepShaped(m: string) {
    || (|m| == 8 && AllDigits(m))
    || (|m| == 9 && AllDigits(m[..5]) && m[5] == '-' && AllDigits(m[6..]))
  }

  lemma MatchShape(s: string, i: nat)
    ensures MatchAt(s, i).Some? ==> CepShaped(MatchAt(s, i).value)
  {
  }

  /** The leftmost match at or after `from`. */
  function SearchFrom(s: string, from: nat): (r: Option<string>)
    ensures r.None? <==> forall i | from <= i < |s| :: MatchAt(s, i).None?
    ensures r.Some? ==>
              exists i | from <= i < |s| :: MatchAt(s, i) == r && forall j | from <= j < i :: MatchAt(s, j).None?
    decreases |s| - from
  {
    if from >= |s| then None
    else if MatchAt(s, from).Some? then MatchAt(s, from)
    else SearchFrom(s, from + 1)
  }

  /** `re.search(r'(\d{5}-?\d{3})', s).group(1)`, or None without a match. */
  function Search(s: string): (r: Option<string>)
    ensures r.Some? ==> CepShaped(r.value)
    ensures r.None? <==> forall i | 0 <= i < |s| :: MatchAt(s, i).None?
    ensures r.Some? ==> exists i | 0 <= i < |s| :: MatchAt(s, i) == r && forall j | 0 <= j < i :: MatchAt(s, j).None?
  {
    SearchShape(s);
    SearchFrom(s, 0)
  }

  lemma SearchShape(s: string)
    ensures SearchFrom(s, 0).Some? ==> CepShaped(SearchFrom(s, 0).value)
  {
    var r := SearchFrom(s, 0);
    if r.Some? {
      var i :| 0 <= i < |s| && MatchAt(s, i) == r && forall j | 0 <= j < i :: MatchAt(s, j).None?;
      MatchShape(s, i);
    }
  }

  /** `m.replace('-', '')` on a match: its eight digits. */
  function Unhyphenated(m: string): (r: string)
    requires CepShaped(m)
    ensures |r| == 8 && AllDigits(r)
  {
    if |m| == 8 then m else m[..5] + m[6..]
  }

  /** The collector's spelling: `f"{cep[:5]}-{cep[5:]}"` unless the match has its hyphen. */
  function Hyphenated(m: string): (r: string)
    requires CepShaped(m)
    ensures |r| == 9 && AllDigits(r[..5]) && r[5] == '-' && AllDigits(r[6..])
  {
    if '-' !in m then m[..5] + "-" + m[5..] else m
  }

  /** Both spellings carry the same eight digits in the same order. */
  lemma SpellingsAgree(m: string)
    requires CepShaped(m)
    ensures Unhyphenated(Hyphenated(m)) == Unhyphenated(m)
  {
    if |m| == 8 {
      var h := Hyphenated(m);
      assert h[..5] == m[..5] && h[6..] == m[5..];
      assert m == m[..5] + m[5..];
    }
  }
}

=== FILE: collect.dfy ===
/*
 * The "fill what is still empty" extraction the older collectors share: each
 * field has an ordered list of patterns; a field that already holds a truthy
 * value is skipped; otherwise the first hit its post-processing accepts is
 * written, and a rejected hit falls through to the next pattern.
 */
module Collect {
  import opened Wrappers
  import opened Fields
  import opened Patterns
  import opened Positions

  /**
   * One field's extraction: its key, its patterns, whether they search the
   * message as sent (`raw`) or lower-cased, and the post-processing of a hit
   * (None rejects the hit).
   */
  datatype Rule = Rule(key: string, patterns: seq<Matcher>, raw: bool, accept: string -> Option<string>)

  /** The data after an extraction and the keys it wrote, in the order written. */
  datatype Outcome = Outcome(data: Data, updated: seq<string>)

  function Searched(rule: Rule, lower: string, message: string): string {
    if rule.raw then message else lower
  }

  /** What a rule writes: nothing over a filled field, else its first accepted hit. */
  function Written(rule: Rule, d: Data, lower: string, message: string): Option<string> {
    if Filled(d, rule.key) then None
    else FirstAccepted(rule.patterns, Searched(rule, lower, message), rule.accept)
  }

  predicate DistinctRules(rules: seq<Rule>) {
    forall i, j | 0 <= i < j < |rules| :: rules[i].key != rules[j].key
  }

  predicate Covers(rules: seq<Rule>, k: string) {
    exists i | 0 <= i < |rules| :: rules[i].key == k
  }

  /** What a field reads after the extraction: the written value, or what it held before. */
  function After(rule: Rule, d: Data, lower: string, message: string): Option<string> {
    var w := Written(rule, d, lower, message);
    if w.Some? then w else Find(d, rule.key)
  }

  /** One rule applied to the data: its own field takes the written value, if any. */
  function Step(rule: Rule, d: Data, lower: string, message: string): (r: Data)
    ensures Find(r, rule.key) == After(rule, d, lower, message)
    ensures forall k | k != rule.key :: Find(r, k) == Find(d, k)
  {
    var w := Written(rule, d, lower, message);
    if w.Some? then d[rule.key := w.value] else d
  }

  /** A rule's outcome depends on its own field only. */
  lemma OwnFieldOnly(rule: Rule, d: Data, e: Data, lower: string, message: string)
    requires Find(d, rule.key) == Find(e, rule.key)
    ensures Written(rule, d, lower, message) == Written(rule, e, lower, message)
    ensures After(rule, d, lower, message) == After(rule, e, lower, message)
  {
    assert Filled(d, rule.key) <==> Filled(e, rule.key);
  }

  /** Once a rule has run, running it again on the result leaves its field as it is. */
  lemma AfterStable(rule: Rule, d: Data, e: Data, lower: string, message: string)
    requires Find(e, rule.key) == After(rule, d, lower, message)
    ensures After(rule, e, lower, message) == Find(e, rule.key)
  {
    var w := Written(rule, d, lower, message);
    if w.Some? && w.value == "" {
      assert !Filled(e, rule.key);
    } else if w.None? {
      OwnFieldOnly(rule, d, e, lower, message);
    }
  }

  lemma CoversTail(rules: seq<Rule>)
    requires rules != [] && DistinctRules(rules)
    ensures DistinctRules(rules[1..])
    ensures forall k | Covers(rules[1..], k) :: Covers(rules, k)
    ensures !Covers(rules[1..], rules[0].key)
  {
    forall k | Covers(rules[1..], k) ensures Covers(rules, k) {
      var i :| 0 <= i < |rules[1..]| && rules[1..][i].key == k;
      assert rules[i + 1].key == k;
    }
    forall i | 0 <= i < |rules[1..]| ensures rules[1..][i].key != rules[0].key {
      assert rules[1..][i] == rules[i + 1];
    }
  }

  /**
   * The rules applied in order to a copy of the data. Each rule reads and
   * writes its own field only, so every field's outcome depends on the input
   * alone.
   */
  function ApplyData(rules: seq<Rule>, d: Data, lower: string, message: string): (r: Data)
    requires DistinctRules(rules)
    ensures forall k | !Covers(rules, k) :: Find(r, k) == Find(d, k)
    ensures forall i | 0 <= i < |rules| :: Find(r, rules[i].key) == After(rules[i], d, lower, message)
  {
    if rules == [] then d
    else
      var first := Step(rules[0], d, lower, message);
      CoversTail(rules);
      var r := ApplyData(rules[1..], first, lower, message);
      assert forall i | 1 <= i < |rules| :: rules[i] == rules[1..][i - 1];
      forall i | 1 <= i < |rules| ensures After(rules[i], first, lower, message) == After(rules[i], d, lower, message) {
        OwnFieldOnly(rules[i], first, d, lower, message);
      }
      r
  }

  /** The keys the rules write, in rule order, each once. */
  function Reported(rules: seq<Rule>, d: Data, lower: string, message: string): (r: seq<string>)
    requires DistinctRules(rules)
    ensures forall k | !Covers(rules, k) :: k !in r
    ensures forall i | 0 <= i < |rules| :: rules[i].key in r <==> Written(rules[i], d, lower, message).Some?
    ensures forall i, j | 0 <= i < j < |r| :: r[i] != r[j]
  {
    if rules == [] then []
    else
      CoversTail(rules);
      var rest := Reported(rules[1..], d, lower, message);
      assert forall i | 1 <= i < |rules| :: rules[i] == rules[1..][i - 1];
      assert rules[0].key !in rest;
      (if Written(rules[0], d, lower, message).Some? then [rules[0].key] else []) + rest
  }

  /** The rules' keys, in rule order. */
  function RuleKeys(rules: seq<Rule>): (r: seq<string>)
    ensures |r| == |rules| && forall i | 0 <= i < |rules| :: r[i] == rules[i].key
  {
    seq(|rules|, i requires 0 <= i < |rules| => rules[i].key)
  }

  /** Which rules write their field. */
  function WrittenFlags(rules: seq<Rule>, d: Data, lower: string, message: string): (r: seq<bool>)
    ensures |r| == |rules| && forall i | 0 <= i < |rules| :: r[i] == Written(rules[i], d, lower, message).Some?
  {
    seq(|rules|, i requires 0 <= i < |rules| => Written(rules[i], d, lower, message).Some?)
  }

  /** The reported keys are the keys of the writing rules, picked in rule order. */
  lemma {:induction false} ReportedPicks(rules: seq<Rule>, d: Data, lower: string, message: string)
    requires DistinctRules(rules)
    ensures Reported(rules, d, lower, message) == PickFrom(RuleKeys(rules), WrittenFlags(rules, d, lower, message), 0)
  {
    if rules != [] {
      CoversTail(rules);
      ReportedPicks(rules[1..], d, lower, message);
      var keys := RuleKeys(rules);
      var flags := WrittenFlags(rules, d, lower, message);
      assert RuleKeys(rules[1..]) == keys[1..];
      assert WrittenFlags(rules[1..], d, lower, message) == flags[1..];
      PickFromShift(keys, flags, 1);
    }
  }

  /**
   * `updated_fields` follows the order of the field blocks: its a-th key is
   * that of the a-th rule that writes its field.
   */
  lemma ReportedInRuleOrder(rules: seq<Rule>, d: Data, lower: string, message: string)
    requires DistinctRules(rules)
    ensures var r := Reported(rules, d, lower, message);
            var p := SetFrom(WrittenFlags(rules, d, lower, message), 0);
            |r| == |p| && forall a | 0 <= a < |r| :: r[a] == rules[p[a]].key
  {
    ReportedPicks(rules, d, lower, message);
  }

  /** The whole extraction: the updated copy and the `updated_fields` list. */
  function ApplyRules(rules: seq<Rule>, d: Data, lower: string, message: string): (r: Outcome)
    requires DistinctRules(rules)
    ensures forall k | !Covers(rules, k) :: Find(r.data, k) == Find(d, k) && k !in r.updated
    ensures forall i | 0 <= i < |rules| :: Find(r.data, rules[i].key) == After(rules[i], d, lower, message)
    ensures forall i | 0 <= i < |rules| :: rules[i].key in r.updated <==> Written(rules[i], d, lower, message).Some?
    ensures forall i, j | 0 <= i < j < |r.updated| :: r.updated[i] != r.updated[j]
  {
    Outcome(ApplyData(rules, d, lower, message), Reported(rules, d, lower, message))
  }

  /** A truthy field survives the extraction unchanged and is not reported. */
  lemma ApplyKeepsFilled(rules: seq<Rule>, d: Data, lower: string, message: string, k: string)
    requires DistinctRules(rules) && Filled(d, k)
    ensures var r := ApplyRules(rules, d, lower, message);
            k in r.data && r.data[k] == d[k] && k !in r.updated
  {
    var r := ApplyRules(rules, d, lower, message);
    if Covers(rules, k) {
      var i :| 0 <= i < |rules| && rules[i].key == k;
      assert Find(r.data, k) == Find(d, k);
    }
  }

  /**
   * A reported key now holds what its rule accepted; an unreported key holds
   * what it held before.
   */
  lemma ApplyReports(rules: seq<Rule>, d: Data, lower: string, message: string, k: string)
    requires DistinctRules(rules)
    ensures var r := ApplyRules(rules, d, lower, message);
            && (k in r.updated ==> !Filled(d, k) && Covers(rules, k) && k in r.data)
            && (k !in r.updated ==> Find(r.data, k) == Find(d, k))
  {
    var r := ApplyRules(rules, d, lower, message);
    if Covers(rules, k) {
      var i :| 0 <= i < |rules| && rules[i].key == k;
      assert Find(r.data, k) == After(rules[i], d, lower, message);
    }
  }

  /**
   * Extracting again from the same message changes nothing: a field written
   * with a truthy value is skipped, and one still empty meets the same hit.
   */
  lemma ApplyIdempotent(rules: seq<Rule>, d: Data, lower: string, message: string)
    requires DistinctRules(rules)
    ensures var once := ApplyRules(rules, d, lower, message).data;
            ApplyRules(rules, once, lower, message).data == once
  {
    var once := ApplyRules(rules, d, lower, message).data;
    var twice := ApplyRules(rules, once, lower, message).data;
    forall k ensures Find(twice, k) == Find(once, k) {
      if Covers(rules, k) {
        var i :| 0 <= i < |rules| && rules[i].key == k;
        AfterStable(rules[i], d, once, lower, message);
      }
    }
    assert forall k :: k in twice <==> Find(twice, k).Some?;
    assert forall k :: k in once <==> Find(once, k).Some?;
  }

  /** A property every accepted value has holds of what the rule writes. */
  lemma WrittenSatisfies(rule: Rule, d: Data, lower: string, message: string, P: string -> bool)
    requires forall x :: rule.accept(x).Some? ==> P(rule.accept(x).value)
    ensures Written(rule, d, lower, message).Some? ==> P(Written(rule, d, lower, message).value)
  {
  }
}

=== FILE: conversation_flow.dfy ===
/*
 * The conversation state machine of the WhatsApp bot (app/bot/conversation_flow.py):
 * one session per phone number, a lazy inactivity timeout applied whenever a
 * state is read, and one handler per state that reads the user's option and
 * moves the session on.
 *
 * The clock is a parameter `now`, in microseconds (the resolution of Python's
 * datetime); the store of sessions is passed in and returned.
 */
module ConversationFlow {
  import opened Wrappers
  import opened Text
  import opened Fields

  datatype State =
    | Initial
    | MenuPrincipal
    | InfoEmpresa
    | CotacaoInicio
    | CotacaoColetando
    | CotacaoValidando
    | CotacaoProcessando
    | CotacaoConcluida
    | PosCotacao
    | AguardandoAtendente
    | AtendenteAtivo
    | Encerrada

  /** Ten minutes without interaction ends a session. */
  const ConversationTimeout: int := 600_000_000

  /** Twenty-four hours without interaction hands an agent-held session back to the bot. */
  const AgentTimeout: int := 86_400_000_000

  /** The fourteen answers a quotation needs, with the names shown to the user, in display order. */
  const RequiredFields: Schema := [
    Field("nome_solicitante", "Nome do Solicitante"),
    Field("cpf_solicitante", "CPF do Solicitante"),
    Field("nome_animal", "Nome do Animal"),
    Field("valor_animal", "Valor do Animal"),
    Field("raca", "Raça"),
    Field("data_nascimento", "Data de Nascimento"),
    Field("sexo", "Sexo"),
    Field("utilizacao", "Utilização"),
    Field("rua", "Rua"),
    Field("numero", "Número"),
    Field("bairro", "Bairro"),
    Field("cidade", "Cidade"),
    Field("uf", "UF"),
    Field("cep", "CEP")
  ]

  /** One entry of a session's quotation history; `at` is the 'timestamp' the entry is stamped with. */
  datatype HistoryEntry =
    | Snapshot(data: Data, at: int)
    | Quotation(cotacaoId: Option<string>, data: Data, pdfPath: Option<string>, at: int)

  datatype Session = Session(
    state: State,
    data: Data,
    createdAt: int,
    lastInteraction: int,
    messageCount: nat,
    history: seq<HistoryEntry>)

  type Store = map<string, Session>

  /** A session as it is first created: no data, no messages, no history. */
  function NewSession(state: State, now: int): Session {
    Session(state, map[], now, now, 0, [])
  }

  // ------------------------------------------------------------ session store

  /** reset_conversation: back to INITIAL with nothing collected; the quotation history survives. */
  function Reset(store: Store, phone: string, now: int): (r: Store)
    ensures r.Keys == store.Keys
    ensures forall p | p in store && p != phone :: r[p] == store[p]
    ensures phone in store ==>
              r[phone].state == Initial && r[phone].data == map[] && r[phone].messageCount == 0
              && r[phone].createdAt == now && r[phone].lastInteraction == now
              && r[phone].history == store[phone].history
  {
    if phone in store then store[phone := NewSession(Initial, now).(history := store[phone].history)]
    else store
  }

  /** The outcome of reading a session's state: the state and the store after any timeout reset. */
  datatype Read = Read(state: State, store: Store)

  /**
   * get_conversation_state. An unknown phone reads INITIAL and creates nothing;
   * a session idle for more than ten minutes is reset and reads INITIAL.
   */
  function GetState(store: Store, phone: string, now: int): (r: Read)
    ensures phone !in store ==> r == Read(Initial, store)
    ensures phone in store && now - store[phone].lastInteraction > ConversationTimeout ==>
              r == Read(Initial, Reset(store, phone, now))
    ensures phone in store && now - store[phone].lastInteraction <= ConversationTimeout ==>
              r == Read(store[phone].state, store)
    ensures r.store.Keys == store.Keys
    ensures forall p | p in store && p != phone :: r.store[p] == store[p]
    ensures phone in r.store ==> r.store[phone].state == r.state
  {
    if phone !in store then Read(Initial, store)
    else
      var conv := store[phone];
      var elapsed := now - conv.lastInteraction;
      if elapsed > ConversationTimeout then Read(Initial, Reset(store, phone, now))
      else if conv.state == AtendenteAtivo && elapsed > AgentTimeout then Read(Initial, Reset(store, phone, now))
      else Read(conv.state, store)
  }

  /** set_conversation_state: creates the session when absent, otherwise only the state and the clock change. */
  function SetState(store: Store, phone: string, state: State, now: int): (r: Store)
    ensures r.Keys == store.Keys + {phone}
    ensures forall p | p in store && p != phone :: r[p] == store[p]
    ensures r[phone].state == state && r[phone].lastInteraction == now
    ensures phone !in store ==> r[phone] == NewSession(state, now)
    ensures phone in store ==>
              r[phone].data == store[phone].data && r[phone].messageCount == store[phone].messageCount
              && r[phone].history == store[phone].history && r[phone].createdAt == store[phone].createdAt
  {
    if phone !in store then store[phone := NewSession(state, now)]
    else store[phone := store[phone].(state := state, lastInteraction := now)]
  }

  /** The quotation history of a phone; none for an unknown phone. */
  function HistoryOf(store: Store, phone: string): seq<HistoryEntry> {
    if phone in store then store[phone].history else []
  }

  /** get_conversation_data: an unknown phone has no data. */
  function GetData(store: Store, phone: string): Data {
    if phone in store then store[phone].data else map[]
  }

  /**
   * update_conversation_data: `data.update(d)` — every key of `d` overwrites,
   * the other keys stay — and one more message is counted.
   */
  function UpdateData(store: Store, phone: string, d: Data, now: int): (r: Store)
    ensures r.Keys == store.Keys + {phone}
    ensures forall p | p in store && p != phone :: r[p] == store[p]
    ensures forall k | k in d :: k in r[phone].data && r[phone].data[k] == d[k]
    ensures forall k | k !in d :: k in r[phone].data <==> k in GetData(store, phone)
    ensures forall k | k !in d && k in GetData(store, phone) :: r[phone].data[k] == GetData(store, phone)[k]
    ensures r[phone].lastInteraction == now
    ensures r[phone].state == (if phone in store then store[phone].state else Initial)
    ensures r[phone].messageCount == (if phone in store then store[phone].messageCount else 0) + 1
    ensures phone in store ==> r[phone].history == store[phone].history
  {
    var conv := if phone in store then store[phone] else NewSession(Initial, now);
    store[phone := conv.(data := conv.data + d, lastInteraction := now, messageCount := conv.messageCount + 1)]
  }

  /** add_cotacao_realizada: appends one history entry; a phone without a session is ignored. */
  function AddQuote(store: Store, phone: string, entry: HistoryEntry): (r: Store)
    ensures r.Keys == store.Keys
    ensures forall p | p in store && p != phone :: r[p] == store[p]
    ensures phone in store ==>
              r[phone] == store[phone].(history := store[phone].history + [entry])
  {
    if phone in store then store[phone := store[phone].(history := store[phone].history + [entry])]
    else store
  }

  /**
   * get_missing_fields: the names of the required fields absent or empty,
   * in display order and each at most once (see MissingFieldsInOrder).
   */
  function MissingFields(store: Store, phone: string): (r: seq<string>)
    ensures forall x :: x in r <==>
              exists i | 0 <= i < |RequiredFields| ::
                !Filled(GetData(store, phone), RequiredFields[i].key) && RequiredFields[i].name == x
  {
    MissingNames(RequiredFields, GetData(store, phone))
  }

  /** The missing names follow the order of the field table, each field at most once. */
  lemma MissingFieldsInOrder(store: Store, phone: string)
    ensures var r := MissingFields(store, phone);
            var p := MissingPositions(RequiredFields, GetData(store, phone));
            |r| == |p| && forall a | 0 <= a < |r| :: r[a] == RequiredFields[p[a]].name
  {
    MissingNamesInOrder(RequiredFields, GetData(store, phone));
  }

  /** is_data_complete. */
  predicate IsComplete(store: Store, phone: string) {
    MissingFields(store, phone) == []
  }

  /** Complete exactly when every one of the fourteen fields holds a non-empty value. */
  lemma CompleteIffAllFilled(store: Store, phone: string)
    ensures IsComplete(store, phone) <==> AllFilled(RequiredFields, GetData(store, phone))
  {
  }

  // ----------------------------------------------------------------- replies

  /**
   * What a handler answers. `Template(s, hint)` is the message template of
   * state `s` (INITIAL's is the main menu) followed, when `hint`, by the
   * "please choose" line; `CompanyInfo` is the company template with the long
   * or the short text; `Collecting` lists the collected and missing fields;
   * `Review` is the full summary for confirmation.
   */
  datatype Reply =
    | Template(of: State, hint: bool)
    | CompanyInfo(fullText: bool, hint: bool)
    | Collecting(collected: seq<(string, string)>, missing: seq<string>, correction: bool)
    | Review(data: Data, hint: bool)

  datatype Step = Step(state: State, reply: Reply, store: Store)

  const HandoffKeywords: seq<string> := [
    "atendente", "humano", "pessoa", "agente", "operador",
    "falar com alguem", "falar com alguém", "falar com uma pessoa",
    "suporte", "ajuda humana", "transferir", "quero falar", "preciso falar"
  ]

  /** _is_handoff_request: the normalised text contains any hand-off keyword. */
  predicate IsHandoffRequest(text: string) {
    ContainsAny(text, HandoffKeywords)
  }

  const MenuCompanyOptions: seq<string> := ["1", "um", "empresa", "saber mais"]
  const MenuQuoteOptions: seq<string> := ["2", "dois", "cotacao", "cotação", "seguro"]
  const InfoYesOptions: seq<string> := ["1", "sim", "s"]
  const InfoNoOptions: seq<string> := ["2", "nao", "não", "n"]
  const InfoBackOptions: seq<string> := ["menu", "voltar"]
  const ConfirmOptions: seq<string> := ["1", "sim", "s", "correto", "ok"]
  const CorrectOptions: seq<string> := ["2", "nao", "não", "n", "corrigir"]
  const ConcludedNewOptions: seq<string> := ["1", "nova", "nova cotacao", "nova cotação"]
  const ConcludedAgentOptions: seq<string> := ["2", "atendente", "humano"]
  const ConcludedCloseOptions: seq<string> := ["3", "encerrar", "tchau", "obrigado"]
  const PostNewOptions: seq<string> := ["1", "nova", "nova cotacao"]
  const PostInfoOptions: seq<string> := ["2", "empresa", "informacoes"]
  const PostAgentOptions: seq<string> := ["3", "atendente", "humano"]
  const PostCloseOptions: seq<string> := ["4", "encerrar", "tchau"]

  /** `message.lower().strip()`: the text options are compared against. */
  function Normalise(message: string): string {
    Strip(LowerStr(message))
  }

  /**
   * The state diagram: where a message leads from `current`, given the
   * normalised text and whether the data is complete. A hand-off request wins
   * from every state; states without a handler restart from the menu. No
   * message hands a session to an agent directly, and a session ends only
   * from the states that offer closing it.
   */
  function Transition(current: State, text: string, complete: bool): (r: State)
    ensures r != AtendenteAtivo
    ensures Unhandled(current) && !IsHandoffRequest(text) ==> r == MenuPrincipal
    ensures r == Encerrada ==> current in {InfoEmpresa, CotacaoConcluida, PosCotacao}
    ensures r == CotacaoInicio ==> current in {MenuPrincipal, InfoEmpresa, CotacaoConcluida, PosCotacao}
  {
    if IsHandoffRequest(text) then AguardandoAtendente
    else match current
      case Initial => MenuPrincipal
      case MenuPrincipal =>
        if text in MenuCompanyOptions then InfoEmpresa
        else if text in MenuQuoteOptions then CotacaoInicio
        else MenuPrincipal
      case InfoEmpresa =>
        if text in InfoYesOptions then CotacaoInicio
        else if text in InfoNoOptions then Encerrada
        else if text in InfoBackOptions then MenuPrincipal
        else InfoEmpresa
      case CotacaoInicio => CotacaoColetando
      case CotacaoColetando => if complete then CotacaoValidando else CotacaoColetando
      case CotacaoValidando =>
        if text in ConfirmOptions then CotacaoProcessando
        else if text in CorrectOptions then CotacaoColetando
        else CotacaoValidando
      case CotacaoConcluida =>
        if text in ConcludedNewOptions then CotacaoInicio
        else if text in ConcludedAgentOptions then AguardandoAtendente
        else if text in ConcludedCloseOptions then Encerrada
        else CotacaoConcluida
      case PosCotacao =>
        if text in PostNewOptions then CotacaoInicio
        else if text in PostInfoOptions then InfoEmpresa
        else if text in PostAgentOptions then AguardandoAtendente
        else if text in PostCloseOptions then Encerrada
        else PosCotacao
      case _ => MenuPrincipal
  }

  /** Whether the message starts a new quotation, archiving the current data into the history. */
  predicate StartsNewQuote(current: State, text: string) {
    !IsHandoffRequest(text)
    && ((current == CotacaoConcluida && text in ConcludedNewOptions)
        || (current == PosCotacao && text in PostNewOptions))
  }

  /** The states process_user_input has no handler for. */
  predicate Unhandled(s: State) {
    s.CotacaoProcessando? || s.AguardandoAtendente? || s.AtendenteAtivo? || s.Encerrada?
  }

  /** Whether the message resets the session: a new quotation, or a state without a handler. */
  predicate ResetsSession(current: State, text: string) {
    StartsNewQuote(current, text)
    || (!IsHandoffRequest(text)
        && Unhandled(current))
  }

  // ---------------------------------------------------------------- handlers

  /**
   * The store after a handler ran for `phone`: only that session changed, its
   * state is the one reported, and its data and history are the given ones.
   */
  predicate Settled(before: Store, phone: string, r: Step, data: Data, history: seq<HistoryEntry>) {
    && phone in r.store && r.store[phone].state == r.state && r.store[phone].data == data
    && r.store[phone].history == history
    && r.store.Keys == before.Keys + {phone}
    && (forall p | p in before && p != phone :: r.store[p] == before[p])
  }

  /** A session currently in `state`. */
  predicate At(store: Store, phone: string, state: State) {
    phone in store && store[phone].state == state
  }

  function CollectingReply(store: Store, phone: string, correction: bool): Reply {
    var d := GetData(store, phone);
    Collecting(CollectedLines(RequiredFields, d), MissingNames(RequiredFields, d), correction)
  }

  /** Moves to `state` and answers with `reply`. */
  function Go(store: Store, phone: string, state: State, reply: Reply, now: int): (r: Step)
    ensures r.state == state && Settled(store, phone, r, GetData(store, phone), HistoryOf(store, phone))
  {
    Step(state, reply, SetState(store, phone, state, now))
  }

  function ProcessInitial(store: Store, phone: string, now: int): (r: Step)
    ensures r.state == MenuPrincipal && Settled(store, phone, r, GetData(store, phone), HistoryOf(store, phone))
  {
    Go(store, phone, MenuPrincipal, Template(Initial, false), now)
  }

  function ProcessMenu(store: Store, phone: string, text: string, now: int): (r: Step)
    requires At(store, phone, MenuPrincipal) && !IsHandoffRequest(text)
    ensures r.state == Transition(MenuPrincipal, text, false) && Settled(store, phone, r, GetData(store, phone), HistoryOf(store, phone))
  {
    if text in MenuCompanyOptions then Go(store, phone, InfoEmpresa, CompanyInfo(true, false), now)
    else if text in MenuQuoteOptions then Go(store, phone, CotacaoInicio, Template(CotacaoInicio, false), now)
    else Step(MenuPrincipal, Template(Initial, true), store)
  }

  function ProcessInfo(store: Store, phone: string, text: string, now: int): (r: Step)
    requires At(store, phone, InfoEmpresa) && !IsHandoffRequest(text)
    ensures r.state == Transition(InfoEmpresa, text, false) && Settled(store, phone, r, GetData(store, phone), HistoryOf(store, phone))
  {
    if text in InfoYesOptions then Go(store, phone, CotacaoInicio, Template(CotacaoInicio, false), now)
    else if text in InfoNoOptions then Go(store, phone, Encerrada, Template(Encerrada, false), now)
    else if text in InfoBackOptions then Go(store, phone, MenuPrincipal, Template(Initial, false), now)
    else Step(InfoEmpresa, CompanyInfo(false, true), store)
  }

  function ProcessInicio(store: Store, phone: string, now: int): (r: Step)
    ensures r.state == CotacaoColetando && Settled(store, phone, r, GetData(store, phone), HistoryOf(store, phone))
  {
    Go(store, phone, CotacaoColetando, CollectingReply(store, phone, false), now)
  }

  function ProcessColetando(store: Store, phone: string, now: int): (r: Step)
    requires At(store, phone, CotacaoColetando)
    ensures r.state == (if IsComplete(store, phone) then CotacaoValidando else CotacaoColetando)
    ensures Settled(store, phone, r, GetData(store, phone), HistoryOf(store, phone))
  {
    if IsComplete(store, phone) then Go(store, phone, CotacaoValidando, Review(GetData(store, phone), false), now)
    else Step(CotacaoColetando, CollectingReply(store, phone, false), store)
  }

  function ProcessValidando(store: Store, phone: string, text: string, now: int): (r: Step)
    requires At(store, phone, CotacaoValidando) && !IsHandoffRequest(text)
    ensures r.state == Transition(CotacaoValidando, text, false) && Settled(store, phone, r, GetData(store, phone), HistoryOf(store, phone))
  {
    if text in ConfirmOptions then Go(store, phone, CotacaoProcessando, Template(CotacaoProcessando, false), now)
    else if text in CorrectOptions then Go(store, phone, CotacaoColetando, CollectingReply(store, phone, true), now)
    else Step(CotacaoValidando, Review(GetData(store, phone), true), store)
  }

  /** "Nova cotação": archive a copy of the data, reset, and start collecting again. */
  function StartAgain(store: Store, phone: string, now: int): (r: Step)
    requires phone in store
    ensures r.state == CotacaoInicio
    ensures Settled(store, phone, r, map[], store[phone].history + [Snapshot(store[phone].data, now)])
    ensures r.store[phone].messageCount == 0
  {
    var archived := AddQuote(store, phone, Snapshot(GetData(store, phone), now));
    Go(Reset(archived, phone, now), phone, CotacaoInicio, Template(CotacaoInicio, false), now)
  }

  function ProcessConcluida(store: Store, phone: string, text: string, now: int): (r: Step)
    requires At(store, phone, CotacaoConcluida) && !IsHandoffRequest(text)
    ensures r.state == Transition(CotacaoConcluida, text, false)
    ensures Settled(store, phone, r, if text in ConcludedNewOptions then map[] else GetData(store, phone),
                    HistoryOf(store, phone)
                    + if text in ConcludedNewOptions then [Snapshot(GetData(store, phone), now)] else [])
  {
    if text in ConcludedNewOptions then StartAgain(store, phone, now)
    else if text in ConcludedAgentOptions then Go(store, phone, AguardandoAtendente, Template(AguardandoAtendente, false), now)
    else if text in ConcludedCloseOptions then Go(store, phone, Encerrada, Template(Encerrada, false), now)
    else Step(CotacaoConcluida, Template(CotacaoConcluida, true), store)
  }

  function ProcessPos(store: Store, phone: string, text: string, now: int): (r: Step)
    requires At(store, phone, PosCotacao) && !IsHandoffRequest(text)
    ensures r.state == Transition(PosCotacao, text, false)
    ensures Settled(store, phone, r, if text in PostNewOptions then map[] else GetData(store, phone),
                    HistoryOf(store, phone)
                    + if text in PostNewOptions then [Snapshot(GetData(store, phone), now)] else [])
  {
    if text in PostNewOptions then StartAgain(store, phone, now)
    else if text in PostInfoOptions then Go(store, phone, InfoEmpresa, CompanyInfo(false, false), now)
    else if text in PostAgentOptions then Go(store, phone, AguardandoAtendente, Template(AguardandoAtendente, false), now)
    else if text in PostCloseOptions then Go(store, phone, Encerrada, Template(Encerrada, false), now)
    else Step(PosCotacao, Template(PosCotacao, true), store)
  }

  /** A state without a handler: reset the session and answer as from INITIAL. */
  function Restart(store: Store, phone: string, now: int): (r: Step)
    requires phone in store
    ensures r.state == MenuPrincipal && Settled(store, phone, r, map[], store[phone].history)
  {
    ProcessInitial(Reset(store, phone, now), phone, now)
  }

  /** The per-state handlers, for a message that is not a hand-off request. */
  function Dispatch(store: Store, phone: string, current: State, message: string, now: int): (r: Step)
    requires current == Initial || At(store, phone, current)
    requires !IsHandoffRequest(Normalise(message))
    ensures r.state == Transition(current, Normalise(message), IsComplete(store, phone))
  {
    var text := Normalise(message);
    match current
    case Initial => ProcessInitial(store, phone, now)
    case MenuPrincipal => ProcessMenu(store, phone, text, now)
    case InfoEmpresa => ProcessInfo(store, phone, text, now)
    case CotacaoInicio => ProcessInicio(store, phone, now)
    case CotacaoColetando => ProcessColetando(store, phone, now)
    case CotacaoValidando => ProcessValidando(store, phone, text, now)
    case CotacaoConcluida => ProcessConcluida(store, phone, text, now)
    case PosCotacao => ProcessPos(store, phone, text, now)
    case _ => Restart(store, phone, now)
  }

  /** Dispatching changes only the session of `phone`, and clears its data exactly when it resets it. */
  lemma DispatchSettles(store: Store, phone: string, current: State, message: string, now: int)
    requires current == Initial || At(store, phone, current)
    requires !IsHandoffRequest(Normalise(message))
    ensures Settled(store, phone, Dispatch(store, phone, current, message, now),
                    if ResetsSession(current, Normalise(message)) then map[] else GetData(store, phone),
                    HistoryOf(store, phone)
                    + if StartsNewQuote(current, Normalise(message)) then [Snapshot(GetData(store, phone), now)] else [])
  {
    if current.Initial? || current.MenuPrincipal? || current.InfoEmpresa? {
      DispatchSettlesMenus(store, phone, current, message, now);
    } else if current.CotacaoInicio? || current.CotacaoColetando? || current.CotacaoValidando? {
      DispatchSettlesCollecting(store, phone, current, message, now);
    } else if current.CotacaoConcluida? || current.PosCotacao? {
      DispatchSettlesAfterQuote(store, phone, current, message, now);
    } else {
      DispatchSettlesUnhandled(store, phone, current, message, now);
    }
  }

  lemma DispatchSettlesMenus(store: Store, phone: string, current: State, message: string, now: int)
    requires current == Initial || At(store, phone, current)
    requires !IsHandoffRequest(Normalise(message))
    requires current.Initial? || current.MenuPrincipal? || current.InfoEmpresa?
    ensures Settled(store, phone, Dispatch(store, phone, current, message, now),
                    if ResetsSession(current, Normalise(message)) then map[] else GetData(store, phone),
                    HistoryOf(store, phone)
                    + if StartsNewQuote(current, Normalise(message)) then [Snapshot(GetData(store, phone), now)] else [])
  {
  }

  lemma DispatchSettlesCollecting(store: Store, phone: string, current: State, message: string, now: int)
    requires current == Initial || At(store, phone, current)
    requires !IsHandoffRequest(Normalise(message))
    requires current.CotacaoInicio? || current.CotacaoColetando? || current.CotacaoValidando?
    ensures Settled(store, phone, Dispatch(store, phone, current, message, now),
                    if ResetsSession(current, Normalise(message)) then map[] else GetData(store, phone),
                    HistoryOf(store, phone)
                    + if StartsNewQuote(current, Normalise(message)) then [Snapshot(GetData(store, phone), now)] else [])
  {
  }

  lemma DispatchSettlesAfterQuote(store: Store, phone: string, current: State, message: string, now: int)
    requires current == Initial || At(store, phone, current)
    requires !IsHandoffRequest(Normalise(message))
    requires current.CotacaoConcluida? || current.PosCotacao?
    ensures Settled(store, phone, Dispatch(store, phone, current, message, now),
                    if ResetsSession(current, Normalise(message)) then map[] else GetData(store, phone),
                    HistoryOf(store, phone)
                    + if StartsNewQuote(current, Normalise(message)) then [Snapshot(GetData(store, phone), now)] else [])
  {
  }

  lemma DispatchSettlesUnhandled(store: Store, phone: string, current: State, message: string, now: int)
    requires current == Initial || At(store, phone, current)
    requires !IsHandoffRequest(Normalise(message))
    requires Unhandled(current)
    ensures Settled(store, phone, Dispatch(store, phone, current, message, now),
                    if ResetsSession(current, Normalise(message)) then map[] else GetData(store, phone),
                    HistoryOf(store, phone)
                    + if StartsNewQuote(current, Normalise(message)) then [Snapshot(GetData(store, phone), now)] else [])
  {
  }

  /**
   * process_user_input: read the state (applying the timeout), honour a
   * hand-off request from any state, otherwise dispatch on the state.
   * COTACAO_INICIO and COTACAO_COLETANDO see the raw message, the others the
   * normalised text.
   */
  function ProcessUserInput(store: Store, phone: string, message: string, now: int): (r: Step)
    ensures var read := GetState(store, phone, now);
            var text := Normalise(message);
            && r.state == Transition(read.state, text, IsComplete(read.store, phone))
            && Settled(read.store, phone, r,
                       if ResetsSession(read.state, text) then map[] else GetData(read.store, phone),
                       HistoryOf(read.store, phone)
                       + if StartsNewQuote(read.state, text) then [Snapshot(GetData(read.store, phone), now)] else [])
  {
    var read := GetState(store, phone, now);
    if IsHandoffRequest(Normalise(message)) then
      Go(read.store, phone, AguardandoAtendente, Template(AguardandoAtendente, false), now)
    else
      DispatchSettles(read.store, phone, read.state, message, now);
      Dispatch(read.store, phone, read.state, message, now)
  }

  // ------------------------------------------------------------------ lemmas

  /** Reading the state a second time at the same instant changes nothing and reads the same state. */
  lemma ReadIsStable(store: Store, phone: string, now: int)
    ensures var first := GetState(store, phone, now);
            GetState(first.store, phone, now) == first
  {
  }

  /**
   * An agent-held session stays with the agent exactly while it has been idle
   * for at most ten minutes: the twenty-four-hour hand-back never gets its turn,
   * because the ten-minute reset comes first.
   */
  lemma AgentHoldEndsAfterTenMinutes(store: Store, phone: string, now: int)
    requires At(store, phone, AtendenteAtivo)
    ensures GetState(store, phone, now).state == AtendenteAtivo
            <==> now - store[phone].lastInteraction <= ConversationTimeout
  {
  }

  /** A hand-off request leads to AGUARDANDO_ATENDENTE from every state. */
  lemma HandoffFromEveryState(current: State, text: string, complete: bool)
    requires IsHandoffRequest(text)
    ensures Transition(current, text, complete) == AguardandoAtendente
  {
  }

  /** The quotation is only ever started by confirming the summary. */
  lemma ProcessingOnlyAfterConfirmation(current: State, text: string, complete: bool)
    ensures Transition(current, text, complete) == CotacaoProcessando
            <==> current == CotacaoValidando && !IsHandoffRequest(text) && text in ConfirmOptions
  {
  }

  /** The summary is shown only once all fourteen fields are filled (or re-shown while it waits). */
  lemma ValidationNeedsCompleteData(current: State, text: string, complete: bool)
    requires Transition(current, text, complete) == CotacaoValidando
    ensures (current == CotacaoColetando && complete) || current == CotacaoValidando
  {
  }

  /** While data is being collected, no message leads straight to the quotation. */
  lemma CollectingNeverProcesses(current: State, text: string, complete: bool)
    requires current == CotacaoInicio || current == CotacaoColetando
    ensures Transition(current, text, complete) in {CotacaoColetando, CotacaoValidando, AguardandoAtendente}
  {
  }
}

=== FILE: data_extractor.dfy ===
/*
 * The data extractor of the quotation flow (app/bot/data_extractor.py): a
 * language-model extraction merged into what was already collected, a regex
 * fallback that only fills fields still empty, and the validation of the
 * collected values.
 *
 * The language model's answer is a parameter; the regex lists are abstract
 * patterns (see Patterns).
 */
module DataExtractor {
  import opened Wrappers
  import opened Text
  import opened Fields
  import opened Patterns

  // ------------------------------------------------------ regex extraction

  /** How a field's captured text is cleaned after `strip()`. */
  datatype Cleaning = Keep | DigitsOnly | Uppercase

  function Clean(c: Cleaning, v: string): string {
    match c
    case Keep => v
    case DigitsOnly => Digits(v)
    case Uppercase => UpperStr(v)
  }

  /** The fields the regex extraction knows, in the order it tries them, with their cleaning. */
  const SimpleFields: seq<(string, Cleaning)> := [
    ("nome_solicitante", Keep), ("cpf_solicitante", DigitsOnly), ("nome_animal", Keep),
    ("valor_animal", DigitsOnly), ("raca", Keep), ("data_nascimento", Keep), ("sexo", Keep),
    ("utilizacao", Keep), ("rua", Keep), ("numero", Keep), ("bairro", Keep), ("cidade", Keep),
    ("uf", Uppercase), ("cep", DigitsOnly)
  ]

  /** The regex list of each field. */
  type PatternTable = string -> seq<Matcher>

  predicate Mentions(fields: seq<(string, Cleaning)>, key: string) {
    exists i | 0 <= i < |fields| :: fields[i].0 == key
  }

  predicate DistinctFields(fields: seq<(string, Cleaning)>) {
    forall i, j | 0 <= i < j < |fields| :: fields[i].0 != fields[j].0
  }

  /**
   * What the regex extraction leaves under `key`: a filled value stays; an
   * absent or empty field takes the cleaned first hit; with no hit it is left
   * as it was.
   */
  function FieldValue(patterns: PatternTable, text: string, d: Data, key: string, c: Cleaning): Option<string> {
    if Filled(d, key) then Find(d, key)
    else match FirstMatch(patterns(key), text)
      case Some(g) => Some(Clean(c, Strip(g)))
      case None => Find(d, key)
  }

  function FillField(patterns: PatternTable, text: string, d: Data, field: (string, Cleaning)): (r: Data)
    ensures Find(r, field.0) == FieldValue(patterns, text, d, field.0, field.1)
    ensures forall k | k != field.0 :: Find(r, k) == Find(d, k)
  {
    if Filled(d, field.0) then d
    else match FirstMatch(patterns(field.0), text)
      case Some(g) => d[field.0 := Clean(field.1, Strip(g))]
      case None => d
  }

  /** Tries the fields in order; each step touches its own field only. */
  function FillFields(fields: seq<(string, Cleaning)>, patterns: PatternTable, text: string, d: Data): (r: Data)
    requires DistinctFields(fields)
    ensures forall k | !Mentions(fields, k) :: Find(r, k) == Find(d, k)
    ensures forall i | 0 <= i < |fields| :: Find(r, fields[i].0) == FieldValue(patterns, text, d, fields[i].0, fields[i].1)
  {
    if fields == [] then d
    else
      var first := FillField(patterns, text, d, fields[0]);
      assert DistinctFields(fields[1..]);
      var r := FillFields(fields[1..], patterns, text, first);
      FillFieldsStep(fields, patterns, text, d, first, r);
      r
  }

  /** One step of FillFields: the first field's step, then the rest, which never touch the first field's key. */
  lemma FillFieldsStep(fields: seq<(string, Cleaning)>, patterns: PatternTable, text: string, d: Data, first: Data, r: Data)
    requires fields != [] && DistinctFields(fields)
    requires first == FillField(patterns, text, d, fields[0])
    requires forall k | !Mentions(fields[1..], k) :: Find(r, k) == Find(first, k)
    requires forall i | 0 <= i < |fields[1..]| ::
               Find(r, fields[1..][i].0) == FieldValue(patterns, text, first, fields[1..][i].0, fields[1..][i].1)
    ensures forall k | !Mentions(fields, k) :: Find(r, k) == Find(d, k)
    ensures forall i | 0 <= i < |fields| :: Find(r, fields[i].0) == FieldValue(patterns, text, d, fields[i].0, fields[i].1)
  {
    assert forall k | Mentions(fields[1..], k) :: Mentions(fields, k) by {
      forall k | Mentions(fields[1..], k) ensures Mentions(fields, k) {
        var i :| 0 <= i < |fields[1..]| && fields[1..][i].0 == k;
        assert fields[i + 1].0 == k;
      }
    }
    assert !Mentions(fields[1..], fields[0].0) by {
      forall i | 0 <= i < |fields[1..]| ensures fields[1..][i].0 != fields[0].0 {
        assert fields[1..][i] == fields[i + 1];
      }
    }
    forall i | 0 <= i < |fields|
      ensures Find(r, fields[i].0) == FieldValue(patterns, text, d, fields[i].0, fields[i].1)
    {
      if i > 0 {
        assert fields[i] == fields[1..][i - 1];
        assert fields[i].0 != fields[0].0;
        assert FieldValue(patterns, text, first, fields[i].0, fields[i].1) == FieldValue(patterns, text, d, fields[i].0, fields[i].1);
      }
    }
  }

  lemma SimpleFieldsDistinct()
    ensures DistinctFields(SimpleFields)
  {
  }

  /**
   * _extract_simple: a copy of the existing data where every known field that
   * is absent or empty takes the cleaned first regex hit on the lower-cased
   * message. Filled fields and unknown keys are never touched.
   */
  function ExtractSimple(patterns: PatternTable, message: string, existing: Data): (r: Data)
    ensures forall k | !Mentions(SimpleFields, k) :: Find(r, k) == Find(existing, k)
    ensures forall i | 0 <= i < |SimpleFields| ::
              Find(r, SimpleFields[i].0)
              == FieldValue(patterns, LowerStr(message), existing, SimpleFields[i].0, SimpleFields[i].1)
  {
    SimpleFieldsDistinct();
    FillFields(SimpleFields, patterns, LowerStr(message), existing)
  }

  /** A filled value survives the regex extraction unchanged. */
  lemma ExtractSimpleKeepsFilled(patterns: PatternTable, message: string, existing: Data, k: string)
    requires Filled(existing, k)
    ensures k in ExtractSimple(patterns, message, existing)
    ensures ExtractSimple(patterns, message, existing)[k] == existing[k]
  {
    var r := ExtractSimple(patterns, message, existing);
    if Mentions(SimpleFields, k) {
      var i :| 0 <= i < |SimpleFields| && SimpleFields[i].0 == k;
      assert Find(r, k) == Find(existing, k);
    } else {
      assert Find(r, k) == Find(existing, k);
    }
  }

  /**
   * A CPF, value or CEP the regex extraction writes holds digits only, and a
   * UF it writes holds no lower-case letter.
   */
  lemma ExtractSimpleCleans(patterns: PatternTable, message: string, existing: Data, k: string)
    requires !Filled(existing, k)
    ensures var r := ExtractSimple(patterns, message, existing);
            && (k in {"cpf_solicitante", "valor_animal", "cep"} && k in r ==> AllDigits(r[k]))
            && (k == "uf" && k in r ==> forall i | 0 <= i < |r[k]| :: !IsLower(r[k][i]))
  {
    if k == "cpf_solicitante" {
      assert SimpleFields[1] == ("cpf_solicitante", DigitsOnly);
      CleanedAt(patterns, message, existing, 1);
    } else if k == "valor_animal" {
      assert SimpleFields[3] == ("valor_animal", DigitsOnly);
      CleanedAt(patterns, message, existing, 3);
    } else if k == "cep" {
      assert SimpleFields[13] == ("cep", DigitsOnly);
      CleanedAt(patterns, message, existing, 13);
    } else if k == "uf" {
      assert SimpleFields[12] == ("uf", Uppercase);
      CleanedAt(patterns, message, existing, 12);
    } else {
      assert k !in {"cpf_solicitante", "valor_animal", "cep"};
    }
  }

  /** The value the regex extraction leaves in an unfilled field carries that field's cleaning. */
  lemma CleanedAt(patterns: PatternTable, message: string, existing: Data, i: nat)
    requires i < |SimpleFields| && !Filled(existing, SimpleFields[i].0)
    ensures var r := ExtractSimple(patterns, message, existing);
            var k := SimpleFields[i].0;
            && (SimpleFields[i].1 == DigitsOnly && k in r ==> AllDigits(r[k]))
            && (SimpleFields[i].1 == Uppercase && k in r ==> forall j | 0 <= j < |r[k]| :: !IsLower(r[k][j]))
  {
    var r := ExtractSimple(patterns, message, existing);
    var (k, c) := SimpleFields[i];
    assert Find(r, k) == FieldValue(patterns, LowerStr(message), existing, k, c);
    match FirstMatch(patterns(k), LowerStr(message))
    case Some(g) =>
      assert r[k] == Clean(c, Strip(g));
    case None =>
      assert k in r ==> r[k] == "";
  }

  /**
   * Running the regex extraction again on the same message changes nothing:
   * a field it filled stays, and a field it could not fill finds the same hit.
   */
  lemma ExtractSimpleIdempotent(patterns: PatternTable, message: string, existing: Data)
    ensures var once := ExtractSimple(patterns, message, existing);
            ExtractSimple(patterns, message, once) == once
  {
    var once := ExtractSimple(patterns, message, existing);
    var twice := ExtractSimple(patterns, message, once);
    forall k
      ensures Find(twice, k) == Find(once, k)
    {
      if Mentions(SimpleFields, k) {
        var i :| 0 <= i < |SimpleFields| && SimpleFields[i].0 == k;
        assert Find(twice, k) == FieldValue(patterns, LowerStr(message), once, k, SimpleFields[i].1);
        assert Find(once, k) == FieldValue(patterns, LowerStr(message), existing, k, SimpleFields[i].1);
      }
    }
    assert forall k :: k in twice <==> Find(twice, k).Some?;
    assert forall k :: k in once <==> Find(once, k).Some?;
  }

  // ------------------------------------------------- language-model extraction

  /**
   * The outcome of asking the language model: the call or the JSON decoding
   * failed; the answer held no `{...}` block; or the decoded object.
   */
  datatype ModelAnswer = ModelFailed | NoJson | Json(fields: Data)

  /** `value and str(value).strip()`: a value worth keeping. */
  predicate NonBlank(v: string) {
    Strip(v) != ""
  }

  /**
   * The merge of _extract_with_ai: with existing data, a copy where every
   * non-blank answered value overwrites; with no existing data, the answer as
   * it came.
   */
  function MergeAnswer(existing: Data, answered: Data): (r: Data)
    ensures |existing| == 0 ==> r == answered
    ensures |existing| > 0 ==>
              forall k :: Find(r, k) == if k in answered && NonBlank(answered[k]) then Some(answered[k]) else Find(existing, k)
  {
    if |existing| == 0 then answered
    else existing + map k | k in answered && NonBlank(answered[k]) :: answered[k]
  }

  /** A blank answer never erases collected data: a filled field stays filled after the merge. */
  lemma MergeKeepsFilled(existing: Data, answered: Data, k: string)
    requires Filled(existing, k)
    ensures Filled(MergeAnswer(existing, answered), k)
  {
    assert |existing| > 0 by {
      assert k in existing.Keys;
    }
    var r := MergeAnswer(existing, answered);
    assert Find(r, k).Some?;
    if k in answered && NonBlank(answered[k]) {
      assert Find(r, k) == Some(answered[k]);
      assert answered[k] != "";
    }
  }

  /**
   * _extract_with_ai: with a decoded answer and no existing data, the answer
   * as it came; with existing data, every non-blank answered value
   * overwrites and every other field keeps its value. Without JSON the
   * existing data; on failure the regex fallback.
   */
  function ExtractWithModel(answer: ModelAnswer, patterns: PatternTable, message: string, existing: Data): (r: Data)
    ensures answer.Json? && |existing| == 0 ==> r == answer.fields
    ensures answer.Json? && |existing| > 0 ==>
              forall k :: Find(r, k) == if k in answer.fields && NonBlank(answer.fields[k]) then Some(answer.fields[k]) else Find(existing, k)
    ensures answer.NoJson? ==> r == existing
    ensures answer.ModelFailed? ==> r == ExtractSimple(patterns, message, existing)
  {
    match answer
    case Json(fields) => MergeAnswer(existing, fields)
    case NoJson => existing
    case ModelFailed => ExtractSimple(patterns, message, existing)
  }

  /**
   * extract_data: the language model when a client is configured, the regex
   * extraction otherwise. The regex extraction runs without a client and
   * whenever the model call fails; an answer without JSON leaves the data
   * as it was.
   */
  function ExtractData(hasClient: bool, answer: ModelAnswer, patterns: PatternTable, message: string, existing: Data): (r: Data)
    ensures !hasClient || answer.ModelFailed? ==> r == ExtractSimple(patterns, message, existing)
    ensures hasClient && answer.NoJson? ==> r == existing
    ensures hasClient && answer.Json? ==> r == MergeAnswer(existing, answer.fields)
  {
    if hasClient then ExtractWithModel(answer, patterns, message, existing)
    else ExtractSimple(patterns, message, existing)
  }

  /** Whatever path the extraction takes, a field already filled is still filled afterwards. */
  lemma ExtractKeepsFilled(hasClient: bool, answer: ModelAnswer, patterns: PatternTable, message: string, existing: Data, k: string)
    requires Filled(existing, k)
    ensures Filled(ExtractData(hasClient, answer, patterns, message, existing), k)
  {
    if hasClient && answer.Json? {
      MergeKeepsFilled(existing, answer.fields, k);
    } else if !(hasClient && answer.NoJson?) {
      ExtractSimpleKeepsFilled(patterns, message, existing, k);
    }
  }

  // -------------------------------------------------------------- validation

  datatype ValidationError =
    | CpfInvalid
    | CepInvalid
    | BirthDateInvalid
    | UfInvalid(uf: string)
    | ValueNotPositive
    | ValueNotNumber

  const ValidUfs: seq<string> := [
    "AC", "AL", "AP", "AM", "BA", "CE", "DF", "ES", "GO", "MA",
    "MT", "MS", "MG", "PA", "PB", "PR", "PE", "PI", "RJ", "RN",
    "RS", "RO", "RR", "SC", "SP", "SE", "TO"
  ]

  /** Exactly `n` digits. */
  predicate DigitsExactly(s: string, n: nat) {
    |s| == n && AllDigits(s)
  }

  /** DD/MM/AAAA as digits and slashes. */
  predicate DateShape(s: string) {
    |s| == 10 && AllDigits(s[..2]) && s[2] == '/' && AllDigits(s[3..5]) && s[5] == '/' && AllDigits(s[6..])
  }

  /** What `re.match('^...$', s)` accepts: the shape, or the shape followed by one final newline. */
  predicate AnchoredAsWritten(s: string, shape: string -> bool) {
    shape(s) || (|s| > 0 && s[|s| - 1] == '\n' && shape(s[..|s| - 1]))
  }

  predicate CpfShape(s: string) { DigitsExactly(s, 11) }

  predicate CepShape(s: string) { DigitsExactly(s, 8) }

  /** A value passes its anchored regex: as written, or read as "the whole value" when `strict`. */
  predicate Passes(s: string, shape: string -> bool, strict: bool) {
    if strict then shape(s) else AnchoredAsWritten(s, shape)
  }

  /** The error `e` when `failed`, nothing otherwise. */
  function ErrorIf(failed: bool, e: ValidationError): (r: seq<ValidationError>)
    ensures forall x :: x in r <==> failed && x == e
  {
    if failed then [e] else []
  }

  /** The value check: not a number, or not positive. */
  function ValueErrors(d: Data): (r: seq<ValidationError>)
    ensures forall x :: x in r <==>
              Filled(d, "valor_animal")
              && (|| (x == ValueNotNumber && ParseInt(d["valor_animal"]).None?)
                  || (x == ValueNotPositive && ParseInt(d["valor_animal"]).Some? && ParseInt(d["valor_animal"]).value <= 0))
  {
    if !Filled(d, "valor_animal") then []
    else match ParseInt(d["valor_animal"])
      case None => [ValueNotNumber]
      case Some(n) => if n <= 0 then [ValueNotPositive] else []
  }

  /** Whether validate_data reports `e`: the check behind `e` fails on a filled field. */
  predicate Fails(d: Data, strict: bool, e: ValidationError) {
    match e
    case CpfInvalid => Filled(d, "cpf_solicitante") && !Passes(d["cpf_solicitante"], CpfShape, strict)
    case CepInvalid => Filled(d, "cep") && !Passes(d["cep"], CepShape, strict)
    case BirthDateInvalid => Filled(d, "data_nascimento") && !Passes(d["data_nascimento"], DateShape, strict)
    case UfInvalid(uf) => Filled(d, "uf") && uf == UpperStr(d["uf"]) && uf !in ValidUfs
    case ValueNotNumber => Filled(d, "valor_animal") && ParseInt(d["valor_animal"]).None?
    case ValueNotPositive =>
      Filled(d, "valor_animal") && ParseInt(d["valor_animal"]).Some? && ParseInt(d["valor_animal"]).value <= 0
  }

  /**
   * The checks of validate_data: an error is reported exactly when its check
   * fails. With `strict` false the checks are the anchored regexes as written,
   * whose `$` also matches before a final newline; with `strict` true the
   * value must be exactly the shape.
   */
  function Validate(d: Data, strict: bool): (r: seq<ValidationError>)
    ensures forall e :: e in r <==> Fails(d, strict, e)
  {
    var cpf := ErrorIf(Filled(d, "cpf_solicitante") && !Passes(d["cpf_solicitante"], CpfShape, strict), CpfInvalid);
    var cep := ErrorIf(Filled(d, "cep") && !Passes(d["cep"], CepShape, strict), CepInvalid);
    var date := ErrorIf(Filled(d, "data_nascimento") && !Passes(d["data_nascimento"], DateShape, strict), BirthDateInvalid);
    var uf := if Filled(d, "uf") && UpperStr(d["uf"]) !in ValidUfs then [UfInvalid(UpperStr(d["uf"]))] else [];
    var value := ValueErrors(d);
    var r := cpf + cep + date + uf + value;
    assert forall x :: x in r <==> x in cpf || x in cep || x in date || x in uf || x in value;
    r
  }

  /** validate_data as written: the anchored regexes with Python's `$`. */
  function ValidateDataAsWritten(d: Data): (r: seq<ValidationError>)
    ensures r == [] ==> Filled(d, "cpf_solicitante") ==> AnchoredAsWritten(d["cpf_solicitante"], CpfShape)
  {
    Validate(d, false)
  }

  /** validate_data with the anchors meaning "the whole value": a valid CPF is exactly eleven digits, a valid CEP eight. */
  function ValidateData(d: Data): (r: seq<ValidationError>)
    ensures r == [] ==> Filled(d, "cpf_solicitante") ==> DigitsExactly(d["cpf_solicitante"], 11)
    ensures r == [] ==> Filled(d, "cep") ==> DigitsExactly(d["cep"], 8)
    ensures r == [] ==> Filled(d, "data_nascimento") ==> DateShape(d["data_nascimento"])
    ensures r == [] ==> Filled(d, "uf") ==> UpperStr(d["uf"]) in ValidUfs
    ensures r == [] ==> Filled(d, "valor_animal") ==> ParseInt(d["valor_animal"]).Some? && ParseInt(d["valor_animal"]).value > 0
  {
    Validate(d, true)
  }

  /** The validation passes exactly when no check fails; empty or absent fields are never checked. */
  lemma ValidIffNoFailedCheck(d: Data)
    ensures ValidateData(d) == [] <==>
              && (Filled(d, "cpf_solicitante") ==> DigitsExactly(d["cpf_solicitante"], 11))
              && (Filled(d, "cep") ==> DigitsExactly(d["cep"], 8))
              && (Filled(d, "data_nascimento") ==> DateShape(d["data_nascimento"]))
              && (Filled(d, "uf") ==> UpperStr(d["uf"]) in ValidUfs)
              && (Filled(d, "valor_animal") ==> ParseInt(d["valor_animal"]).Some? && ParseInt(d["valor_animal"]).value > 0)
  {
    var r := ValidateData(d);
    if r != [] {
      assert r[0] in r;
    }
  }

  /** The validation as written accepts a CPF with a trailing newline; the whole-value reading rejects it. */
  lemma TrailingNewlineCpf()
    ensures ValidateDataAsWritten(map["cpf_solicitante" := "12345678901\n"]) == []
    ensures ValidateData(map["cpf_solicitante" := "12345678901\n"]) == [CpfInvalid]
  {
    var d := map["cpf_solicitante" := "12345678901\n"];
    var s := d["cpf_solicitante"];
    assert s[..|s| - 1] == "12345678901";
    assert DigitsExactly("12345678901", 11);
    assert !DigitsExactly(s, 11);
  }
}

=== FILE: database_adapter.dfy ===
/*
 * database_adapter.py: the methods the bot handler needs, written on top of
 * the client store. Every method changes the store in place through the
 * record get_client_data returns; here each returns the new store. The
 * try/except around each body only logs, and none of the modelled bodies
 * can raise, so the error paths are not modelled.
 */
module DatabaseAdapter {
  import opened Wrappers
  import opened Fields
  import opened DatabaseManager

  /** `sender`: "user", or anything else, which is saved as the bot's reply. */
  datatype Sender = User | Bot

  /** The message a bot reply is paired with: the phone's last saved message, or "" with no history. */
  function LastMessage(db: Db, phone: string): (r: string)
    ensures History(db.log, phone) == [] ==> r == []
    ensures History(db.log, phone) != [] ==> r == History(db.log, phone)[|History(db.log, phone)| - 1].message
  {
    var h := History(db.log, phone);
    if h == [] then "" else h[|h| - 1].message
  }

  /**
   * save_message: a user message is saved with an empty response; a bot
   * reply is saved as the response to the phone's last saved message.
   */
  function SaveMessage(db: Db, phone: string, sender: Sender, message: string, now: int): (r: Db)
    ensures r.clients == db.clients
    ensures |History(r.log, phone)| == |History(db.log, phone)| + 1
    ensures History(r.log, phone)[..|History(db.log, phone)|] == History(db.log, phone)
    ensures var e := History(r.log, phone)[|History(db.log, phone)|];
            && e.id == |History(db.log, phone)| + 1
            && e.timestamp == now
            && (sender == User ==> e.message == message && e.response == [])
            && (sender == Bot ==> e.message == LastMessage(db, phone) && e.response == message)
    ensures forall q | q != phone :: History(r.log, q) == History(db.log, q)
  {
    var h := History(db.log, phone);
    var after := match sender
      case User => SaveConversation(db, phone, message, "", now).0
      case Bot => SaveConversation(db, phone, LastMessage(db, phone), message, now).0;
    assert History(after.log, phone)[..|h|] == h;
    after
  }

  /** A user message followed by the bot's reply: the reply is paired with that message. */
  lemma {:induction false} ReplyPairsWithMessage(db: Db, phone: string, message: string, reply: string, t1: int, t2: int)
    ensures var after := SaveMessage(SaveMessage(db, phone, User, message, t1), phone, Bot, reply, t2);
            var h := History(after.log, phone);
            |h| == |History(db.log, phone)| + 2 && h[|h| - 1].message == message && h[|h| - 1].response == reply
  {
    var mid := SaveMessage(db, phone, User, message, t1);
    var n := |History(db.log, phone)|;
    assert History(mid.log, phone)[n].message == message;
    assert LastMessage(mid, phone) == message;
  }

  /** Replace one client's record, leaving the conversation log alone. */
  function WithClient(db: Db, phone: string, c: Client): Db {
    db.(clients := db.clients[phone := c])
  }

  /** notify_agent_needed: a known client is marked as awaiting an agent; an unknown phone changes nothing. */
  function NotifyAgentNeeded(db: Db, phone: string, now: int): (r: Db)
    ensures phone !in db.clients ==> r == db
    ensures phone in db.clients ==>
              && r.clients.Keys == db.clients.Keys
              && r.clients[phone] == db.clients[phone].(status := AwaitingAgent, updatedAt := now)
    ensures r.log == db.log
    ensures forall q | q in db.clients && q != phone :: r.clients[q] == db.clients[q]
  {
    if phone in db.clients then WithClient(db, phone, db.clients[phone].(status := AwaitingAgent, updatedAt := now))
    else db
  }

  /**
   * assign_agent: a known client becomes agent-active with the agent and the
   * instant recorded; every other part of its record, updated_at included,
   * stays as it was.
   */
  function AssignAgent(db: Db, phone: string, agentId: string, now: int): (r: Db)
    ensures phone !in db.clients ==> r == db
    ensures phone in db.clients ==>
              && r.clients.Keys == db.clients.Keys
              && r.clients[phone] == db.clients[phone].(status := AgentActive, agent := Some(Agent(agentId, now)))
    ensures r.log == db.log
    ensures forall q | q in db.clients && q != phone :: r.clients[q] == db.clients[q]
  {
    if phone in db.clients then WithClient(db, phone, db.clients[phone].(status := AgentActive, agent := Some(Agent(agentId, now))))
    else db
  }

  /**
   * release_agent: a known client goes back to collecting with no agent
   * recorded; every other part of its record stays as it was.
   */
  function ReleaseAgent(db: Db, phone: string): (r: Db)
    ensures phone !in db.clients ==> r == db
    ensures phone in db.clients ==>
              && r.clients.Keys == db.clients.Keys
              && r.clients[phone] == db.clients[phone].(status := Collecting, agent := None)
    ensures r.log == db.log
    ensures forall q | q in db.clients && q != phone :: r.clients[q] == db.clients[q]
  {
    if phone in db.clients then WithClient(db, phone, db.clients[phone].(status := Collecting, agent := None))
    else db
  }

  /** Assigning and then releasing an agent gives back the record with status collecting and no agent. */
  lemma AssignThenRelease(db: Db, phone: string, agentId: string, now: int)
    requires phone in db.clients
    ensures ReleaseAgent(AssignAgent(db, phone, agentId, now), phone).clients[phone]
            == db.clients[phone].(status := Collecting, agent := None)
  {
  }

  /**
   * save_quotation_pdf: an unknown phone is first given a record with status
   * 'completed', no data and count 0; then exactly one quotation is appended.
   */
  function SaveQuotationPdf(db: Db, phone: string, id: string, pdfPath: string, data: Data, now: int): (r: Db)
    ensures r.log == db.log && r.clients.Keys == db.clients.Keys + {phone}
    ensures var c := r.clients[phone];
            && c.quotations == (if phone in db.clients then db.clients[phone].quotations else []) + [Quotation(id, pdfPath, data, now)]
            && c.updatedAt == now
            && (phone in db.clients ==> c.data == db.clients[phone].data && c.status == db.clients[phone].status && c.count == db.clients[phone].count)
            && (phone !in db.clients ==> c.data == map[] && c.status == Completed && c.count == 0)
    ensures phone in db.clients ==>
              r.clients[phone] == db.clients[phone].(quotations := db.clients[phone].quotations + [Quotation(id, pdfPath, data, now)],
                                                     updatedAt := now)
    ensures phone !in db.clients ==>
              r.clients[phone] == Client(phone, now, now, map[], Completed, 0, None, [Quotation(id, pdfPath, data, now)])
    ensures forall q | q in db.clients && q != phone :: r.clients[q] == db.clients[q]
  {
    var c := if phone in db.clients then db.clients[phone] else Client(phone, now, now, map[], Completed, 0, None, []);
    WithClient(db, phone, c.(quotations := c.quotations + [Quotation(id, pdfPath, data, now)], updatedAt := now))
  }

  /**
   * A quotation saved for a phone the store does not know leaves a client
   * whose status is 'completed' although all eight fields are missing, so
   * status and data disagree, unlike after save_client_data.
   */
  lemma QuotationCompletesEmptyClient(phone: string, id: string, pdfPath: string, data: Data, now: int)
    ensures var after := SaveQuotationPdf(Empty, phone, id, pdfPath, data, now);
            && after.clients[phone].status == Completed
            && |GetMissingFields(after, phone)| == |DatabaseManager.Schema|
            && ExportClientData(after, phone).Some?
  {
    var after := SaveQuotationPdf(Empty, phone, id, pdfPath, data, now);
    NoneFilledOfEmpty(DatabaseManager.Schema);
    assert after.clients[phone].data == map[];
  }

  /** The agent statuses do not survive the next save of data: it recomputes the status from the fields. */
  lemma SaveDropsAgentStatus(db: Db, phone: string, agentId: string, data: Data, t1: int, t2: int)
    ensures var after := SaveClientData(AssignAgent(db, phone, agentId, t1), phone, data, t2).0;
            after.clients[phone].status in {Collecting, Completed}
  {
  }
}

=== FILE: database_manager.dfy ===
/*
 * The in-memory client store of database_manager.py: one record per phone
 * with the collected horse data and a status derived from it, an
 * append-only conversation log with numbered entries, statistics, and the
 * export of a completed client.
 *
 * The clock is a parameter (`now`, the instant `datetime.utcnow()` reads);
 * the per-phone conversation lists are kept as one log of (phone, entry)
 * pairs in arrival order, from which each phone's list is read.
 */
module DatabaseManager {
  import opened Wrappers
  import opened Fields
  import opened Positions

  /** `status`: the two values the manager writes and the two the adapter adds. */
  datatype Status = Collecting | Completed | AwaitingAgent | AgentActive

  /** The agent fields the adapter adds: `agent_id` and `agent_assigned_at`. */
  datatype Agent = Agent(id: string, assignedAt: int)

  /** One saved quotation: `cotacao_id`, `pdf_path`, its data and its creation instant. */
  datatype Quotation = Quotation(id: string, pdfPath: string, data: Data, createdAt: int)

  /** One client record. */
  datatype Client = Client(
    phone: string, createdAt: int, updatedAt: int, data: Data, status: Status, count: nat,
    agent: Option<Agent>, quotations: seq<Quotation>)

  /** One conversation entry: `timestamp`, `message`, `response`, `message_id`. */
  datatype Entry = Entry(timestamp: int, message: string, response: string, id: nat)

  /** The manager's state: `clients`, and the conversation entries of all phones in arrival order. */
  datatype Db = Db(clients: map<string, Client>, log: seq<(string, Entry)>)

  const Empty := Db(map[], [])

  /** The eight required fields, with the names get_missing_fields reports. */
  const Schema: Fields.Schema := [
    Field("nome_animal", "Nome do Animal"),
    Field("valor_animal", "Valor do Animal (R$)"),
    Field("registro", "Número de Registro"),
    Field("raca", "Raça"),
    Field("data_nascimento", "Data de Nascimento"),
    Field("sexo", "Sexo (inteiro, castrado ou fêmea)"),
    Field("utilizacao", "Utilização (lazer, salto, laço, etc.)"),
    Field("endereco", "Endereço (CEP e cidade)")
  ]

  // --------------------------------------------------------------- clients

  /** The status save_client_data derives from the data. */
  function StatusOf(d: Data): (r: Status)
    ensures r == Completed <==> AllFilled(Schema, d)
    ensures r == Completed || r == Collecting
  {
    if AllFilled(Schema, d) then Completed else Collecting
  }

  /**
   * save_client_data: a new phone gets a collecting record; the data is
   * merged (new values overwrite), the counter goes up by one and the status
   * is recomputed from the merged data. It always reports success.
   */
  function SaveClientData(db: Db, phone: string, data: Data, now: int): (r: (Db, bool))
    ensures r.1
    ensures phone in r.0.clients && r.0.log == db.log
    ensures var c := r.0.clients[phone];
            && c.count == (if phone in db.clients then db.clients[phone].count else 0) + 1
            && (forall k :: k in c.data <==> k in data || (phone in db.clients && k in db.clients[phone].data))
            && (forall k | k in data :: c.data[k] == data[k])
            && (forall k | k !in data && phone in db.clients && k in db.clients[phone].data :: c.data[k] == db.clients[phone].data[k])
            && (c.status == Completed <==> AllFilled(Schema, c.data))
            && c.updatedAt == now
    ensures forall q | q != phone :: (q in r.0.clients <==> q in db.clients) && (q in db.clients ==> r.0.clients[q] == db.clients[q])
  {
    var c := if phone in db.clients then db.clients[phone] else Client(phone, now, now, map[], Collecting, 0, None, []);
    var merged := c.data + data;
    var c' := c.(data := merged, updatedAt := now, count := c.count + 1, status := StatusOf(merged));
    (db.(clients := db.clients[phone := c']), true)
  }

  /** get_client_data. */
  function GetClientData(db: Db, phone: string): (r: Option<Client>)
    ensures r.Some? <==> phone in db.clients
    ensures r.Some? ==> r.value == db.clients[phone]
  {
    if phone in db.clients then Some(db.clients[phone]) else None
  }

  /**
   * get_missing_fields: the names of the required fields absent or empty,
   * each at most once (see GetMissingFieldsInOrder for their order); all
   * eight for an unknown phone.
   */
  function GetMissingFields(db: Db, phone: string): (r: seq<string>)
    ensures phone in db.clients ==> (r == [] <==> AllFilled(Schema, db.clients[phone].data))
    ensures forall x :: x in r <==>
              exists i | 0 <= i < |Schema| :: Schema[i].name == x && (phone !in db.clients || !Filled(db.clients[phone].data, Schema[i].key))
  {
    MissingNames(Schema, if phone in db.clients then db.clients[phone].data else map[])
  }

  /**
   * The missing names come in the fixed field order: for a known phone, the
   * name of each missing field's position in turn; for an unknown phone,
   * all eight names in table order.
   */
  lemma GetMissingFieldsInOrder(db: Db, phone: string)
    ensures var r := GetMissingFields(db, phone);
            phone !in db.clients ==> |r| == |Schema| && forall a | 0 <= a < |r| :: r[a] == Schema[a].name
    ensures var r := GetMissingFields(db, phone);
            phone in db.clients ==>
              var p := MissingPositions(Schema, db.clients[phone].data);
              |r| == |p| && forall a | 0 <= a < |r| :: r[a] == Schema[p[a]].name
  {
    if phone in db.clients {
      MissingNamesInOrder(Schema, db.clients[phone].data);
    } else {
      NoneFilledOfEmpty(Schema);
    }
  }

  /** With no data every field is missing, in table order. */
  lemma NoneFilledOfEmpty(schema: Fields.Schema)
    ensures |MissingNames(schema, map[])| == |schema|
    ensures forall a | 0 <= a < |schema| :: MissingNames(schema, map[])[a] == schema[a].name
  {
    var p := MissingPositions(schema, map[]);
    AllPositions(p, |schema|);
    MissingNamesInOrder(schema, map[]);
  }

  /** After a save, the status is 'completed' exactly when nothing is missing. */
  lemma SavedStatusMatchesMissing(db: Db, phone: string, data: Data, now: int)
    ensures var after := SaveClientData(db, phone, data, now).0;
            after.clients[phone].status == Completed <==> GetMissingFields(after, phone) == []
  {
  }

  // ---------------------------------------------------------- conversations

  /** `conversations.get(phone, [])`: the entries of one phone, in the order saved. */
  function History(log: seq<(string, Entry)>, phone: string): (r: seq<Entry>)
    ensures |r| <= |log|
  {
    if log == [] then []
    else
      var last := log[|log| - 1];
      History(log[..|log| - 1], phone) + (if last.0 == phone then [last.1] else [])
  }

  lemma HistoryAppend(log: seq<(string, Entry)>, item: (string, Entry), phone: string)
    ensures History(log + [item], phone) == History(log, phone) + (if item.0 == phone then [item.1] else [])
  {
    assert (log + [item])[..|log|] == log;
  }

  /**
   * save_conversation: one entry is appended to the phone's list, numbered
   * one past the list's length; every other phone's list is unchanged.
   */
  function SaveConversation(db: Db, phone: string, message: string, response: string, now: int): (r: (Db, bool))
    ensures r.1 && r.0.clients == db.clients
    ensures History(r.0.log, phone) == History(db.log, phone) + [Entry(now, message, response, |History(db.log, phone)| + 1)]
    ensures forall q | q != phone :: History(r.0.log, q) == History(db.log, q)
    ensures |r.0.log| == |db.log| + 1
  {
    var e := Entry(now, message, response, |History(db.log, phone)| + 1);
    HistoryAppendAll(db.log, (phone, e));
    (db.(log := db.log + [(phone, e)]), true)
  }

  lemma HistoryAppendAll(log: seq<(string, Entry)>, item: (string, Entry))
    ensures forall q :: History(log + [item], q) == History(log, q) + (if item.0 == q then [item.1] else [])
  {
    forall q ensures History(log + [item], q) == History(log, q) + (if item.0 == q then [item.1] else []) {
      HistoryAppend(log, item, q);
    }
  }

  /** Every phone's entries are numbered 1, 2, 3, ... in the order saved. */
  ghost predicate Numbered(db: Db) {
    forall phone, i | 0 <= i < |History(db.log, phone)| :: History(db.log, phone)[i].id == i + 1
  }

  /** Saving a conversation keeps the numbering. */
  lemma SaveConversationNumbered(db: Db, phone: string, message: string, response: string, now: int)
    requires Numbered(db)
    ensures Numbered(SaveConversation(db, phone, message, response, now).0)
  {
    var after := SaveConversation(db, phone, message, response, now).0;
    forall q, i | 0 <= i < |History(after.log, q)| ensures History(after.log, q)[i].id == i + 1 {
      if q == phone && i < |History(db.log, q)| {
        assert History(after.log, q)[i] == History(db.log, q)[i];
      }
    }
  }

  // ------------------------------------------------------------ statistics

  function CompletedPhones(db: Db): set<string> {
    set p | p in db.clients && db.clients[p].status == Completed
  }

  /** get_statistics; `completion_rate` as an exact percentage (the float rounding is not modelled). */
  datatype Statistics = Statistics(total: nat, completed: nat, collecting: int, conversations: nat, completionRate: real)

  function GetStatistics(db: Db): (r: Statistics)
    ensures r.completed <= r.total && r.collecting == r.total - r.completed && r.collecting >= 0
    ensures r.total == 0 ==> r.completionRate == 0.0
    ensures 0.0 <= r.completionRate <= 100.0
    ensures r.total == |db.clients.Keys| && r.completed == |CompletedPhones(db)|
    ensures r.conversations == |db.log|
    ensures r.total > 0 ==> r.completionRate * r.total as real == r.completed as real * 100.0
    ensures r.completionRate == 100.0 <==> r.total > 0 && r.completed == r.total
    ensures r.completionRate == 0.0 <==> r.completed == 0
  {
    var total := |db.clients.Keys|;
    var completed := |CompletedPhones(db)|;
    SubsetCardinality(CompletedPhones(db), db.clients.Keys);
    var rate := if total > 0 then completed as real / total as real * 100.0 else 0.0;
    Statistics(total, completed, total - completed, |db.log|, rate)
  }

  lemma SubsetCardinality<T>(a: set<T>, b: set<T>)
    requires a <= b
    ensures |a| <= |b|
  {
    if a != {} {
      var x :| x in a;
      SubsetCardinality(a - {x}, b - {x});
    }
  }

  // ---------------------------------------------------------------- export

  /** export_client_data's result: client info, the animal data and the conversation history. */
  datatype Export = Export(phone: string, completedAt: int, count: nat, animalData: Data, history: seq<Entry>)

  /** export_client_data: nothing unless the client exists with status 'completed'. */
  function ExportClientData(db: Db, phone: string): (r: Option<Export>)
    ensures r.None? <==> phone !in db.clients || db.clients[phone].status != Completed
    ensures r.Some? ==>
              && r.value.animalData == db.clients[phone].data
              && r.value.history == History(db.log, phone)
              && r.value.count == db.clients[phone].count
  {
    if phone !in db.clients || db.clients[phone].status != Completed then None
    else
      var c := db.clients[phone];
      Some(Export(phone, c.updatedAt, c.count, c.data, History(db.log, phone)))
  }
}

=== FILE: fields.dfy ===
/*
 * Collected answers as a Python dict of strings, and the "required fields"
 * tables every component keeps: which are filled, which are missing, which
 * lines a summary shows.
 */
module Fields {
  import opened Wrappers
  import opened Positions

  /** A dict of strings whose iteration order no caller depends on. */
  type Data = map<string, string>

  /** `data.get(key)` is truthy: the key is present with a non-empty value. */
  predicate Filled(d: Data, key: string) {
    key in d && d[key] != ""
  }

  /** `data.get(key)`. */
  function Find(d: Data, key: string): Option<string> {
    if key in d then Some(d[key]) else None
  }

  /** `data.get(key, '')`. */
  function Get(d: Data, key: string): string {
    if key in d then d[key] else ""
  }

  /** One required field: its dict key and the name shown to the user. */
  datatype Field = Field(key: string, name: string)

  type Schema = seq<Field>

  predicate AllFilled(schema: Schema, d: Data) {
    forall i | 0 <= i < |schema| :: Filled(d, schema[i].key)
  }

  /** Which fields of the table are still missing. */
  function MissingFlags(schema: Schema, d: Data): (r: seq<bool>)
    ensures |r| == |schema|
    ensures forall i | 0 <= i < |schema| :: r[i] == !Filled(d, schema[i].key)
  {
    seq(|schema|, i requires 0 <= i < |schema| => !Filled(d, schema[i].key))
  }

  /** The positions of the missing fields, in table order. */
  function MissingPositions(schema: Schema, d: Data): (r: seq<nat>)
    ensures |r| <= |schema|
    ensures forall a | 0 <= a < |r| :: r[a] < |schema| && !Filled(d, schema[r[a]].key)
    ensures forall i | 0 <= i < |schema| :: !Filled(d, schema[i].key) ==> i in r
    ensures forall a, b | 0 <= a < b < |r| :: r[a] < r[b]
  {
    var r := SetFrom(MissingFlags(schema, d), 0);
    PositionsBound(r, |schema|);
    SetFromCovers(MissingFlags(schema, d), 0);
    r
  }

  /** The dict keys of the table, in order. */
  function KeysOf(schema: Schema): (r: seq<string>)
    ensures |r| == |schema|
    ensures forall i | 0 <= i < |schema| :: r[i] == schema[i].key
  {
    seq(|schema|, i requires 0 <= i < |schema| => schema[i].key)
  }

  /** The display names of the table, in order. */
  function NamesOf(schema: Schema): (r: seq<string>)
    ensures |r| == |schema|
    ensures forall i | 0 <= i < |schema| :: r[i] == schema[i].name
  {
    seq(|schema|, i requires 0 <= i < |schema| => schema[i].name)
  }

  /**
   * The names of the fields still missing, in table order (see
   * MissingNamesInOrder).
   */
  function MissingNames(schema: Schema, d: Data): (r: seq<string>)
    ensures |r| <= |schema|
    ensures forall x :: x in r <==> exists i | 0 <= i < |schema| :: !Filled(d, schema[i].key) && schema[i].name == x
    ensures r == [] <==> AllFilled(schema, d)
  {
    var r := PickFrom(NamesOf(schema), MissingFlags(schema, d), 0);
    MissingNamesMembers(schema, d, r);
    PositionsBound(MissingPositions(schema, d), |schema|);
    r
  }

  /**
   * The missing names come in table order: the a-th name is the one at the
   * a-th missing position, so each field is listed at most once and never
   * out of order.
   */
  lemma MissingNamesInOrder(schema: Schema, d: Data)
    ensures var r := MissingNames(schema, d);
            var p := MissingPositions(schema, d);
            |r| == |p| && forall a | 0 <= a < |r| :: r[a] == schema[p[a]].name
  {
    assert MissingNames(schema, d) == PickFrom(NamesOf(schema), MissingFlags(schema, d), 0);
  }

  /** A list that names the missing positions in order names exactly the missing fields. */
  lemma MissingNamesMembers(schema: Schema, d: Data, r: seq<string>)
    requires |r| == |MissingPositions(schema, d)|
    requires forall a | 0 <= a < |r| :: r[a] == schema[MissingPositions(schema, d)[a]].name
    ensures forall x :: x in r <==> exists i | 0 <= i < |schema| :: !Filled(d, schema[i].key) && schema[i].name == x
    ensures r == [] <==> AllFilled(schema, d)
  {
    var p := MissingPositions(schema, d);
    forall x | x in r
      ensures exists i | 0 <= i < |schema| :: !Filled(d, schema[i].key) && schema[i].name == x
    {
      var a :| 0 <= a < |r| && r[a] == x;
      assert !Filled(d, schema[p[a]].key);
    }
    forall i | 0 <= i < |schema| && !Filled(d, schema[i].key)
      ensures schema[i].name in r
    {
      var a :| 0 <= a < |p| && p[a] == i;
      assert r[a] == schema[i].name;
    }
    if r != [] {
      assert !Filled(d, schema[p[0]].key);
    }
  }

  /** The (name, value) lines of the filled fields from position `from` on, in table order. */
  function LinesFrom(schema: Schema, d: Data, from: nat): (r: seq<(string, string)>)
    requires from <= |schema|
    ensures |r| <= |schema| - from
    ensures forall line :: line in r <==>
              exists i | from <= i < |schema| :: Filled(d, schema[i].key) && line == (schema[i].name, d[schema[i].key])
    decreases |schema| - from
  {
    if from == |schema| then []
    else
      var rest := LinesFrom(schema, d, from + 1);
      if Filled(d, schema[from].key) then [(schema[from].name, d[schema[from].key])] + rest else rest
  }

  /** The (name, value) lines of the fields already filled, in table order. */
  function CollectedLines(schema: Schema, d: Data): (r: seq<(string, string)>)
    ensures |r| <= |schema|
    ensures forall line :: line in r <==>
              exists i | 0 <= i < |schema| :: Filled(d, schema[i].key) && line == (schema[i].name, d[schema[i].key])
  {
    LinesFrom(schema, d, 0)
  }

  /** Every field is either collected or missing, never both: the two lists share out the table. */
  lemma CollectedMissingPartition(schema: Schema, d: Data)
    ensures |CollectedLines(schema, d)| + |MissingNames(schema, d)| == |schema|
  {
    PartitionFrom(schema, d, 0);
  }

  /** From position `from` on, each field is counted once, as a line or as a name. */
  lemma {:induction false} PartitionFrom(schema: Schema, d: Data, from: nat)
    requires from <= |schema|
    ensures |LinesFrom(schema, d, from)| + |SetFrom(MissingFlags(schema, d), from)| == |schema| - from
    decreases |schema| - from
  {
    if from < |schema| {
      PartitionFrom(schema, d, from + 1);
    }
  }
}

=== FILE: file_manager.dfy ===
/*
 * The file managers of app/utils/file_manager.py and whatsapp_file_manager.py:
 * where an uploaded file gets its public URL, which Cloudinary resource type
 * it is uploaded as, which file types are supported, how the quotation PDF is
 * named and captioned, and which sends each `send_*_to_whatsapp` makes.
 *
 * The two classes share the logic modelled here. They differ in their
 * default base URL, in where Cloudinary's availability is decided, in the
 * upload options (app/utils/file_manager.py also passes `use_filename` and
 * `unique_filename`), in the second having send_document_to_whatsapp, and
 * in the UltraMsg client they call: app.integrations.ultramsg_api (its own
 * phone formatting, no retries, audio to "messages/voice") against
 * ultramsg_integration (`_format_phone_number`, three retries, audio to
 * "messages/audio"). None of these differences shows in what is modelled:
 * the file system, Cloudinary and UltraMsg are parameters (what the copy or
 * upload gave, whether the send succeeded).
 */
module FileManager {
  import opened Wrappers
  import opened Text
  import opened Fields
  import opened Positions

  // ------------------------------------------------------------------ paths

  /** `os.path.basename`: the text after the last '/'. */
  function Basename(p: string): (r: string)
    ensures '/' !in r
    ensures |r| <= |p| && r == p[|p| - |r|..]
    ensures |r| < |p| ==> p[|p| - |r| - 1] == '/'
  {
    if p == [] then []
    else if p[|p| - 1] == '/' then []
    else Basename(p[..|p| - 1]) + [p[|p| - 1]]
  }

  /** The position of the last '.' in `s`, if any. */
  function LastDot(s: string): (r: Option<nat>)
    ensures r.None? <==> '.' !in s
    ensures r.Some? ==> r.value < |s| && s[r.value] == '.' && '.' !in s[r.value + 1..]
  {
    if s == [] then None
    else if s[|s| - 1] == '.' then Some(|s| - 1)
    else
      var r := LastDot(s[..|s| - 1]);
      assert s[..|s| - 1] + [s[|s| - 1]] == s;
      if r.Some? then assert s[r.value + 1..] == s[..|s| - 1][r.value + 1..] + [s[|s| - 1]]; r else r
  }

  /** Some character before position `i` of `s` is not a dot. */
  predicate HasStem(s: string, i: nat)
    requires i <= |s|
  {
    exists j | 0 <= j < i :: s[j] != '.'
  }

  /**
   * The extension `os.path.splitext` gives: from the last dot of the last
   * path component, provided a character other than a dot comes before it
   * in that component (".bashrc" has none); otherwise empty.
   */
  function Extension(p: string): (r: string)
    ensures |r| <= |p| && r == p[|p| - |r|..]
    ensures r == [] || (r[0] == '.' && '.' !in r[1..] && '/' !in r)
    ensures r == [] <==> var b := Basename(p); LastDot(b).None? || !HasStem(b, LastDot(b).value)
  {
    var b := Basename(p);
    match LastDot(b)
    case None => []
    case Some(i) =>
      if HasStem(b, i) then
        DottedSuffix(p, b, i);
        b[i..]
      else []
  }

  /** From the last dot of a slash-free suffix of `p` on is again such a suffix, with that one dot. */
  lemma DottedSuffix(p: string, b: string, i: nat)
    requires |b| <= |p| && b == p[|p| - |b|..] && '/' !in b
    requires i < |b| && b[i] == '.' && '.' !in b[i + 1..]
    ensures |b[i..]| <= |p| && b[i..] == p[|p| - |b[i..]|..]
    ensures b[i..][0] == '.' && '.' !in b[i..][1..] && '/' !in b[i..]
  {
    assert b[i..][1..] == b[i + 1..];
    assert forall c | c in b[i..] :: c in b;
  }

  /** A name with a stem and a dotted suffix has that suffix as its extension. */
  lemma ExtensionOfName(stem: string, word: string)
    requires '/' !in stem && '/' !in word && '.' !in word
    requires exists j | 0 <= j < |stem| :: stem[j] != '.'
    ensures Extension(stem + "." + word) == "." + word
  {
    var p := stem + "." + word;
    var i := |stem|;
    NameParts(stem, word);
    BasenameWithoutSlash(p);
    LastDotAt(p, i);
    assert Extension(p) == p[i..];
  }

  /** The pieces of `stem + "." + word`: no slash, a dot at |stem| with none after it, and a stem before it. */
  lemma NameParts(stem: string, word: string)
    requires '/' !in stem && '/' !in word && '.' !in word
    requires exists j | 0 <= j < |stem| :: stem[j] != '.'
    ensures var p := stem + "." + word;
            && '/' !in p && p[|stem|] == '.' && '.' !in p[|stem| + 1..]
            && p[|stem|..] == "." + word && HasStem(p, |stem|)
  {
    var p := stem + "." + word;
    var i := |stem|;
    assert p[..i] == stem && p[i..] == "." + word && p[i + 1..] == word;
    assert p == p[..i] + p[i..];
    var j :| 0 <= j < |stem| && stem[j] != '.';
    assert p[j] == stem[j];
  }

  lemma BasenameWithoutSlash(p: string)
    requires '/' !in p
    ensures Basename(p) == p
  {
    var r := Basename(p);
    assert forall k | 0 <= k < |p| :: p[k] != '/';
    assert |r| == |p|;
  }

  lemma LastDotAt(s: string, i: nat)
    requires i < |s| && s[i] == '.' && '.' !in s[i + 1..]
    ensures LastDot(s) == Some(i)
  {
    assert s[i] in s;
  }

  // ----------------------------------------------------------- file types

  const ImageExtensions: seq<string> := [".jpg", ".jpeg", ".png", ".gif"]
  const VideoExtensions: seq<string> := [".mp4", ".avi", ".mov"]
  const AudioExtensions: seq<string> := [".mp3", ".wav", ".ogg"]

  /** Cloudinary's `resource_type`: "image", "video" (audio too) or "raw". */
  datatype Resource = ImageResource | VideoResource | RawResource

  /** The resource type `_upload_to_cloudinary` asks for, by the lowercased extension. */
  function ResourceType(path: string): (r: Resource)
    ensures var e := LowerStr(Extension(path));
            && (r == ImageResource <==> e in ImageExtensions)
            && (r == VideoResource <==> e !in ImageExtensions && (e in VideoExtensions || e in AudioExtensions))
            && (r == RawResource <==> e !in ImageExtensions && e !in VideoExtensions && e !in AudioExtensions)
  {
    var e := LowerStr(Extension(path));
    if e in ImageExtensions then ImageResource
    else if e in VideoExtensions then VideoResource
    else if e in AudioExtensions then VideoResource
    else RawResource
  }

  /** The lists of `is_file_type_supported`; an unknown type has none. */
  function SupportedExtensions(fileType: string): seq<string> {
    if fileType == "image" then [".jpg", ".jpeg", ".png", ".gif"]
    else if fileType == "audio" then [".mp3", ".wav", ".ogg", ".m4a"]
    else if fileType == "document" then [".pdf", ".doc", ".docx", ".txt"]
    else if fileType == "video" then [".mp4", ".avi", ".mov"]
    else []
  }

  const KnownTypes: seq<string> := ["image", "audio", "document", "video"]

  /** is_file_type_supported: the lowercased extension is one of the type's. */
  function IsFileTypeSupported(path: string, fileType: string): (r: bool)
    ensures fileType !in KnownTypes ==> !r
    ensures r ==> LowerStr(Extension(path)) != [] && LowerStr(Extension(path))[0] == '.'
    ensures r <==> LowerStr(Extension(path)) in SupportedExtensions(fileType)
  {
    var exts := SupportedExtensions(fileType);
    assert forall x | x in exts :: x != [] && x[0] == '.';
    assert fileType !in KnownTypes ==> exts == [];
    LowerStr(Extension(path)) in exts
  }

  /** A file Cloudinary stores as an image is a supported image, and the other way round. */
  lemma ImagesAgree(path: string)
    ensures ResourceType(path) == ImageResource <==> IsFileTypeSupported(path, "image")
  {
  }

  /** ".m4a" is a supported audio extension, yet Cloudinary gets such a file as raw, not as video. */
  lemma M4aUploadedRaw(path: string)
    requires LowerStr(Extension(path)) == ".m4a"
    ensures IsFileTypeSupported(path, "audio")
    ensures ResourceType(path) == RawResource
  {
    M4aExtension(LowerStr(Extension(path)));
  }

  /** ".m4a" is in the audio list of is_file_type_supported and in none of the upload lists. */
  lemma M4aExtension(e: string)
    requires e == ".m4a"
    ensures e in SupportedExtensions("audio")
    ensures e !in ImageExtensions && e !in VideoExtensions && e !in AudioExtensions
  {
    assert e[2] == '4';
    assert forall x | x in ImageExtensions + VideoExtensions + AudioExtensions :: x[2] != '4';
    assert e == SupportedExtensions("audio")[3];
  }

  // ------------------------------------------------------------ public URL

  /** get_file_url, and the URL `_copy_to_static_files` returns for the copied file's name. */
  function GetFileUrl(baseUrl: string, filename: string): (r: string)
    ensures |r| == |baseUrl| + 14 + |filename|
    ensures r[..|baseUrl|] == baseUrl && r[|r| - |filename|..] == filename
  {
    baseUrl + "/static_files/" + filename
  }

  /** How the file reaches a public URL: through Cloudinary (its `secure_url`, or nothing on error) or by a local copy. */
  datatype Storage = Cloudinary(secureUrl: Option<string>) | StaticFiles(copied: bool)

  /**
   * upload_file_to_public_url: Cloudinary's URL when it is enabled;
   * otherwise the static-files URL of the path's basename when the copy
   * worked, and nothing when it failed.
   */
  function UploadFileToPublicUrl(storage: Storage, baseUrl: string, path: string): (r: Option<string>)
    ensures storage.Cloudinary? ==> r == storage.secureUrl
    ensures storage.StaticFiles? ==> (r.Some? <==> storage.copied)
    ensures storage.StaticFiles? && r.Some? ==> r.value == GetFileUrl(baseUrl, Basename(path))
  {
    match storage
    case Cloudinary(url) => url
    case StaticFiles(copied) => if copied then Some(GetFileUrl(baseUrl, Basename(path))) else None
  }

  /** `if not url`: no URL, or an empty one. */
  predicate NoUrl(url: Option<string>) {
    url.None? || url.value == []
  }

  // --------------------------------------------------------------- sending

  /** The UltraMsg calls a file manager makes. */
  datatype Call =
    | SendDocument(phone: string, url: string, filename: string, caption: string)
    | SendImage(phone: string, url: string, caption: string)
    | SendAudio(phone: string, url: string)
    | SendText(phone: string, body: string)

  const Page := "\U{1F4C4}"

  /** The animal's name, when the data is given and holds one. */
  function AnimalName(data: Option<Data>): Option<string> {
    if data.Some? && Filled(data.value, "nome_animal") then Some(data.value["nome_animal"]) else None
  }

  /** The PDF's filename: "cotacao_" and the animal's name with spaces as underscores, then ".pdf"; "cotacao_seguro.pdf" without a name. */
  function PdfFilename(data: Option<Data>): (r: string)
    ensures |r| >= 12 && r[..8] == "cotacao_" && r[|r| - 4..] == ".pdf"
    ensures ' ' !in r
    ensures AnimalName(data).None? ==> r == "cotacao_seguro.pdf"
    ensures AnimalName(data).Some? ==>
              var name := AnimalName(data).value;
              && |r| == |name| + 12
              && forall i | 0 <= i < |name| :: r[8 + i] == (if name[i] == ' ' then '_' else name[i])
  {
    match AnimalName(data)
    case None => "cotacao_seguro.pdf"
    case Some(name) =>
      ReplaceChar(name, ' ', '_');
      var under := Replace(name, " ", "_");
      var r := "cotacao_" + under + ".pdf";
      assert r[8..8 + |under|] == under;
      assert forall i | 0 <= i < |under| :: r[8 + i] == under[i];
      r
  }

  /** The title every PDF caption starts with. */
  const CaptionTitle := Page + " Cotação de Seguro"

  /**
   * The PDF's caption: the title, then " - " and the animal's name when
   * there is a name, then a closing line.
   */
  function PdfCaption(data: Option<Data>): (r: string)
    ensures |CaptionTitle| <= |r| && r[..|CaptionTitle|] == CaptionTitle
    ensures AnimalName(data).Some? ==>
              var name := AnimalName(data).value;
              |CaptionTitle| + 3 + |name| <= |r| && r[|CaptionTitle|..|CaptionTitle| + 3 + |name|] == " - " + name
    ensures AnimalName(data).None? ==> r[|CaptionTitle|..] == "\n\nAqui está sua cotação completa!"
  {
    var rest :=
      match AnimalName(data)
      case None => "\n\nAqui está sua cotação completa!"
      case Some(name) => " - " + name + "\n\nAqui está sua cotação completa com todos os detalhes!";
    var r := CaptionTitle + rest;
    assert r[..|CaptionTitle|] == CaptionTitle && r[|CaptionTitle|..] == rest;
    r
  }

  /** Names that differ only in spaces versus underscores share a filename. */
  lemma SpacesAndUnderscoresCollide(a: Data, b: Data)
    requires Filled(a, "nome_animal") && Filled(b, "nome_animal")
    requires |a["nome_animal"]| == |b["nome_animal"]|
    requires forall i | 0 <= i < |a["nome_animal"]| ::
               ((a["nome_animal"][i] == ' ' || a["nome_animal"][i] == '_') && (b["nome_animal"][i] == ' ' || b["nome_animal"][i] == '_'))
               || a["nome_animal"][i] == b["nome_animal"][i]
    ensures PdfFilename(Some(a)) == PdfFilename(Some(b))
  {
    var ra, rb := PdfFilename(Some(a)), PdfFilename(Some(b));
    assert ra[..8] == rb[..8] && ra[|ra| - 4..] == rb[|rb| - 4..];
    var na, nb := a["nome_animal"], b["nome_animal"];
    forall i | 0 <= i < |ra| ensures ra[i] == rb[i] {
      if i < 8 {
        assert ra[i] == ra[..8][i];
      } else if i >= |ra| - 4 {
        assert ra[i] == ra[|ra| - 4..][i - (|ra| - 4)];
        assert rb[i] == rb[|rb| - 4..][i - (|rb| - 4)];
      } else {
        var k := i - 8;
        assert ra[8 + k] == (if na[k] == ' ' then '_' else na[k]);
        assert rb[8 + k] == (if nb[k] == ' ' then '_' else nb[k]);
      }
    }
  }

  const FollowUp :=
    "\U{2705} **Cotação enviada com sucesso!**\n\n"
    + "\U{1F4CB} **O que você encontrará no documento:**\n"
    + "\U{2022} Detalhes completos da cobertura\n"
    + "\U{2022} Valor do prêmio anual\n"
    + "\U{2022} Condições gerais do seguro\n"
    + "\U{2022} Instruções para contratação\n"
    + "\U{2022} Dados de contato para dúvidas\n\n"
    + "\U{1F4AC} **Próximos passos:**\n"
    + "Se desejar contratar o seguro ou tiver alguma dúvida, nosso agente entrará em contato em breve.\n\n"
    + "\U{1F64F} **Obrigado por escolher a Equinos Seguros!**"

  /**
   * send_pdf_to_whatsapp: with no public URL, nothing is sent and the answer
   * is False; otherwise the PDF goes as a document with the derived name and
   * caption, and only when that send succeeds the follow-up text goes too
   * and the answer is True. `delivered` is the document send's success.
   */
  function SendPdfToWhatsapp(storage: Storage, baseUrl: string, phone: string, path: string, data: Option<Data>, delivered: bool)
    : (r: (bool, seq<Call>))
    ensures var url := UploadFileToPublicUrl(storage, baseUrl, path);
            && (NoUrl(url) ==> r == (false, []))
            && (!NoUrl(url) ==> r.0 == delivered && |r.1| == (if delivered then 2 else 1)
                                && r.1[0] == SendDocument(phone, url.value, PdfFilename(data), PdfCaption(data))
                                && (delivered ==> r.1[1] == SendText(phone, FollowUp)))
  {
    var url := UploadFileToPublicUrl(storage, baseUrl, path);
    if NoUrl(url) then (false, [])
    else
      var document := SendDocument(phone, url.value, PdfFilename(data), PdfCaption(data));
      if delivered then (true, [document, SendText(phone, FollowUp)]) else (false, [document])
  }

  /** send_image_to_whatsapp: no URL, no send; otherwise one image send, and its success is the answer. */
  function SendImageToWhatsapp(storage: Storage, baseUrl: string, phone: string, path: string, caption: string, delivered: bool)
    : (r: (bool, seq<Call>))
    ensures var url := UploadFileToPublicUrl(storage, baseUrl, path);
            && (NoUrl(url) ==> r == (false, []))
            && (!NoUrl(url) ==> r == (delivered, [SendImage(phone, url.value, caption)]))
  {
    var url := UploadFileToPublicUrl(storage, baseUrl, path);
    if NoUrl(url) then (false, []) else (delivered, [SendImage(phone, url.value, caption)])
  }

  /** send_audio_to_whatsapp: no URL, no send; otherwise one audio send, and its success is the answer. */
  function SendAudioToWhatsapp(storage: Storage, baseUrl: string, phone: string, path: string, delivered: bool)
    : (r: (bool, seq<Call>))
    ensures var url := UploadFileToPublicUrl(storage, baseUrl, path);
            && (NoUrl(url) ==> r == (false, []))
            && (!NoUrl(url) ==> r == (delivered, [SendAudio(phone, url.value)]))
  {
    var url := UploadFileToPublicUrl(storage, baseUrl, path);
    if NoUrl(url) then (false, []) else (delivered, [SendAudio(phone, url.value)])
  }

  /**
   * send_document_to_whatsapp (whatsapp_file_manager.py only): no URL, no
   * send; otherwise one document send named by the given filename, or by
   * the path's basename when none (or an empty one) is given.
   */
  function SendDocumentToWhatsapp(storage: Storage, baseUrl: string, phone: string, path: string,
                                  filename: Option<string>, caption: string, delivered: bool)
    : (r: (bool, seq<Call>))
    ensures var url := UploadFileToPublicUrl(storage, baseUrl, path);
            && (NoUrl(url) ==> r == (false, []))
            && (!NoUrl(url) ==> r.0 == delivered && |r.1| == 1 && r.1[0].SendDocument?
                                && r.1[0].url == url.value && r.1[0].caption == caption
                                && r.1[0].filename == (if NoUrl(filename) then Basename(path) else filename.value))
  {
    var url := UploadFileToPublicUrl(storage, baseUrl, path);
    if NoUrl(url) then (false, [])
    else
      var name := if NoUrl(filename) then Basename(path) else filename.value;
      (delivered, [SendDocument(phone, url.value, name, caption)])
  }

  /** Whatever is sent, a file without a public URL is never sent and never reported as sent. */
  lemma NoUrlNoSend(storage: Storage, baseUrl: string, phone: string, path: string, data: Option<Data>, caption: string, delivered: bool)
    requires NoUrl(UploadFileToPublicUrl(storage, baseUrl, path))
    ensures SendPdfToWhatsapp(storage, baseUrl, phone, path, data, delivered) == (false, [])
    ensures SendImageToWhatsapp(storage, baseUrl, phone, path, caption, delivered) == (false, [])
    ensures SendAudioToWhatsapp(storage, baseUrl, phone, path, delivered) == (false, [])
    ensures SendDocumentToWhatsapp(storage, baseUrl, phone, path, None, caption, delivered) == (false, [])
  {
  }

  // --------------------------------------------------------------- cleanup

  /**
   * One directory entry: its name, whether it is a regular file, its
   * modification time in seconds, whether `os.path.getmtime` raises on it,
   * and whether `os.unlink` would raise on it.
   */
  datatype Entry = Entry(name: string, isFile: bool, modified: int, statFails: bool, unlinkFails: bool)

  predicate Old(e: Entry, now: int, maxAgeHours: int) {
    e.isFile && now - e.modified > maxAgeHours * 3600
  }

  /** The entry whose getmtime or unlink raises, leaving the loop for the single `except`. */
  predicate Stops(e: Entry, now: int, maxAgeHours: int) {
    e.isFile && (e.statFails || (now - e.modified > maxAgeHours * 3600 && e.unlinkFails))
  }

  /** The position of the first entry that stops the loop, or the listing's length when none does. */
  function FirstStop(entries: seq<Entry>, now: int, maxAgeHours: int): (k: nat)
    ensures k <= |entries|
    ensures forall j | 0 <= j < k :: !Stops(entries[j], now, maxAgeHours)
    ensures k < |entries| ==> Stops(entries[k], now, maxAgeHours)
  {
    if entries == [] then 0
    else if Stops(entries[0], now, maxAgeHours) then 0
    else
      var k := FirstStop(entries[1..], now, maxAgeHours);
      assert forall j | 1 <= j < k + 1 :: entries[j] == entries[1..][j - 1];
      1 + k
  }

  /** Which entries are regular files older than the limit. */
  function OldFlags(entries: seq<Entry>, now: int, maxAgeHours: int): (r: seq<bool>)
    ensures |r| == |entries| && forall i | 0 <= i < |entries| :: r[i] == Old(entries[i], now, maxAgeHours)
  {
    seq(|entries|, i requires 0 <= i < |entries| => Old(entries[i], now, maxAgeHours))
  }

  /**
   * cleanup_old_files: the names removed. One `try` surrounds the whole
   * listing loop, so the first getmtime or unlink that raises ends every
   * later removal. The removed names are the old regular files before that
   * entry, in listing order: the a-th removed name is that of the a-th old
   * file there. A missing or unlistable directory is an empty listing.
   */
  function CleanupOldFiles(entries: seq<Entry>, now: int, maxAgeHours: int): (removed: seq<string>)
    ensures var k := FirstStop(entries, now, maxAgeHours);
            |removed| == |SetFrom(OldFlags(entries[..k], now, maxAgeHours), 0)|
    ensures var k := FirstStop(entries, now, maxAgeHours);
            forall a | 0 <= a < |removed| ::
              removed[a] == entries[SetFrom(OldFlags(entries[..k], now, maxAgeHours), 0)[a]].name
    ensures var k := FirstStop(entries, now, maxAgeHours);
            forall n :: n in removed <==> exists i | 0 <= i < k :: Old(entries[i], now, maxAgeHours) && entries[i].name == n
  {
    var k := FirstStop(entries, now, maxAgeHours);
    var pre := entries[..k];
    var names := seq(|pre|, i requires 0 <= i < |pre| => pre[i].name);
    PickFromMembers(names, OldFlags(pre, now, maxAgeHours));
    PickFrom(names, OldFlags(pre, now, maxAgeHours), 0)
  }

  /** When no getmtime or unlink raises, every old regular file is removed, and nothing else. */
  lemma CleanupWithoutFailures(entries: seq<Entry>, now: int, maxAgeHours: int)
    requires forall i | 0 <= i < |entries| :: !entries[i].statFails && !entries[i].unlinkFails
    ensures var removed := CleanupOldFiles(entries, now, maxAgeHours);
            forall n :: n in removed <==> exists i | 0 <= i < |entries| :: Old(entries[i], now, maxAgeHours) && entries[i].name == n
  {
    var k := FirstStop(entries, now, maxAgeHours);
    assert k == |entries|;
    assert entries[..k] == entries;
  }

  /** A failing old file ends the cleanup: no entry after it is removed. */
  lemma FailureStopsCleanup(entries: seq<Entry>, now: int, maxAgeHours: int, f: nat)
    requires f < |entries| && Old(entries[f], now, maxAgeHours) && entries[f].unlinkFails
    ensures forall n | n in CleanupOldFiles(entries, now, maxAgeHours) ::
              exists i | 0 <= i < f :: Old(entries[i], now, maxAgeHours) && entries[i].name == n
  {
    assert Stops(entries[f], now, maxAgeHours);
  }
}

=== FILE: handoff_handler.dfy ===
/*
 * app/bot/handler.py: the keyword test for a request to talk to a person,
 * and the two short-circuit branches of get_bot_response that answer
 * without the language model. The model's answer is a parameter.
 */
module HandoffHandler {
  import opened Text

  /** HANDOFF_KEYWORDS, in the order they are tried. */
  const Keywords: seq<string> := [
    "falar com atendente", "falar com humano", "atendente", "humano", "suporte", "ajuda humana"
  ]

  /** The keywords no other keyword is contained in; the first two contain "atendente" and "humano". */
  const CoreKeywords: seq<string> := ["atendente", "humano", "suporte", "ajuda humana"]

  /** The message asks for a person: some keyword occurs in its lowercased text. */
  predicate IsHandoff(message: string) {
    ContainsAny(LowerStr(message), Keywords)
  }

  /** check_for_handoff_request: try each keyword in turn, stop at the first one found. */
  method CheckForHandoffRequest(message: string) returns (found: bool)
    ensures found <==> IsHandoff(message)
  {
    var lowered := LowerStr(message);
    var i := 0;
    while i < |Keywords|
      invariant 0 <= i <= |Keywords|
      invariant forall j | 0 <= j < i :: !Contains(lowered, Keywords[j])
    {
      if Contains(lowered, Keywords[i]) {
        return true;
      }
      i := i + 1;
    }
    return false;
  }

  /** An occurrence in a suffix is an occurrence in the whole. */
  lemma {:induction false} ContainsInSuffix(s: string, k: nat, sub: string)
    requires k <= |s| && Contains(s[k..], sub)
    ensures Contains(s, sub)
    decreases k
  {
    if k > 0 {
      assert s[1..][k - 1..] == s[k..];
      ContainsInSuffix(s[1..], k - 1, sub);
    }
  }

  /** Whatever contains `a + b` contains `b`. */
  lemma {:induction false} ContainsTail(s: string, a: string, b: string)
    requires Contains(s, a + b)
    ensures Contains(s, b)
    decreases |s|
  {
    if StartsWith(s, a + b) {
      assert s[|a|..][..|b|] == (a + b)[|a|..];
      assert (a + b)[|a|..] == b;
      assert StartsWith(s[|a|..], b);
      ContainsInSuffix(s, |a|, b);
    } else {
      ContainsTail(s[1..], a, b);
    }
  }

  /** The two long keywords add nothing: the test gives the same answer over the four core keywords. */
  lemma CoreKeywordsSuffice(message: string)
    ensures IsHandoff(message) <==> ContainsAny(LowerStr(message), CoreKeywords)
  {
    var s := LowerStr(message);
    if IsHandoff(message) {
      var i :| 0 <= i < |Keywords| && Contains(s, Keywords[i]);
      if i == 0 {
        assert Keywords[0] == "falar com " + "atendente";
        ContainsTail(s, "falar com ", "atendente");
        assert Contains(s, CoreKeywords[0]);
      } else if i == 1 {
        assert Keywords[1] == "falar com " + "humano";
        ContainsTail(s, "falar com ", "humano");
        assert Contains(s, CoreKeywords[1]);
      } else {
        assert Keywords[i] == CoreKeywords[i - 2];
      }
    }
    if ContainsAny(s, CoreKeywords) {
      var i :| 0 <= i < |CoreKeywords| && Contains(s, CoreKeywords[i]);
      assert CoreKeywords[i] == Keywords[i + 2];
    }
  }

  /** What the language model call gave: its reply text, or an exception. */
  datatype ModelReply = Replied(text: string) | Failed

  const NotConfigured := "Desculpe, o serviço de inteligência artificial não está configurado no momento."
  const Transfer := "Ok, vou te transferir para um de nossos atendentes."
  const Trouble := "Desculpe, estou com dificuldades para processar sua solicitação no momento. Tente novamente em alguns instantes."

  /**
   * get_bot_response: without an API key, a fixed apology (checked before the
   * keywords); a hand-off request gets the transfer text and the flag, and
   * the model is not consulted; otherwise the model's reply, or an apology
   * when the call raised, never with the flag.
   */
  method GetBotResponse(hasApiKey: bool, model: ModelReply, message: string) returns (reply: string, handoff: bool)
    ensures handoff <==> hasApiKey && IsHandoff(message)
    ensures !hasApiKey ==> reply == NotConfigured
    ensures handoff ==> reply == Transfer
    ensures hasApiKey && !handoff ==> reply == (if model.Replied? then model.text else Trouble)
  {
    if !hasApiKey {
      return NotConfigured, false;
    }
    var isHandoff := CheckForHandoffRequest(message);
    if isHandoff {
      return Transfer, true;
    }
    match model
    case Replied(text) => return text, false;
    case Failed => return Trouble, false;
  }

  /** A message whose lowercased text holds "atendente" anywhere is a hand-off request. */
  lemma AttendantAnywhere(message: string, k: nat)
    requires k + 9 <= |LowerStr(message)| && LowerStr(message)[k..k + 9] == "atendente"
    ensures IsHandoff(message)
  {
    var s := LowerStr(message);
    assert s[k..][..9] == "atendente";
    assert Contains(s[k..], "atendente");
    ContainsInSuffix(s, k, "atendente");
    assert Contains(s, Keywords[2]);
  }
}

=== FILE: main_bot.dfy ===
/*
 * The stand-alone bot of main.py: the accent clean-up applied to every
 * outgoing text, the fill-only-empty extraction of seven horse fields, and
 * the reply chosen for each incoming message from the per-phone store.
 *
 * Patterns are abstract; the store is passed in and returned.
 */
module MainBot {
  import opened Wrappers
  import opened Text
  import opened Fields
  import opened Patterns
  import opened Collect

  // ------------------------------------------------------- accent clean-up

  /** `replacements`, in dict order: each accented letter and its plain counterpart. */
  const Replacements: seq<(char, char)> := [
    ('ç', 'c'), ('Ç', 'C'), ('ã', 'a'), ('Ã', 'A'), ('á', 'a'), ('Á', 'A'),
    ('à', 'a'), ('À', 'A'), ('â', 'a'), ('Â', 'A'), ('é', 'e'), ('É', 'E'),
    ('ê', 'e'), ('Ê', 'E'), ('í', 'i'), ('Í', 'I'), ('ó', 'o'), ('Ó', 'O'),
    ('ô', 'o'), ('Ô', 'O'), ('õ', 'o'), ('Õ', 'O'), ('ú', 'u'), ('Ú', 'U'),
    ('ü', 'u'), ('Ü', 'U')
  ]

  /** The replacement loop: `text = text.replace(char, replacement)` for each pair in turn. */
  function ReplaceEach(pairs: seq<(char, char)>, s: string): string
    decreases |pairs|
  {
    if pairs == [] then s else ReplaceEach(pairs[1..], Replace(s, [pairs[0].0], [pairs[0].1]))
  }

  /** The table read one character at a time: the counterpart of the first pair for `c`, or `c` itself. */
  function Counterpart(pairs: seq<(char, char)>, c: char): char
    decreases |pairs|
  {
    if pairs == [] then c else if pairs[0].0 == c then pairs[0].1 else Counterpart(pairs[1..], c)
  }

  predicate Source(pairs: seq<(char, char)>, c: char) {
    exists i | 0 <= i < |pairs| :: pairs[i].0 == c
  }

  /** No replacement produces a character that a pair replaces. */
  predicate Settled(pairs: seq<(char, char)>) {
    forall i | 0 <= i < |pairs| :: !Source(pairs, pairs[i].1)
  }

  lemma {:induction false} CounterpartOfOther(pairs: seq<(char, char)>, c: char)
    requires !Source(pairs, c)
    ensures Counterpart(pairs, c) == c
    decreases |pairs|
  {
    if pairs != [] {
      assert forall i | 0 <= i < |pairs| - 1 :: pairs[1..][i] == pairs[i + 1];
      CounterpartOfOther(pairs[1..], c);
    }
  }

  lemma {:induction false} CounterpartIsTarget(pairs: seq<(char, char)>, c: char)
    ensures Source(pairs, c) ==> exists i | 0 <= i < |pairs| :: Counterpart(pairs, c) == pairs[i].1
    decreases |pairs|
  {
    if pairs != [] && pairs[0].0 != c && Source(pairs, c) {
      var i :| 0 <= i < |pairs| && pairs[i].0 == c;
      assert pairs[1..][i - 1] == pairs[i];
      CounterpartIsTarget(pairs[1..], c);
      var j :| 0 <= j < |pairs| - 1 && Counterpart(pairs[1..], c) == pairs[1..][j].1;
      assert pairs[j + 1] == pairs[1..][j];
    }
  }

  /**
   * For a settled table, replacing pair by pair is the same as mapping every
   * character through the table once: a produced letter is never replaced again.
   */
  lemma {:induction false} ReplaceEachMaps(pairs: seq<(char, char)>, s: string)
    requires Settled(pairs)
    ensures |ReplaceEach(pairs, s)| == |s|
    ensures forall k | 0 <= k < |s| :: ReplaceEach(pairs, s)[k] == Counterpart(pairs, s[k])
    decreases |pairs|
  {
    if pairs != [] {
      var (a, b) := pairs[0];
      var t := Replace(s, [a], [b]);
      ReplaceChar(s, a, b);
      var tail := pairs[1..];
      assert forall i | 0 <= i < |tail| :: tail[i] == pairs[i + 1];
      assert Settled(tail) by {
        forall i | 0 <= i < |tail| ensures !Source(tail, tail[i].1) {
          assert !Source(pairs, pairs[i + 1].1);
        }
      }
      ReplaceEachMaps(tail, t);
      forall k | 0 <= k < |s| ensures ReplaceEach(pairs, s)[k] == Counterpart(pairs, s[k]) {
        if s[k] == a {
          assert !Source(pairs, pairs[0].1);
          assert !Source(tail, b);
          CounterpartOfOther(tail, b);
        }
      }
    }
  }

  /** Every letter the table produces is plain ASCII, and every letter it replaces is not. */
  lemma ReplacementsSettled()
    ensures Settled(Replacements)
  {
    assert forall i | 0 <= i < |Replacements| :: Replacements[i].0 as int >= 128 && Replacements[i].1 as int < 128;
  }

  /**
   * clean_text_for_whatsapp: every listed accented letter becomes its plain
   * counterpart, every other character stays, the length is kept, and no
   * listed letter is left.
   */
  function CleanText(s: string): (r: string)
    ensures |r| == |s|
    ensures forall k | 0 <= k < |s| :: Source(Replacements, s[k]) ==> r[k] == Counterpart(Replacements, s[k])
    ensures forall k | 0 <= k < |s| :: !Source(Replacements, s[k]) ==> r[k] == s[k]
    ensures forall k | 0 <= k < |r| :: !Source(Replacements, r[k])
  {
    ReplacementsSettled();
    ReplaceEachMaps(Replacements, s);
    var r := ReplaceEach(Replacements, s);
    forall k | 0 <= k < |s| ensures !Source(Replacements, s[k]) ==> r[k] == s[k] {
      if !Source(Replacements, s[k]) {
        CounterpartOfOther(Replacements, s[k]);
      }
    }
    forall k | 0 <= k < |r| ensures !Source(Replacements, r[k]) {
      if Source(Replacements, s[k]) {
        CounterpartIsTarget(Replacements, s[k]);
      }
    }
    r
  }

  /** Cleaning an already cleaned text changes nothing. */
  lemma CleanTextIdempotent(s: string)
    ensures CleanText(CleanText(s)) == CleanText(s)
  {
    var once := CleanText(s);
    var twice := CleanText(once);
    assert forall k | 0 <= k < |once| :: twice[k] == once[k];
  }

  /** A text with no listed letter is sent as it is. */
  lemma CleanTextOfPlain(s: string)
    requires forall k | 0 <= k < |s| :: !Source(Replacements, s[k])
    ensures CleanText(s) == s
  {
  }

  // ------------------------------------------------------------ extraction

  /** The pattern lists of extract_animal_data_simple, one per field; a hit is already the stripped group. */
  datatype SimplePatterns = SimplePatterns(
    nome: seq<Matcher>, valor: seq<Matcher>, raca: seq<Matcher>, sexo: seq<Matcher>,
    utilizacao: seq<Matcher>, registro: seq<Matcher>, nascimento: seq<Matcher>)

  /** The fields of the `patterns` dict, in dict order. */
  const ExtractedKeys: seq<string> := ["nome_animal", "valor_animal", "raca", "sexo", "utilizacao", "registro", "data_nascimento"]

  lemma ExtractedKeysDistinct()
    ensures forall i, j | 0 <= i < j < |ExtractedKeys| :: ExtractedKeys[i] != ExtractedKeys[j]
  {
    assert |ExtractedKeys[0]| == 11 && |ExtractedKeys[1]| == 12 && |ExtractedKeys[2]| == 4 && |ExtractedKeys[3]| == 4;
    assert |ExtractedKeys[4]| == 10 && |ExtractedKeys[5]| == 8 && |ExtractedKeys[6]| == 15;
    assert ExtractedKeys[2][0] != ExtractedKeys[3][0];
  }

  function PatternsAt(p: SimplePatterns, i: nat): seq<Matcher>
    requires i < |ExtractedKeys|
  {
    if i == 0 then p.nome else if i == 1 then p.valor else if i == 2 then p.raca
    else if i == 3 then p.sexo else if i == 4 then p.utilizacao else if i == 5 then p.registro
    else p.nascimento
  }

  function SimpleRules(p: SimplePatterns): (r: seq<Rule>)
    ensures |r| == |ExtractedKeys|
    ensures forall i | 0 <= i < |ExtractedKeys| :: r[i] == Rule(ExtractedKeys[i], PatternsAt(p, i), false, Keep)
    ensures DistinctRules(r)
  {
    ExtractedKeysDistinct();
    seq(|ExtractedKeys|, i requires 0 <= i < |ExtractedKeys| => Rule(ExtractedKeys[i], PatternsAt(p, i), false, Keep))
  }

  /**
   * extract_animal_data_simple: a truthy field is kept; an empty one takes
   * the first hit of its patterns on the lower-cased message, if any; keys
   * without patterns are untouched.
   */
  function ExtractSimple(p: SimplePatterns, d: Data, message: string): (r: Data)
    ensures forall k | Filled(d, k) :: Find(r, k) == Find(d, k)
    ensures forall i | 0 <= i < |ExtractedKeys| ::
              var hit := FirstMatch(PatternsAt(p, i), LowerStr(message));
              !Filled(d, ExtractedKeys[i]) ==> Find(r, ExtractedKeys[i]) == if hit.Some? then hit else Find(d, ExtractedKeys[i])
    ensures forall k | k !in ExtractedKeys :: Find(r, k) == Find(d, k)
  {
    var rules := SimpleRules(p);
    var r := ApplyRules(rules, d, LowerStr(message), message).data;
    forall i | 0 <= i < |ExtractedKeys| ensures FirstAccepted(PatternsAt(p, i), LowerStr(message), Keep) == FirstMatch(PatternsAt(p, i), LowerStr(message)) {
      FirstAcceptedKeep(PatternsAt(p, i), LowerStr(message));
    }
    forall k | Filled(d, k) ensures Find(r, k) == Find(d, k) {
      ApplyKeepsFilled(rules, d, LowerStr(message), message, k);
    }
    r
  }

  /** Extracting again from the same message changes nothing. */
  lemma ExtractSimpleIdempotent(p: SimplePatterns, d: Data, message: string)
    ensures ExtractSimple(p, ExtractSimple(p, d, message), message) == ExtractSimple(p, d, message)
  {
    ApplyIdempotent(SimpleRules(p), d, LowerStr(message), message);
  }

  // --------------------------------------------------------------- replies

  /** REQUIRED_FIELDS of main.py, in dict order: key and display name. */
  const Schema: Fields.Schema := [
    Field("nome_animal", "Nome do Animal"),
    Field("valor_animal", "Valor do Animal (R$)"),
    Field("registro", "Numero de Registro ou Passaporte"),
    Field("raca", "Raca"),
    Field("data_nascimento", "Data de Nascimento"),
    Field("sexo", "Sexo (inteiro, castrado ou femea)"),
    Field("utilizacao", "Utilizacao (lazer, salto, laco, etc.)"),
    Field("endereco_cocheira", "Endereco da Cocheira (CEP e cidade)")
  ]

  /** One phone's entry of `client_data`. */
  datatype Client = Client(data: Data, count: nat)

  /**
   * The reply: the greeting on the first message, the collected lines once
   * nothing is missing, else the collected lines and the missing names.
   */
  datatype Reply = Greeting | AllCollected(lines: seq<(string, string)>) | StillMissing(collected: seq<(string, string)>, missing: seq<string>)

  /**
   * generate_response_message: the phone's counter goes up by one and its
   * data is extracted afresh; the reply depends on the new counter and on
   * the fields still missing.
   */
  function GenerateResponse(p: SimplePatterns, clients: map<string, Client>, phone: string, message: string): (r: (map<string, Client>, Reply))
    ensures phone in r.0
    ensures r.0[phone].count == (if phone in clients then clients[phone].count else 0) + 1
    ensures r.0[phone].data == ExtractSimple(p, if phone in clients then clients[phone].data else map[], message)
    ensures forall q | q != phone :: (q in r.0 <==> q in clients) && (q in clients ==> r.0[q] == clients[q])
    ensures r.1.Greeting? <==> r.0[phone].count == 1
    ensures r.1.AllCollected? <==> r.0[phone].count != 1 && AllFilled(Schema, r.0[phone].data)
    ensures r.1.AllCollected? ==> r.1.lines == CollectedLines(Schema, r.0[phone].data)
    ensures r.1.StillMissing? ==>
              && r.1.collected == CollectedLines(Schema, r.0[phone].data)
              && r.1.missing == MissingNames(Schema, r.0[phone].data) != []
  {
    var client := if phone in clients then clients[phone] else Client(map[], 0);
    var count := client.count + 1;
    var updated := ExtractSimple(p, client.data, message);
    var collected := CollectedLines(Schema, updated);
    var missing := MissingNames(Schema, updated);
    var reply :=
      if count == 1 then Greeting
      else if |missing| == 0 then AllCollected(collected)
      else StillMissing(collected, missing);
    (clients[phone := Client(updated, count)], reply)
  }

  /** Each required field is listed once, as collected or as missing. */
  lemma ReplyPartition(p: SimplePatterns, clients: map<string, Client>, phone: string, message: string)
    ensures var (after, reply) := GenerateResponse(p, clients, phone, message);
            reply.StillMissing? ==> |reply.collected| + |reply.missing| == |Schema|
  {
    var (after, reply) := GenerateResponse(p, clients, phone, message);
    CollectedMissingPartition(Schema, after[phone].data);
  }

  /**
   * No pattern writes the stable address, so a client whose address is still
   * empty keeps it empty and is never told that everything was collected.
   */
  lemma AddressNeverCollected(p: SimplePatterns, clients: map<string, Client>, phone: string, message: string)
    requires phone in clients ==> !Filled(clients[phone].data, "endereco_cocheira")
    ensures var (after, reply) := GenerateResponse(p, clients, phone, message);
            !Filled(after[phone].data, "endereco_cocheira") && !reply.AllCollected?
  {
    var (after, reply) := GenerateResponse(p, clients, phone, message);
    var k := "endereco_cocheira";
    assert k !in ExtractedKeys by {
      assert forall i | 0 <= i < |ExtractedKeys| :: |ExtractedKeys[i]| != |k|;
    }
    assert Schema[7].key == k;
  }
}

=== FILE: memory_database.dfy ===
/*
 * The in-memory storage of app/db/database.py, used when no MongoDB URI is
 * configured: conversations, messages and animal data in three dicts.
 *
 * Conversations and messages are only ever added, each under the key
 * `str(len(dict))`, so their keys are "0", "1", ... in insertion order. The
 * model keeps them as sequences and uses the position as the id; an id
 * string that names no position (including one that is not a number) is an
 * id past the end here. The clock is a parameter.
 */
module MemoryDatabase {
  import opened Wrappers
  import opened Fields

  type ConversationId = nat

  /** A conversation record: `phone_number`, `status`, `created_at`, `updated_at`. */
  datatype Conversation = Conversation(phone: string, status: string, createdAt: int, updatedAt: int)

  /** A message record (the free-form `metadata` dict is not modelled). */
  datatype Message = Message(conversation: ConversationId, phone: string, sender: string, text: string, kind: string, timestamp: int)

  /** A saved animal-data record: the data and the instant it was saved. */
  datatype AnimalRecord = AnimalRecord(data: Data, timestamp: int)

  datatype Store = Store(conversations: seq<Conversation>, messages: seq<Message>, animals: map<ConversationId, AnimalRecord>)

  /** `_use_memory_storage`: three empty dicts. */
  const Empty := Store([], [], map[])

  const BotActive := "bot_active"
  const ActiveStatuses: seq<string> := ["bot_active", "awaiting_agent", "agent_active"]

  /** Every message belongs to a stored conversation. */
  predicate Valid(st: Store) {
    forall i | 0 <= i < |st.messages| :: st.messages[i].conversation < |st.conversations|
  }

  // -------------------------------------------------------- conversations

  /** The first stored conversation for the phone, in insertion order. */
  function FindConversation(convs: seq<Conversation>, phone: string): (r: Option<ConversationId>)
    ensures r.Some? ==> r.value < |convs| && convs[r.value].phone == phone
                        && forall j | 0 <= j < r.value :: convs[j].phone != phone
    ensures r.None? <==> forall j | 0 <= j < |convs| :: convs[j].phone != phone
  {
    if convs == [] then None
    else if convs[0].phone == phone then Some(0)
    else match FindConversation(convs[1..], phone)
      case None => None
      case Some(i) => Some(i + 1)
  }

  /**
   * `_get_or_create_conversation` in memory: the phone's conversation,
   * whatever its status; otherwise a new one with status 'bot_active' under
   * the next id.
   */
  function GetOrCreateConversation(st: Store, phone: string, now: int): (r: (Store, ConversationId))
    ensures r.1 < |r.0.conversations| && r.0.conversations[r.1].phone == phone
    ensures r.0.messages == st.messages && r.0.animals == st.animals
    ensures FindConversation(st.conversations, phone).Some? ==>
              r.0 == st && r.1 == FindConversation(st.conversations, phone).value
    ensures FindConversation(st.conversations, phone).None? ==>
              && r.1 == |st.conversations|
              && r.0.conversations == st.conversations + [Conversation(phone, BotActive, now, now)]
  {
    match FindConversation(st.conversations, phone)
    case Some(id) => (st, id)
    case None => (st.(conversations := st.conversations + [Conversation(phone, BotActive, now, now)]), |st.conversations|)
  }

  /** The same phone always gets the same conversation id, at any later instant. */
  lemma SamePhoneSameConversation(st: Store, phone: string, t1: int, t2: int)
    ensures var (st1, id1) := GetOrCreateConversation(st, phone, t1);
            GetOrCreateConversation(st1, phone, t2) == (st1, id1)
  {
    var (st1, id1) := GetOrCreateConversation(st, phone, t1);
    assert FindConversation(st1.conversations, phone).Some?;
    if FindConversation(st.conversations, phone).None? {
      assert FindConversation(st1.conversations, phone).value == id1;
    }
  }

  /** get_conversation_status: the stored status, or 'bot_active' for an unknown id. */
  function GetConversationStatus(st: Store, id: ConversationId): (r: string)
    ensures id >= |st.conversations| ==> r == BotActive
    ensures id < |st.conversations| ==> r == st.conversations[id].status
  {
    if id < |st.conversations| then st.conversations[id].status else BotActive
  }

  /** set_conversation_status: a known conversation takes the status and the instant; an unknown id changes nothing. */
  function SetConversationStatus(st: Store, id: ConversationId, status: string, now: int): (r: Store)
    ensures id >= |st.conversations| ==> r == st
    ensures |r.conversations| == |st.conversations| && r.messages == st.messages && r.animals == st.animals
    ensures forall j | 0 <= j < |st.conversations| && j != id :: r.conversations[j] == st.conversations[j]
    ensures id < |st.conversations| ==>
              r.conversations[id] == st.conversations[id].(status := status, updatedAt := now)
  {
    if id < |st.conversations| then
      st.(conversations := st.conversations[id := st.conversations[id].(status := status, updatedAt := now)])
    else st
  }

  /** Setting a status and reading it back gives that status for a known id and 'bot_active' otherwise. */
  lemma SetThenGetStatus(st: Store, id: ConversationId, status: string, now: int)
    ensures GetConversationStatus(SetConversationStatus(st, id, status, now), id)
            == (if id < |st.conversations| then status else BotActive)
  {
  }

  // -------------------------------------------------------------- messages

  /**
   * save_message in memory: the phone's conversation is found or created,
   * the message is stored under the next message id, and the conversation
   * id is returned.
   */
  function SaveMessage(st: Store, phone: string, sender: string, text: string, kind: string, now: int): (r: (Store, ConversationId))
    ensures var (st1, id) := GetOrCreateConversation(st, phone, now);
            && r.1 == id
            && r.0.conversations == st1.conversations
            && r.0.messages == st.messages + [Message(id, phone, sender, text, kind, now)]
            && r.0.animals == st.animals
    ensures Valid(st) ==> Valid(r.0)
  {
    var (st1, id) := GetOrCreateConversation(st, phone, now);
    (st1.(messages := st1.messages + [Message(id, phone, sender, text, kind, now)]), id)
  }

  /** The messages of one conversation, in the order saved. */
  function MessagesOf(msgs: seq<Message>, id: ConversationId): (r: seq<Message>)
    ensures |r| <= |msgs|
    ensures forall m :: m in r <==> m in msgs && m.conversation == id
    ensures multiset(r) <= multiset(msgs)
  {
    if msgs == [] then []
    else
      var last := msgs[|msgs| - 1];
      var init := MessagesOf(msgs[..|msgs| - 1], id);
      assert msgs == msgs[..|msgs| - 1] + [last];
      if last.conversation == id then init + [last] else init
  }

  /** Saving a message adds exactly that message to its conversation and none to any other. */
  lemma MessagesOfAppend(msgs: seq<Message>, m: Message, id: ConversationId)
    ensures MessagesOf(msgs + [m], id) == MessagesOf(msgs, id) + (if m.conversation == id then [m] else [])
  {
    assert (msgs + [m])[..|msgs|] == msgs;
  }

  /** Python's `s[:limit]`: a negative limit counts from the end. */
  function Prefix<T>(s: seq<T>, limit: int): (r: seq<T>)
    ensures limit >= 0 ==> |r| == if limit < |s| then limit else |s|
    ensures limit < 0 ==> |r| == if |s| + limit > 0 then |s| + limit else 0
    ensures r == s[..|r|]
  {
    if limit >= |s| then s
    else if limit >= 0 then s[..limit]
    else if |s| + limit > 0 then s[..|s| + limit]
    else []
  }

  /**
   * Place `x` into a list sorted by descending key, after every element
   * whose key is at least as large: the step of a stable sort with
   * `reverse=True`.
   */
  function InsertDesc<T>(sorted: seq<T>, x: T, key: T -> int): (r: seq<T>)
    ensures multiset(r) == multiset(sorted) + multiset{x}
    ensures |r| == |sorted| + 1
    ensures forall y | y in r :: y in sorted || y == x
  {
    if sorted == [] then [x]
    else if key(sorted[0]) >= key(x) then
      var rest := InsertDesc(sorted[1..], x, key);
      assert sorted == [sorted[0]] + sorted[1..];
      [sorted[0]] + rest
    else [x] + sorted
  }

  predicate SortedDesc<T>(s: seq<T>, key: T -> int) {
    forall i, j | 0 <= i < j < |s| :: key(s[i]) >= key(s[j])
  }

  lemma {:induction false} InsertDescSorted<T>(sorted: seq<T>, x: T, key: T -> int)
    requires SortedDesc(sorted, key)
    ensures SortedDesc(InsertDesc(sorted, x, key), key)
  {
    if sorted != [] && key(sorted[0]) >= key(x) {
      InsertDescSorted(sorted[1..], x, key);
      var r := InsertDesc(sorted, x, key);
      forall j | 1 <= j < |r| ensures key(r[0]) >= key(r[j]) {
        assert r[j] in InsertDesc(sorted[1..], x, key);
        if r[j] != x {
          var k :| 0 <= k < |sorted[1..]| && sorted[1..][k] == r[j];
          assert sorted[k + 1] == r[j];
        }
      }
    }
  }

  /** `list.sort(key=..., reverse=True)`: stable, by descending key. */
  function SortDesc<T>(s: seq<T>, key: T -> int): (r: seq<T>)
    ensures multiset(r) == multiset(s) && |r| == |s|
  {
    if s == [] then []
    else
      var init := s[..|s| - 1];
      assert s == init + [s[|s| - 1]];
      InsertDesc(SortDesc(init, key), s[|s| - 1], key)
  }

  lemma {:induction false} SortDescSorted<T>(s: seq<T>, key: T -> int)
    ensures SortedDesc(SortDesc(s, key), key)
  {
    if s != [] {
      SortDescSorted(s[..|s| - 1], key);
      InsertDescSorted(SortDesc(s[..|s| - 1], key), s[|s| - 1], key);
    }
  }

  function MessageTime(m: Message): int { m.timestamp }

  /**
   * get_conversation_messages in memory: the conversation's messages, newest
   * first, cut to `limit`.
   */
  function GetConversationMessages(st: Store, id: ConversationId, limit: int): (r: seq<Message>)
    ensures SortedDesc(r, MessageTime)
    ensures forall m | m in r :: m in st.messages && m.conversation == id
    ensures limit >= |MessagesOf(st.messages, id)| ==> multiset(r) == multiset(MessagesOf(st.messages, id))
    ensures 0 <= limit ==> |r| == if limit < |MessagesOf(st.messages, id)| then limit else |MessagesOf(st.messages, id)|
  {
    var all := SortDesc(MessagesOf(st.messages, id), MessageTime);
    SortDescSorted(MessagesOf(st.messages, id), MessageTime);
    var r := Prefix(all, limit);
    forall m | m in r ensures m in st.messages && m.conversation == id {
      assert m in multiset(all);
    }
    r
  }

  /** A front part of a list sorted by descending key holds its largest keys. */
  lemma {:induction false} FrontHoldsLargest<T>(sorted: seq<T>, key: T -> int, k: nat)
    requires SortedDesc(sorted, key) && k <= |sorted|
    ensures multiset(sorted[..k]) <= multiset(sorted)
    ensures forall m, x | m in sorted[..k] && x in multiset(sorted) - multiset(sorted[..k]) :: key(x) <= key(m)
  {
    var front := sorted[..k];
    var back := sorted[k..];
    assert sorted == front + back;
    assert multiset(sorted) - multiset(front) == multiset(back);
    forall m, x | m in front && x in multiset(sorted) - multiset(front)
      ensures key(x) <= key(m)
    {
      assert x in back;
      var i :| 0 <= i < k && front[i] == m;
      var j :| 0 <= j < |back| && back[j] == x;
      assert sorted[i] == m && sorted[k + j] == x;
    }
  }

  /**
   * The messages kept are the newest ones: none is kept more often than it
   * is stored, and every stored message left out is at most as recent as
   * every message kept.
   */
  lemma GetConversationMessagesKeepsNewest(st: Store, id: ConversationId, limit: int)
    ensures var all := MessagesOf(st.messages, id);
            var r := GetConversationMessages(st, id, limit);
            && multiset(r) <= multiset(all)
            && forall m, x | m in r && x in multiset(all) - multiset(r) :: MessageTime(x) <= MessageTime(m)
  {
    var all := MessagesOf(st.messages, id);
    var sorted := SortDesc(all, MessageTime);
    SortDescSorted(all, MessageTime);
    var r := Prefix(sorted, limit);
    assert GetConversationMessages(st, id, limit) == r;
    FrontHoldsLargest(sorted, MessageTime, |r|);
  }

  // ----------------------------------------------------------- animal data

  /** save_animal_data in memory: the record for the conversation is replaced. */
  function SaveAnimalData(st: Store, id: ConversationId, data: Data, now: int): (r: Store)
    ensures r.conversations == st.conversations && r.messages == st.messages
    ensures id in r.animals && r.animals[id].data == data
    ensures forall c | c != id :: (c in r.animals <==> c in st.animals) && (c in st.animals ==> r.animals[c] == st.animals[c])
  {
    st.(animals := st.animals[id := AnimalRecord(data, now)])
  }

  /** get_animal_data: the saved data, or nothing. */
  function GetAnimalData(st: Store, id: ConversationId): (r: Option<Data>)
    ensures r.Some? <==> id in st.animals
    ensures r.Some? ==> r.value == st.animals[id].data
  {
    if id in st.animals then Some(st.animals[id].data) else None
  }

  /** What was saved for a conversation is read back, even when it is empty. */
  lemma SaveThenGetAnimal(st: Store, id: ConversationId, data: Data, now: int, other: ConversationId)
    ensures GetAnimalData(SaveAnimalData(st, id, data, now), id) == Some(data)
    ensures other != id ==> GetAnimalData(SaveAnimalData(st, id, data, now), other) == GetAnimalData(st, other)
  {
  }

  // ------------------------------------------------- active and statistics

  predicate IsActive(c: Conversation) {
    c.status in ActiveStatuses
  }

  /** A conversation paired with its id, as get_active_conversations adds `_id`. */
  datatype Listed = Listed(id: ConversationId, conversation: Conversation)

  function ListedTime(l: Listed): int { l.conversation.updatedAt }

  /** The active conversations with their ids, in insertion order. */
  function ActiveFrom(convs: seq<Conversation>, from: nat): (r: seq<Listed>)
    requires from <= |convs|
    ensures forall l | l in r :: from <= l.id < |convs| && convs[l.id] == l.conversation && IsActive(l.conversation)
    ensures forall j | from <= j < |convs| && IsActive(convs[j]) :: Listed(j, convs[j]) in r
    ensures |r| <= |convs| - from
    decreases |convs| - from
  {
    if from == |convs| then []
    else
      var rest := ActiveFrom(convs, from + 1);
      if IsActive(convs[from]) then [Listed(from, convs[from])] + rest else rest
  }

  /** The positions, from `from` on, of the active conversations. */
  function ActiveIds(convs: seq<Conversation>, from: nat): set<nat>
    requires from <= |convs|
  {
    set j: nat | from <= j < |convs| && IsActive(convs[j])
  }

  /** The active list from `from` on has one entry per active position. */
  lemma {:induction false} ActiveFromCount(convs: seq<Conversation>, from: nat)
    requires from <= |convs|
    ensures |ActiveFrom(convs, from)| == |ActiveIds(convs, from)|
    decreases |convs| - from
  {
    if from < |convs| {
      ActiveFromCount(convs, from + 1);
      ActiveIdsStep(convs, from);
    } else {
      assert ActiveIds(convs, from) == {};
    }
  }

  /** The active positions from `from` on: `from` itself if active, then the later ones. */
  lemma ActiveIdsStep(convs: seq<Conversation>, from: nat)
    requires from < |convs|
    ensures IsActive(convs[from]) ==> ActiveIds(convs, from) == ActiveIds(convs, from + 1) + {from}
    ensures !IsActive(convs[from]) ==> ActiveIds(convs, from) == ActiveIds(convs, from + 1)
    ensures from !in ActiveIds(convs, from + 1)
  {
  }

  /** get_active_conversations in memory: exactly the active ones, most recently updated first. */
  function GetActiveConversations(st: Store): (r: seq<Listed>)
    ensures SortedDesc(r, ListedTime)
    ensures forall l | l in r :: l.id < |st.conversations| && st.conversations[l.id] == l.conversation && IsActive(l.conversation)
    ensures forall j | 0 <= j < |st.conversations| && IsActive(st.conversations[j]) :: Listed(j, st.conversations[j]) in r
    ensures multiset(r) == multiset(ActiveFrom(st.conversations, 0))
    ensures |r| == |ActiveIds(st.conversations, 0)|
  {
    var active := ActiveFrom(st.conversations, 0);
    SortDescSorted(active, ListedTime);
    ActiveFromCount(st.conversations, 0);
    var r := SortDesc(active, ListedTime);
    assert |r| == |multiset(r)| == |multiset(active)| == |active|;
    assert forall l :: l in r <==> l in multiset(active);
    r
  }

  datatype Stats = Stats(total: nat, active: nat, messages: nat)

  /** get_conversation_stats in memory. */
  function GetConversationStats(st: Store): (r: Stats)
    ensures r.active <= r.total == |st.conversations|
    ensures r.messages == |st.messages|
    ensures r.active == |GetActiveConversations(st)|
    ensures r.active == |ActiveIds(st.conversations, 0)|
  {
    var active := ActiveFrom(st.conversations, 0);
    ActiveFromCount(st.conversations, 0);
    Stats(|st.conversations|, |active|, |st.messages|)
  }
}

=== FILE: ordered_dict.dfy ===
/*
 * A Python dict of strings where insertion order is observable: its items in
 * iteration order. Assigning to an existing key keeps its position; a new key
 * goes to the end.
 */
module OrderedDict {
  import opened Wrappers

  type Items = seq<(string, string)>

  function KeyList(d: Items): (r: seq<string>)
    ensures |r| == |d|
    ensures forall i | 0 <= i < |d| :: r[i] == d[i].0
  {
    if d == [] then [] else [d[0].0] + KeyList(d[1..])
  }

  predicate HasKey(d: Items, k: string) {
    k in KeyList(d)
  }

  predicate DistinctKeys(d: Items) {
    forall i, j | 0 <= i < j < |d| :: d[i].0 != d[j].0
  }

  /** `d.get(k)`: the value stored under `k` (its first occurrence). */
  function Lookup(d: Items, k: string): (r: Option<string>)
    ensures r.Some? <==> HasKey(d, k)
    ensures r.Some? ==> (k, r.value) in d
  {
    if d == [] then None
    else if d[0].0 == k then Some(d[0].1)
    else Lookup(d[1..], k)
  }

  /** `d.get(k, '')`. */
  function GetOr(d: Items, k: string): string {
    Lookup(d, k).UnwrapOr("")
  }

  /** `d.get(k)` is truthy. */
  predicate Truthy(d: Items, k: string) {
    Lookup(d, k).Some? && Lookup(d, k).value != ""
  }

  /** `d[k] = v`: overwrite in place, or append a new key at the end. */
  function Set(d: Items, k: string, v: string): (r: Items)
    ensures Lookup(r, k) == Some(v)
    ensures forall k' | k' != k :: Lookup(r, k') == Lookup(d, k')
    ensures HasKey(d, k) ==> KeyList(r) == KeyList(d)
    ensures !HasKey(d, k) ==> KeyList(r) == KeyList(d) + [k]
  {
    if d == [] then [(k, v)]
    else if d[0].0 == k then [(k, v)] + d[1..]
    else [d[0]] + Set(d[1..], k, v)
  }

  /** Assignment never duplicates a key. */
  lemma SetKeepsDistinct(d: Items, k: string, v: string)
    requires DistinctKeys(d)
    ensures DistinctKeys(Set(d, k, v))
  {
    var r := Set(d, k, v);
    var before, after := KeyList(d), KeyList(r);
    forall i, j | 0 <= i < j < |r|
      ensures r[i].0 != r[j].0
    {
      assert r[i].0 == after[i] && r[j].0 == after[j];
      if j < |d| {
        assert after[i] == before[i] && after[j] == before[j];
      } else {
        assert after[i] == before[i] && before[i] in before;
      }
    }
  }

  /** `d.update(e)`: the items of `e` assigned in their order. */
  function Update(d: Items, e: Items): Items
    decreases |e|
  {
    if e == [] then d else Update(Set(d, e[0].0, e[0].1), e[1..])
  }

  /** The value of the last item with key `k`: what a run of assignments leaves under `k`. */
  function LastLookup(e: Items, k: string): (r: Option<string>)
    ensures r.Some? <==> HasKey(e, k)
    ensures r.Some? ==> exists i | 0 <= i < |e| :: e[i] == (k, r.value) && forall j | i < j < |e| :: e[j].0 != k
  {
    if e == [] then None
    else
      var rest := LastLookup(e[1..], k);
      assert forall j | 1 <= j < |e| :: e[j] == e[1..][j - 1];
      if rest.Some? then rest
      else if e[0].0 == k then Some(e[0].1)
      else None
  }

  /** The item at `i` is the last one holding `k`: the last-wins lookup reads its value. */
  lemma {:induction false} LastLookupAt(e: Items, k: string, i: int)
    requires 0 <= i < |e| && e[i].0 == k
    requires forall j | i < j < |e| :: e[j].0 != k
    ensures LastLookup(e, k) == Some(e[i].1)
    decreases |e|
  {
    if i > 0 {
      assert forall j | i - 1 < j < |e| - 1 :: e[1..][j] == e[j + 1];
      LastLookupAt(e[1..], k, i - 1);
    } else {
      assert !HasKey(e[1..], k) by {
        assert forall j | 0 <= j < |e| - 1 :: KeyList(e[1..])[j] == e[j + 1].0;
      }
    }
  }

  /**
   * After an update, a key reads the value of its last item in the update when
   * the update holds it, and from the original otherwise; the update's keys
   * need not be distinct.
   */
  lemma {:induction false} UpdateLookupLast(d: Items, e: Items, k: string)
    ensures Lookup(Update(d, e), k) == if HasKey(e, k) then LastLookup(e, k) else Lookup(d, k)
    decreases |e|
  {
    if e != [] {
      UpdateLookupLast(Set(d, e[0].0, e[0].1), e[1..], k);
      assert KeyList(e) == [e[0].0] + KeyList(e[1..]);
    }
  }

  /** After an update, a key reads from the update when it holds it, and from the original otherwise. */
  lemma {:induction false} UpdateLookup(d: Items, e: Items, k: string)
    requires DistinctKeys(e)
    ensures Lookup(Update(d, e), k) == if HasKey(e, k) then Lookup(e, k) else Lookup(d, k)
    decreases |e|
  {
    if e != [] {
      assert DistinctKeys(e[1..]) by {
        assert forall i | 0 <= i < |e| - 1 :: e[1..][i] == e[i + 1];
      }
      UpdateLookup(Set(d, e[0].0, e[0].1), e[1..], k);
      if e[0].0 == k {
        assert !HasKey(e[1..], k) by {
          assert forall i | 0 <= i < |e| - 1 :: KeyList(e[1..])[i] == e[i + 1].0;
        }
      }
    }
  }

  /** Updating a dict with distinct keys keeps its keys distinct. */
  lemma {:induction false} UpdateKeepsDistinct(d: Items, e: Items)
    requires DistinctKeys(d)
    ensures DistinctKeys(Update(d, e))
    decreases |e|
  {
    if e != [] {
      SetKeepsDistinct(d, e[0].0, e[0].1);
      UpdateKeepsDistinct(Set(d, e[0].0, e[0].1), e[1..]);
    }
  }
}

=== FILE: parser_validacao.dfy ===
/*
 * The normalisation of extracted quotation data (parser_validacao.py): keys
 * are renamed to the short names the quotation uses, CEP and CPF keep their
 * digits only, the UF is trimmed and upper-cased, the value is cleaned of
 * currency marks, and the required keys still blank are listed.
 *
 * The dict is insertion-ordered (OrderedDict): a renamed key that collides
 * with another keeps the position of the first and the value of the last.
 */
module ParserValidacao {
  import opened Wrappers
  import opened Text
  import opened OrderedDict
  import opened Positions

  /** OBRIGATORIOS: the keys a quotation needs, in the order they are reported missing. */
  const Required: seq<string> := ["cep", "rua", "numero", "bairro", "uf", "cidade", "valor", "nome", "cpf"]

  /** MAPA_CAMPOS.get(k, k). */
  function Rename(k: string): string {
    if k == "nome_solicitante" then "nome"
    else if k == "cpf_solicitante" then "cpf"
    else if k == "estado" then "uf"
    else if k == "endereco" then "rua"
    else k
  }

  /** The keys MAPA_CAMPOS renames away. */
  predicate RenamedAway(k: string) {
    k in {"nome_solicitante", "cpf_solicitante", "estado", "endereco"}
  }

  /** The keys MAPA_CAMPOS renames into. */
  predicate RenameTarget(k: string) {
    k in {"nome", "cpf", "uf", "rua"}
  }

  /** somente_digitos: the digits of the text, in order; a missing text gives "". */
  function OnlyDigits(s: Option<string>): (r: string)
    ensures AllDigits(r)
    ensures s.Some? ==> r == Digits(s.value)
    ensures s.None? ==> r == ""
  {
    Digits(s.UnwrapOr(""))
  }

  /**
   * normaliza_valor: "" for an empty value; otherwise trimmed, with '.',
   * "R$" and ' ' deleted (in that order) and ',' turned into '.'. The result
   * holds no comma and no space, and keeps every digit of the trimmed value,
   * in order.
   */
  function NormaliseValue(v: string): (r: string)
    ensures v == [] ==> r == []
    ensures forall i | 0 <= i < |r| :: r[i] != ',' && r[i] != ' '
    ensures v != [] ==> Digits(r) == Digits(Strip(v))
  {
    if v == [] then []
    else
      var a := Replace(Strip(v), ".", "");
      var b := Replace(a, "R$", "");
      var c := Replace(b, " ", "");
      DeleteChar(b, ' ');
      ContainsCharAt(c, ' ');
      ReplaceChar(c, ',', '.');
      assert Digits(".") == [] && Digits("R$") == [] && Digits(" ") == [];
      DigitsOfDeletion(Strip(v), ".");
      DigitsOfDeletion(a, "R$");
      DigitsOfDeletion(b, " ");
      ReplaceKeepsDigits(c, ',', '.');
      Replace(c, ",", ".")
  }

  /** The items with their keys renamed, in the same order. */
  function RenameAll(d: Items): (r: Items)
    ensures |r| == |d|
    ensures forall i | 0 <= i < |d| :: r[i] == (Rename(d[i].0), d[i].1)
  {
    if d == [] then [] else [(Rename(d[0].0), d[0].1)] + RenameAll(d[1..])
  }

  /** Step 1 of normaliza_e_valida: `dados2[MAPA_CAMPOS.get(k, k)] = v` for every item, in order. */
  function Renamed(d: Items): Items {
    Update([], RenameAll(d))
  }

  /** After the renaming a key reads the value of the last item renamed to it. */
  lemma RenamedLookup(d: Items, k: string)
    ensures Lookup(Renamed(d), k) == (if HasKey(RenameAll(d), k) then LastLookup(RenameAll(d), k) else None)
  {
    UpdateLookupLast([], RenameAll(d), k);
  }

  /** A key MAPA_CAMPOS renames away is gone after the renaming. */
  lemma RenamedAwayIsGone(d: Items, k: string)
    requires RenamedAway(k)
    ensures Lookup(Renamed(d), k) == None
  {
    RenamedLookup(d, k);
    var e := RenameAll(d);
    forall i | 0 <= i < |e| ensures KeyList(e)[i] != k {
      RenameNeverAway(d[i].0);
    }
  }

  lemma RenameNeverAway(x: string)
    ensures !RenamedAway(Rename(x))
  {
  }

  /** A key MAPA_CAMPOS neither renames nor renames into reads what the input held last under it. */
  lemma UnmappedKeyKept(d: Items, k: string)
    requires !RenamedAway(k) && !RenameTarget(k)
    ensures Lookup(Renamed(d), k) == LastLookup(d, k)
  {
    RenamedLookup(d, k);
    var e := RenameAll(d);
    forall i | 0 <= i < |d| ensures e[i].0 == k <==> d[i].0 == k {
      RenameFixes(d[i].0, k);
    }
    if HasKey(d, k) {
      var y := LastLookup(d, k);
      var n :| 0 <= n < |d| && d[n] == (k, y.value) && forall j | n < j < |d| :: d[j].0 != k;
      assert KeyList(e)[n] == k;
      LastLookupAt(e, k, n);
    } else {
      forall i | 0 <= i < |e| ensures KeyList(e)[i] != k {
        assert KeyList(d)[i] == d[i].0;
      }
    }
  }

  /** Outside the table, renaming lands on `k` exactly from `k` itself. */
  lemma RenameFixes(x: string, k: string)
    requires !RenamedAway(k) && !RenameTarget(k)
    ensures Rename(x) == k <==> x == k
  {
  }

  /** Two inputs that differ in the order of a colliding pair: the last one wins. */
  lemma RenameCollisionLastWins()
    ensures Lookup(Renamed([("nome", "Ana"), ("nome_solicitante", "Bia")]), "nome") == Some("Bia")
    ensures Lookup(Renamed([("nome_solicitante", "Bia"), ("nome", "Ana")]), "nome") == Some("Ana")
  {
    RenamedLookup([("nome", "Ana"), ("nome_solicitante", "Bia")], "nome");
    RenamedLookup([("nome_solicitante", "Bia"), ("nome", "Ana")], "nome");
  }

  /** `not (v or "").strip()`. */
  predicate Blank(d: Items, k: string) {
    Strip(GetOr(d, k)) == []
  }

  /** Which of `keys` are blank. */
  function BlankFlags(keys: seq<string>, d: Items): (r: seq<bool>)
    ensures |r| == |keys|
    ensures forall i | 0 <= i < |keys| :: r[i] == Blank(d, keys[i])
  {
    seq(|keys|, i requires 0 <= i < |keys| => Blank(d, keys[i]))
  }

  /** The positions of the blank keys, in increasing order. */
  function BlankPositions(keys: seq<string>, d: Items): (r: seq<nat>)
    ensures forall a | 0 <= a < |r| :: r[a] < |keys| && Blank(d, keys[r[a]])
    ensures forall i | 0 <= i < |keys| :: Blank(d, keys[i]) ==> i in r
    ensures forall a, b | 0 <= a < b < |r| :: r[a] < r[b]
  {
    SetFromCovers(BlankFlags(keys, d), 0);
    SetFrom(BlankFlags(keys, d), 0)
  }

  /**
   * Step 3: the keys of `keys` whose value is blank, in the order of
   * `keys`: the a-th listed key is the one at the a-th blank position.
   */
  function Blanks(keys: seq<string>, d: Items): (r: seq<string>)
    ensures |r| <= |keys|
    ensures |r| == |BlankPositions(keys, d)| && forall a | 0 <= a < |r| :: r[a] == keys[BlankPositions(keys, d)[a]]
    ensures forall k :: k in r <==> k in keys && Blank(d, k)
  {
    PositionsBound(BlankPositions(keys, d), |keys|);
    var r := PickFrom(keys, BlankFlags(keys, d), 0);
    BlanksMembers(keys, d, r);
    r
  }

  /** A list that names the blank positions in order lists exactly the blank keys. */
  lemma BlanksMembers(keys: seq<string>, d: Items, r: seq<string>)
    requires |r| == |BlankPositions(keys, d)|
    requires forall a | 0 <= a < |r| :: r[a] == keys[BlankPositions(keys, d)[a]]
    ensures forall k :: k in r <==> k in keys && Blank(d, k)
  {
    var p := BlankPositions(keys, d);
    forall k | k in r
      ensures k in keys && Blank(d, k)
    {
      var a :| 0 <= a < |r| && r[a] == k;
      assert keys[p[a]] == k;
    }
    forall k | k in keys && Blank(d, k)
      ensures k in r
    {
      var i :| 0 <= i < |keys| && keys[i] == k;
      var a :| 0 <= a < |p| && p[a] == i;
      assert r[a] == k;
    }
  }

  /** No key is listed blank exactly when every key holds a value. */
  lemma BlanksEmpty(keys: seq<string>, d: Items)
    ensures Blanks(keys, d) == [] <==> forall i | 0 <= i < |keys| :: !Blank(d, keys[i])
  {
    var r := Blanks(keys, d);
    if r != [] {
      assert r[0] in r;
    } else {
      forall i | 0 <= i < |keys| ensures !Blank(d, keys[i]) {
        assert keys[i] in keys;
      }
    }
  }

  /** The result of normaliza_e_valida: the normalised dict, the missing keys, and the `dados_completos` flag. */
  datatype Checked = Checked(data: Items, missing: seq<string>, complete: bool)

  /** `dados2.get("valor") or dados2.get("valor_animal")`, as a text ("" when both are falsy or absent). */
  function ValueSource(d: Items): string {
    if Truthy(d, "valor") then GetOr(d, "valor") else GetOr(d, "valor_animal")
  }

  /** normaliza_e_valida. */
  function Normalise(d: Items): (r: Checked)
    ensures r.complete <==> r.missing == []
    ensures r.complete <==> forall i | 0 <= i < |Required| :: !Blank(r.data, Required[i])
    ensures forall k :: k in r.missing <==> k in Required && Blank(r.data, k)
    ensures var p := BlankPositions(Required, r.data);
            |r.missing| == |p| && forall a | 0 <= a < |r.missing| :: r.missing[a] == Required[p[a]]
    ensures DistinctKeys(r.data)
  {
    var d2 := Renamed(d);
    UpdateKeepsDistinct([], RenameAll(d));
    var d6 := Normalised(d2);
    var missing := Blanks(Required, d6);
    BlanksEmpty(Required, d6);
    Checked(d6, missing, |missing| == 0)
  }

  /** One assignment of step 2, `d[k] = v`. */
  function Assign(d: Items, k: string, v: string): (r: Items)
    ensures Lookup(r, k) == Some(v)
    ensures forall k' | k' != k :: Lookup(r, k') == Lookup(d, k')
    ensures DistinctKeys(d) ==> DistinctKeys(r)
  {
    SetKeepsDistinctIf(d, k, v);
    Set(d, k, v)
  }

  lemma SetKeepsDistinctIf(d: Items, k: string, v: string)
    ensures DistinctKeys(d) ==> DistinctKeys(Set(d, k, v))
  {
    if DistinctKeys(d) {
      SetKeepsDistinct(d, k, v);
    }
  }

  /** `(dados2.get("uf") or "").strip().upper()`. */
  function CleanUf(d: Items): (r: string)
    ensures forall i | 0 <= i < |r| :: !IsLower(r[i])
  {
    UpperStr(Strip(GetOr(d, "uf")))
  }

  /**
   * Step 2 of normaliza_e_valida, on the renamed dict. Each assignment reads
   * only keys the earlier ones leave alone, so every new value is computed
   * from the renamed dict itself.
   */
  function Normalised(d2: Items): (r: Items)
    ensures DistinctKeys(d2) ==> DistinctKeys(r)
    ensures Lookup(r, "cep") == Some(OnlyDigits(Lookup(d2, "cep")))
    ensures Lookup(r, "cpf") == Some(OnlyDigits(Lookup(d2, "cpf")))
    ensures Lookup(r, "uf") == Some(CleanUf(d2))
    ensures Lookup(r, "valor") == Some(NormaliseValue(ValueSource(d2)))
    ensures forall k | k != "cep" && k != "cpf" && k != "uf" && k != "valor" :: Lookup(r, k) == Lookup(d2, k)
  {
    var d3 := Assign(d2, "cep", OnlyDigits(Lookup(d2, "cep")));
    var d4 := Assign(d3, "cpf", OnlyDigits(Lookup(d2, "cpf")));
    var d5 := Assign(d4, "uf", CleanUf(d2));
    var r := Assign(d5, "valor", NormaliseValue(ValueSource(d2)));
    assert Lookup(r, "cep") == Lookup(d5, "cep") == Lookup(d4, "cep") == Lookup(d3, "cep");
    assert Lookup(r, "cpf") == Lookup(d5, "cpf") == Lookup(d4, "cpf");
    assert Lookup(r, "uf") == Lookup(d5, "uf");
    r
  }

  /**
   * The normalised dict: digit-only CEP and CPF, an upper-case UF, the value
   * taken from 'valor' or else 'valor_animal' and cleaned, every other key as
   * the renaming left it.
   */
  lemma NormaliseFields(d: Items)
    ensures var r := Normalise(d).data;
            && AllDigits(GetOr(r, "cep")) && AllDigits(GetOr(r, "cpf"))
            && (forall i | 0 <= i < |GetOr(r, "uf")| :: !IsLower(GetOr(r, "uf")[i]))
            && Lookup(r, "valor") == Some(NormaliseValue(ValueSource(Renamed(d))))
            && forall k | k != "cep" && k != "cpf" && k != "uf" && k != "valor" :: Lookup(r, k) == Lookup(Renamed(d), k)
  {
  }

  /** A CEP, CPF or value that is already clean comes out unchanged. */
  lemma NormaliseKeepsCleanValues(d: Items)
    requires var d2 := Renamed(d); AllDigits(GetOr(d2, "cep")) && AllDigits(GetOr(d2, "cpf"))
    ensures var d2 := Renamed(d);
            && (Lookup(d2, "cep").Some? ==> Lookup(Normalised(d2), "cep") == Lookup(d2, "cep"))
            && (Lookup(d2, "cpf").Some? ==> Lookup(Normalised(d2), "cpf") == Lookup(d2, "cpf"))
  {
  }
}

=== FILE: patterns.dfy ===
/*
 * Ordered lists of regular expressions, as every extractor of the bot uses
 * them: `re.search` with each pattern in turn, the first hit wins.
 *
 * A pattern is abstract: a function from the searched text to what its first
 * group captured, or None when the pattern does not match.
 */
module Patterns {
  import opened Wrappers

  type Matcher = string -> Option<string>

  /** No pattern before position `i` matches. */
  predicate NoneBefore(patterns: seq<Matcher>, text: string, i: int)
    requires 0 <= i <= |patterns|
  {
    forall j | 0 <= j < i :: patterns[j](text).None?
  }

  /** `for pattern in patterns: if m := re.search(pattern, text): return m.group(1)`. */
  function FirstMatch(patterns: seq<Matcher>, text: string): (r: Option<string>)
    ensures r.None? <==> NoneBefore(patterns, text, |patterns|)
    ensures r.Some? ==> exists i | 0 <= i < |patterns| :: patterns[i](text) == r && NoneBefore(patterns, text, i)
  {
    if patterns == [] then None
    else if patterns[0](text).Some? then
      assert NoneBefore(patterns, text, 0);
      patterns[0](text)
    else
      var r := FirstMatch(patterns[1..], text);
      assert forall j | 1 <= j < |patterns| :: patterns[j] == patterns[1..][j - 1];
      r
  }

  /** The hit at position `i` is accepted by the post-processing step. */
  predicate AcceptedAt(patterns: seq<Matcher>, text: string, accept: string -> Option<string>, i: int)
    requires 0 <= i < |patterns|
  {
    patterns[i](text).Some? && accept(patterns[i](text).value).Some?
  }

  /**
   * The first hit that survives post-processing: a hit `accept` rejects (too
   * short, not a number, out of range) falls through to the next pattern.
   */
  function FirstAccepted(patterns: seq<Matcher>, text: string, accept: string -> Option<string>): (r: Option<string>)
    ensures r.None? <==> forall i | 0 <= i < |patterns| :: !AcceptedAt(patterns, text, accept, i)
    ensures r.Some? ==>
              exists i | 0 <= i < |patterns| ::
                && AcceptedAt(patterns, text, accept, i)
                && r == accept(patterns[i](text).value)
                && forall j | 0 <= j < i :: !AcceptedAt(patterns, text, accept, j)
  {
    if patterns == [] then None
    else if AcceptedAt(patterns, text, accept, 0) then accept(patterns[0](text).value)
    else
      var r := FirstAccepted(patterns[1..], text, accept);
      assert forall j | 1 <= j < |patterns| :: patterns[1..][j - 1] == patterns[j];
      assert forall j | 1 <= j < |patterns| ::
        AcceptedAt(patterns, text, accept, j) == AcceptedAt(patterns[1..], text, accept, j - 1);
      assert forall k | 0 <= k < |patterns| - 1 ::
        AcceptedAt(patterns[1..], text, accept, k) == AcceptedAt(patterns, text, accept, k + 1);
      r
  }

  /** The post-processing that keeps every hit as it is. */
  function Keep(x: string): Option<string> {
    Some(x)
  }

  /** When every hit is kept, the first accepted hit is the first hit. */
  lemma {:induction false} FirstAcceptedKeep(patterns: seq<Matcher>, text: string)
    ensures FirstAccepted(patterns, text, Keep) == FirstMatch(patterns, text)
  {
    if patterns != [] && patterns[0](text).None? {
      FirstAcceptedKeep(patterns[1..], text);
    }
  }
}

=== FILE: positions.dfy ===
/*
 * Positions in a fixed table: the indices whose flag is set, in increasing
 * order. A list built by walking a table and keeping some of its entries
 * is pinned down, order and all, by saying that its a-th element is the
 * entry at the a-th such position.
 */
module Positions {

  /** No entry of `s` occurs twice. */
  predicate NoDuplicates<T(==)>(s: seq<T>) {
    forall i, j | 0 <= i < j < |s| :: s[i] != s[j]
  }

  /** The positions from `from` on whose flag is set, in increasing order. */
  function SetFrom(flags: seq<bool>, from: nat): (r: seq<nat>)
    requires from <= |flags|
    ensures forall a | 0 <= a < |r| :: from <= r[a] < |flags| && flags[r[a]]
    ensures forall a, b | 0 <= a < b < |r| :: r[a] < r[b]
    decreases |flags| - from
  {
    if from == |flags| then []
    else
      var rest := SetFrom(flags, from + 1);
      if flags[from] then
        var r := [from] + rest;
        assert forall a | 1 <= a < |r| :: r[a] == rest[a - 1];
        r
      else rest
  }

  /** No set position from `from` on is left out. */
  lemma {:induction false} SetFromCovers(flags: seq<bool>, from: nat)
    requires from <= |flags|
    ensures forall j | from <= j < |flags| :: flags[j] ==> j in SetFrom(flags, from)
    decreases |flags| - from
  {
    if from < |flags| {
      SetFromCovers(flags, from + 1);
    }
  }

  /** The entries of `xs` at the set positions from `from` on, in order. */
  function PickFrom<T>(xs: seq<T>, flags: seq<bool>, from: nat): (r: seq<T>)
    requires |xs| == |flags| && from <= |flags|
    ensures |r| == |SetFrom(flags, from)|
    ensures forall a | 0 <= a < |r| :: r[a] == xs[SetFrom(flags, from)[a]]
    decreases |flags| - from
  {
    if from == |flags| then []
    else
      var rest := PickFrom(xs, flags, from + 1);
      PickFromStep(xs, flags, from, rest);
      if flags[from] then [xs[from]] + rest else rest
  }

  /** One step of PickFrom: a set position's entry goes in front of the later ones. */
  lemma {:induction false} PickFromStep<T>(xs: seq<T>, flags: seq<bool>, from: nat, rest: seq<T>)
    requires |xs| == |flags| && from < |flags|
    requires |rest| == |SetFrom(flags, from + 1)|
    requires forall a | 0 <= a < |rest| :: rest[a] == xs[SetFrom(flags, from + 1)[a]]
    ensures var r := if flags[from] then [xs[from]] + rest else rest;
            |r| == |SetFrom(flags, from)| &&
            forall a | 0 <= a < |r| :: r[a] == xs[SetFrom(flags, from)[a]]
  {
    var p := SetFrom(flags, from);
    var q := SetFrom(flags, from + 1);
    if !flags[from] {
      assert p == q;
    } else {
      var r := [xs[from]] + rest;
      assert |p| == |q| + 1 && p[0] == from;
      forall a | 0 <= a < |r|
        ensures r[a] == xs[p[a]]
      {
        if a > 0 {
          assert r[a] == rest[a - 1] && p[a] == q[a - 1];
        }
      }
    }
  }

  /** Picking from `from` on is picking from the tails one position earlier. */
  lemma {:induction false} PickFromShift<T>(xs: seq<T>, flags: seq<bool>, from: nat)
    requires |xs| == |flags| && 1 <= from <= |flags|
    ensures PickFrom(xs, flags, from) == PickFrom(xs[1..], flags[1..], from - 1)
    decreases |flags| - from
  {
    if from < |flags| {
      PickFromShift(xs, flags, from + 1);
      assert xs[1..][from - 1] == xs[from] && flags[1..][from - 1] == flags[from];
    }
  }

  /** An entry is picked exactly when it sits at a set position. */
  lemma PickFromMembers<T>(xs: seq<T>, flags: seq<bool>)
    requires |xs| == |flags|
    ensures forall x :: x in PickFrom(xs, flags, 0) <==> exists i | 0 <= i < |xs| :: flags[i] && xs[i] == x
  {
    var p := SetFrom(flags, 0);
    var r := PickFrom(xs, flags, 0);
    SetFromCovers(flags, 0);
    forall x
      ensures x in r <==> exists i | 0 <= i < |xs| :: flags[i] && xs[i] == x
    {
      if x in r {
        var a :| 0 <= a < |r| && r[a] == x;
        assert flags[p[a]] && xs[p[a]] == x;
      }
      if exists i | 0 <= i < |xs| :: flags[i] && xs[i] == x {
        var i :| 0 <= i < |xs| && flags[i] && xs[i] == x;
        assert i in p;
        var a :| 0 <= a < |p| && p[a] == i;
        assert r[a] == x;
      }
    }
  }

  /** Strictly increasing positions below `n` number at most `n`. */
  lemma {:induction false} PositionsBound(r: seq<nat>, n: nat)
    requires forall a | 0 <= a < |r| :: r[a] < n
    requires forall a, b | 0 <= a < b < |r| :: r[a] < r[b]
    ensures |r| <= n
    decreases n
  {
    if r != [] {
      var last := r[|r| - 1];
      assert forall a | 0 <= a < |r| - 1 :: r[a] < last;
      PositionsBound(r[..|r| - 1], last);
    }
  }

  /** Strictly increasing positions below `n` that include every one of them are 0, 1, ..., n - 1. */
  lemma AllPositions(r: seq<nat>, n: nat)
    requires forall a | 0 <= a < |r| :: r[a] < n
    requires forall a, b | 0 <= a < b < |r| :: r[a] < r[b]
    requires forall j | 0 <= j < n :: j in r
    ensures |r| == n
    ensures forall a | 0 <= a < |r| :: r[a] == a
  {
    PositionsBound(r, n);
    if n > 0 {
      IdentityUpTo(r, n, n - 1);
    }
  }

  /** The first `j + 1` positions are 0, 1, ..., j. */
  lemma {:induction false} IdentityUpTo(r: seq<nat>, n: nat, j: nat)
    requires j < n
    requires forall a, b | 0 <= a < b < |r| :: r[a] < r[b]
    requires forall k | 0 <= k < n :: k in r
    ensures j < |r|
    ensures forall i | 0 <= i <= j :: r[i] == i
  {
    if j > 0 {
      IdentityUpTo(r, n, j - 1);
    }
    assert j in r;
    assert forall i | 0 <= i < j :: r[i] != j;
    AtLeastIndex(r, j);
  }

  lemma {:induction false} AtLeastIndex(r: seq<nat>, a: nat)
    requires a < |r|
    requires forall i, j | 0 <= i < j < |r| :: r[i] < r[j]
    ensures r[a] >= a
  {
    if a > 0 {
      AtLeastIndex(r, a - 1);
    }
  }
}

=== FILE: response_generator.dfy ===
/*
 * The reply generator of response_generator.py: a pattern extraction of
 * five horse fields used whenever the language model is unavailable, the
 * fallback structure around the model's JSON answer, the reply chosen from
 * the `dados_completos` flag and the missing keys of normaliza_e_valida, and
 * the final summary.
 *
 * The data is an insertion-ordered dict, since the partial reply lists the
 * collected items in dict order; the `dados_completos` key is kept apart as
 * a flag, as it is the one value that is not a text.
 */
module ResponseGenerator {
  import opened Wrappers
  import opened Text
  import opened Patterns
  import opened OrderedDict
  import opened Positions
  import ParserValidacao

  /** The conversation data: its text items and whether `dados_completos` is truthy. */
  datatype Record = Record(items: Items, complete: bool)

  // ---------------------------------------------------- simple extraction

  /** The pattern lists of _extract_data_simple; a hit is the first group, not yet stripped. */
  datatype SimplePatterns = SimplePatterns(
    nome: seq<Matcher>, valor: seq<Matcher>, raca: seq<Matcher>, sexo: seq<Matcher>, utilizacao: seq<Matcher>)

  /** The fields of the `patterns` dict, in dict order. */
  const SimpleKeys: seq<string> := ["nome_animal", "valor_animal", "raca", "sexo", "utilizacao"]

  lemma SimpleKeysDistinct()
    ensures forall i, j | 0 <= i < j < |SimpleKeys| :: SimpleKeys[i] != SimpleKeys[j]
  {
    assert |SimpleKeys[0]| == 11 && |SimpleKeys[1]| == 12 && |SimpleKeys[2]| == 4 && |SimpleKeys[3]| == 4;
    assert |SimpleKeys[4]| == 10;
    assert SimpleKeys[2][0] != SimpleKeys[3][0];
  }

  function PatternsAt(p: SimplePatterns, i: nat): seq<Matcher>
    requires i < |SimpleKeys|
  {
    if i == 0 then p.nome else if i == 1 then p.valor else if i == 2 then p.raca
    else if i == 3 then p.sexo else p.utilizacao
  }

  /** What field `i` holds after the extraction: its truthy value, else its stripped first hit, else what it held. */
  function Filled(p: SimplePatterns, d: Items, lower: string, i: nat): Option<string>
    requires i < |SimpleKeys|
  {
    if Truthy(d, SimpleKeys[i]) then Lookup(d, SimpleKeys[i])
    else match FirstMatch(PatternsAt(p, i), lower)
      case Some(v) => Some(Strip(v))
      case None => Lookup(d, SimpleKeys[i])
  }

  predicate SimpleFrom(k: string, from: nat) {
    exists i | from <= i < |SimpleKeys| :: SimpleKeys[i] == k
  }

  /** One field of the loop: an empty field takes its stripped first hit. */
  function StepAt(p: SimplePatterns, d: Items, lower: string, i: nat): (r: Items)
    requires i < |SimpleKeys|
    ensures Lookup(r, SimpleKeys[i]) == Filled(p, d, lower, i)
    ensures forall k | k != SimpleKeys[i] :: Lookup(r, k) == Lookup(d, k)
    ensures DistinctKeys(d) ==> DistinctKeys(r)
  {
    var key := SimpleKeys[i];
    var hit := FirstMatch(PatternsAt(p, i), lower);
    ParserValidacao.SetKeepsDistinctIf(d, key, Strip(hit.UnwrapOr("")));
    if !Truthy(d, key) && hit.Some? then Set(d, key, Strip(hit.value)) else d
  }

  /** A field's outcome depends on its own value only. */
  lemma FilledFrame(p: SimplePatterns, d: Items, e: Items, lower: string, i: nat)
    requires i < |SimpleKeys| && Lookup(d, SimpleKeys[i]) == Lookup(e, SimpleKeys[i])
    ensures Filled(p, d, lower, i) == Filled(p, e, lower, i)
  {
  }

  /** The field loop from field `from` on. */
  function FillFrom(p: SimplePatterns, d: Items, lower: string, from: nat): (r: Items)
    requires from <= |SimpleKeys|
    ensures forall i | from <= i < |SimpleKeys| :: Lookup(r, SimpleKeys[i]) == Filled(p, d, lower, i)
    ensures forall k | !SimpleFrom(k, from) :: Lookup(r, k) == Lookup(d, k)
    ensures DistinctKeys(d) ==> DistinctKeys(r)
    decreases |SimpleKeys| - from
  {
    if from == |SimpleKeys| then d
    else
      var next := StepAt(p, d, lower, from);
      StepFrame(p, d, lower, from);
      var r := FillFrom(p, next, lower, from + 1);
      FillFromStep(p, d, next, r, lower, from);
      r
  }

  /** The loop's result for field `from` on: the step's value for `from`, the later fields' own values after it. */
  lemma FillFromStep(p: SimplePatterns, d: Items, next: Items, r: Items, lower: string, from: nat)
    requires from < |SimpleKeys|
    requires Lookup(r, SimpleKeys[from]) == Lookup(next, SimpleKeys[from]) == Filled(p, d, lower, from)
    requires forall i | from < i < |SimpleKeys| :: Lookup(r, SimpleKeys[i]) == Filled(p, next, lower, i)
    requires forall i | from < i < |SimpleKeys| :: Filled(p, next, lower, i) == Filled(p, d, lower, i)
    ensures forall i | from <= i < |SimpleKeys| :: Lookup(r, SimpleKeys[i]) == Filled(p, d, lower, i)
  {
    forall i | from <= i < |SimpleKeys|
      ensures Lookup(r, SimpleKeys[i]) == Filled(p, d, lower, i)
    {
      if i > from {
        assert Lookup(r, SimpleKeys[i]) == Filled(p, next, lower, i);
      }
    }
  }

  /** The later fields do not see the step of field `from`, and the later keys do not include its key. */
  lemma StepFrame(p: SimplePatterns, d: Items, lower: string, from: nat)
    requires from < |SimpleKeys|
    ensures forall i | from < i < |SimpleKeys| :: Filled(p, StepAt(p, d, lower, from), lower, i) == Filled(p, d, lower, i)
    ensures forall k | !SimpleFrom(k, from) :: !SimpleFrom(k, from + 1) && k != SimpleKeys[from]
    ensures !SimpleFrom(SimpleKeys[from], from + 1)
  {
    SimpleKeysDistinct();
    forall i | from < i < |SimpleKeys| ensures Filled(p, StepAt(p, d, lower, from), lower, i) == Filled(p, d, lower, i) {
      FilledFrame(p, StepAt(p, d, lower, from), d, lower, i);
    }
  }

  /**
   * _extract_data_simple: a truthy field keeps its value, an empty or absent
   * one takes the stripped first hit of its patterns on the lower-cased
   * message; every other key is untouched.
   */
  function ExtractSimple(p: SimplePatterns, d: Items, message: string): (r: Items)
    ensures forall i | 0 <= i < |SimpleKeys| :: Truthy(d, SimpleKeys[i]) ==> Lookup(r, SimpleKeys[i]) == Lookup(d, SimpleKeys[i])
    ensures forall i | 0 <= i < |SimpleKeys| ::
              var hit := FirstMatch(PatternsAt(p, i), LowerStr(message));
              !Truthy(d, SimpleKeys[i]) && hit.Some? ==> Lookup(r, SimpleKeys[i]) == Some(Strip(hit.value))
    ensures forall i | 0 <= i < |SimpleKeys| ::
              !Truthy(d, SimpleKeys[i]) && FirstMatch(PatternsAt(p, i), LowerStr(message)).None? ==>
                Lookup(r, SimpleKeys[i]) == Lookup(d, SimpleKeys[i])
    ensures forall k | k !in SimpleKeys :: Lookup(r, k) == Lookup(d, k)
    ensures DistinctKeys(d) ==> DistinctKeys(r)
  {
    FillFrom(p, d, LowerStr(message), 0)
  }

  /** Running the simple extraction again on the same message changes no value. */
  lemma ExtractSimpleStable(p: SimplePatterns, d: Items, message: string, k: string)
    ensures Lookup(ExtractSimple(p, ExtractSimple(p, d, message), message), k) == Lookup(ExtractSimple(p, d, message), k)
  {
    var once := ExtractSimple(p, d, message);
    if k in SimpleKeys {
      var i :| 0 <= i < |SimpleKeys| && SimpleKeys[i] == k;
      var hit := FirstMatch(PatternsAt(p, i), LowerStr(message));
      if !Truthy(once, k) && hit.Some? {
        assert !Truthy(d, k);
        assert Lookup(once, k) == Some(Strip(hit.value));
      }
    }
  }

  // ------------------------------------------------------- model fallback

  /**
   * What the language-model branch ends with: no API key; an exception (the
   * call failed, the JSON did not parse, or a value could not be normalised);
   * an answer without a JSON object; or the items of the JSON object.
   */
  datatype ModelAnswer = NoApiKey | Raised | NoJson | Json(extracted: Items)

  /**
   * extract_animal_data: without a key or after an exception, the simple
   * extraction; without JSON, the existing data as it was; with JSON, the
   * items merged over the existing data and normalised, with the flag set
   * from the missing keys.
   */
  function ExtractAnimalData(p: SimplePatterns, answer: ModelAnswer, message: string, existing: Record): (r: Record)
    ensures (answer.NoApiKey? || answer.Raised?) ==> r == Record(ExtractSimple(p, existing.items, message), existing.complete)
    ensures answer.NoJson? ==> r == existing
    ensures answer.Json? ==>
              var c := ParserValidacao.Normalise(Update(existing.items, answer.extracted));
              r.items == c.data && (r.complete <==> c.missing == [])
  {
    match answer
    case NoApiKey => Record(ExtractSimple(p, existing.items, message), existing.complete)
    case Raised => Record(ExtractSimple(p, existing.items, message), existing.complete)
    case NoJson => existing
    case Json(x) =>
      var c := ParserValidacao.Normalise(Update(existing.items, x));
      Record(c.data, c.complete)
  }

  /**
   * On the model path, a key normalisation leaves alone holds the model's
   * value when the model gave one, and the earlier value otherwise.
   */
  lemma ModelValueWins(p: SimplePatterns, existing: Record, x: Items, message: string, k: string)
    requires DistinctKeys(existing.items)
    requires !ParserValidacao.RenamedAway(k) && !ParserValidacao.RenameTarget(k)
    requires k != "cep" && k != "cpf" && k != "uf" && k != "valor"
    ensures Lookup(ExtractAnimalData(p, Json(x), message, existing).items, k)
         == if HasKey(x, k) then LastLookup(x, k) else Lookup(existing.items, k)
  {
    var base := Update(existing.items, x);
    assert ExtractAnimalData(p, Json(x), message, existing).items == ParserValidacao.Normalise(base).data;
    ParserValidacao.NormaliseFields(base);
    assert Lookup(ParserValidacao.Normalise(base).data, k) == Lookup(ParserValidacao.Renamed(base), k);
    ParserValidacao.UnmappedKeyKept(base, k);
    UpdateKeepsDistinct(existing.items, x);
    DistinctLastLookup(base, k);
    assert Lookup(ParserValidacao.Renamed(base), k) == Lookup(base, k);
    UpdateLookupLast(existing.items, x, k);
  }

  /** In a dict with distinct keys, the last item with a key is the only one. */
  lemma DistinctLastLookup(d: Items, k: string)
    requires DistinctKeys(d)
    ensures LastLookup(d, k) == Lookup(d, k)
  {
    if HasKey(d, k) {
      var v := Lookup(d, k).value;
      var i :| 0 <= i < |d| && d[i] == (k, v);
      assert forall j | 0 <= j < |d| :: KeyList(d)[j] == d[j].0;
      LastLookupAt(d, k, i);
    }
  }

  // ---------------------------------------------------------------- reply

  /** `obrigatorios_pt`, in dict order: each key normaliza_e_valida checks, with its label. */
  const Labels: seq<(string, string)> := [
    ("nome", "Nome Solicitante"), ("cpf", "CPF Solicitante"), ("valor", "Valor do Animal (R$)"),
    ("rua", "Rua"), ("numero", "Número"), ("bairro", "Bairro"), ("cidade", "Cidade"), ("uf", "uf"), ("cep", "CEP")
  ]

  predicate HasLabel(table: seq<(string, string)>, k: string) {
    exists i | 0 <= i < |table| :: table[i].0 == k
  }

  /** `obrigatorios_pt[k]`. */
  function LabelOf(table: seq<(string, string)>, k: string): (r: string)
    requires HasLabel(table, k)
    ensures exists i | 0 <= i < |table| :: table[i] == (k, r)
    decreases |table|
  {
    if table[0].0 == k then table[0].1
    else
      assert HasLabel(table[1..], k) by {
        var i :| 0 <= i < |table| && table[i].0 == k;
        assert table[1..][i - 1] == table[i];
      }
      var r := LabelOf(table[1..], k);
      var i :| 0 <= i < |table| - 1 && table[1..][i] == (k, r);
      assert table[i + 1] == (k, r);
      r
  }

  /** Every key normaliza_e_valida can report missing has a label: the lookup of a missing label never fails. */
  lemma LabelsCoverRequired()
    ensures forall k | k in ParserValidacao.Required :: HasLabel(Labels, k)
  {
    var req := ParserValidacao.Required;
    assert req[0] == Labels[8].0 && req[1] == Labels[3].0 && req[2] == Labels[4].0;
    assert req[3] == Labels[5].0 && req[4] == Labels[7].0 && req[5] == Labels[6].0;
    assert req[6] == Labels[2].0 && req[7] == Labels[0].0 && req[8] == Labels[1].0;
    assert forall k | k in req :: exists i | 0 <= i < |req| :: req[i] == k;
  }

  /** The keys the complete summary reads with `updated_data[k]`, in order. */
  const SummaryKeys: seq<string> := ["nome", "cpf", "rua", "numero", "bairro", "cidade", "uf", "cep", "valor"]

  /** The reply: welcome, the complete summary, the partial lists, or the error template. */
  datatype Reply =
    | Welcome
    | CompleteData(lines: seq<(string, string)>)
    | PartialData(collected: seq<(string, string)>, missing: seq<string>)
    | ErrorReply

  /** Which items are labelled and have a non-empty value. */
  function Shown(table: seq<(string, string)>, d: Items): (r: seq<bool>)
    ensures |r| == |d| && forall i | 0 <= i < |d| :: r[i] == (HasLabel(table, d[i].0) && d[i].1 != "")
  {
    seq(|d|, i requires 0 <= i < |d| => HasLabel(table, d[i].0) && d[i].1 != "")
  }

  /**
   * The collected lines of the partial reply: the a-th line is the a-th
   * labelled item with a non-empty value, so the lines follow dict order.
   */
  function CollectedLines(table: seq<(string, string)>, d: Items): (r: seq<(string, string)>)
    ensures forall line :: line in r <==>
              exists i | 0 <= i < |d| :: HasLabel(table, d[i].0) && d[i].1 != "" && line == (LabelOf(table, d[i].0), d[i].1)
    ensures |r| == |SetFrom(Shown(table, d), 0)|
    ensures forall a | 0 <= a < |r| ::
              var i := SetFrom(Shown(table, d), 0)[a]; r[a] == (LabelOf(table, d[i].0), d[i].1)
  {
    var lines := seq(|d|, i requires 0 <= i < |d| => (if HasLabel(table, d[i].0) then LabelOf(table, d[i].0) else d[i].0, d[i].1));
    PickFromMembers(lines, Shown(table, d));
    PickFrom(lines, Shown(table, d), 0)
  }

  /** The labels of the missing keys, in the order normaliza_e_valida lists them. */
  function MissingLabels(table: seq<(string, string)>, missing: seq<string>): (r: seq<string>)
    requires forall k | k in missing :: HasLabel(table, k)
    ensures |r| == |missing|
    ensures forall i | 0 <= i < |missing| :: exists j | 0 <= j < |table| :: table[j] == (missing[i], r[i])
  {
    if missing == [] then []
    else
      var rest := MissingLabels(table, missing[1..]);
      assert forall i | 1 <= i < |missing| :: missing[i] == missing[1..][i - 1];
      [LabelOf(table, missing[0])] + rest
  }

  /** Every summary key is present. */
  predicate Summarisable(d: Items) {
    forall i | 0 <= i < |SummaryKeys| :: HasKey(d, SummaryKeys[i])
  }

  /** The lines of the complete summary: each summary key with its value, in order. */
  function CompleteLines(d: Items): (r: seq<(string, string)>)
    requires Summarisable(d)
    ensures |r| == |SummaryKeys|
    ensures forall i | 0 <= i < |SummaryKeys| :: r[i].0 == SummaryKeys[i] && Lookup(d, SummaryKeys[i]) == Some(r[i].1)
  {
    seq(|SummaryKeys|, i requires 0 <= i < |SummaryKeys| => (SummaryKeys[i], Lookup(d, SummaryKeys[i]).value))
  }

  /** Every key normaliza_e_valida reports missing has a label. */
  lemma MissingAllLabelled(d: Items)
    ensures AllLabelled(ParserValidacao.Normalise(d).missing)
  {
    LabelsCoverRequired();
  }

  predicate AllLabelled(missing: seq<string>) {
    forall k | k in missing :: HasLabel(Labels, k)
  }

  /**
   * The reply for the data after extraction, once past the first message,
   * given the keys normaliza_e_valida reports missing from it; a missing key
   * without a label would raise and give the error template.
   */
  function ReplyFor(u: Record, missing: seq<string>): (r: Reply)
    ensures r.CompleteData? <==> u.complete && Summarisable(u.items)
    ensures r.PartialData? <==> !u.complete && AllLabelled(missing)
    ensures r.ErrorReply? <==> (u.complete && !Summarisable(u.items)) || (!u.complete && !AllLabelled(missing))
    ensures r.CompleteData? ==> r.lines == CompleteLines(u.items)
    ensures r.PartialData? ==> r.collected == CollectedLines(Labels, u.items) && |r.missing| == |missing|
    ensures r.PartialData? ==> forall i | 0 <= i < |missing| :: exists j | 0 <= j < |Labels| :: Labels[j] == (missing[i], r.missing[i])
  {
    if u.complete then
      if Summarisable(u.items) then CompleteData(CompleteLines(u.items)) else ErrorReply
    else if AllLabelled(missing) then
      PartialData(CollectedLines(Labels, u.items), MissingLabels(Labels, missing))
    else ErrorReply
  }

  /**
   * generate_response: the welcome text on the first message whatever it
   * says; then the complete summary when the flag is set and every summary
   * key is present, the error template when the flag is set but one is
   * absent, and the partial lists whenever the flag is not set.
   */
  function GenerateResponse(p: SimplePatterns, answer: ModelAnswer, count: int, message: string, existing: Record): (r: Reply)
    ensures r.Welcome? <==> count == 0
    ensures count != 0 ==>
              var u := ExtractAnimalData(p, answer, message, existing);
              r == ReplyFor(u, ParserValidacao.Normalise(u.items).missing)
    ensures r.PartialData? <==> count != 0 && !ExtractAnimalData(p, answer, message, existing).complete
  {
    if count == 0 then Welcome
    else
      var u := ExtractAnimalData(p, answer, message, existing);
      MissingAllLabelled(u.items);
      ReplyFor(u, ParserValidacao.Normalise(u.items).missing)
  }

  /**
   * A flag set by normaliza_e_valida never reaches the error template: every
   * summary key is one of the keys it found non-blank.
   */
  lemma ModelCompleteIsSummarised(p: SimplePatterns, x: Items, count: int, message: string, existing: Record)
    requires count != 0
    ensures ExtractAnimalData(p, Json(x), message, existing).complete ==>
              GenerateResponse(p, Json(x), count, message, existing).CompleteData?
  {
    var u := ExtractAnimalData(p, Json(x), message, existing);
    if u.complete {
      var c := ParserValidacao.Normalise(Update(existing.items, x));
      assert u.items == c.data;
      var req := ParserValidacao.Required;
      assert forall i | 0 <= i < |req| :: HasKey(c.data, req[i]) by {
        forall i | 0 <= i < |req| ensures HasKey(c.data, req[i]) {
          assert !ParserValidacao.Blank(c.data, req[i]);
        }
      }
      SummaryKeysRequired();
    }
  }

  /** The summary keys are the keys normaliza_e_valida checks. */
  lemma SummaryKeysRequired()
    ensures forall i | 0 <= i < |SummaryKeys| :: exists j | 0 <= j < |ParserValidacao.Required| :: SummaryKeys[i] == ParserValidacao.Required[j]
  {
    var req := ParserValidacao.Required;
    assert SummaryKeys[0] == req[7] && SummaryKeys[1] == req[8] && SummaryKeys[2] == req[1];
    assert SummaryKeys[3] == req[2] && SummaryKeys[4] == req[3] && SummaryKeys[5] == req[5];
    assert SummaryKeys[6] == req[4] && SummaryKeys[7] == req[0] && SummaryKeys[8] == req[6];
  }

  /** Without the model's JSON the flag is never set here: a caller's unset flag keeps every reply partial. */
  lemma FallbackStaysPartial(p: SimplePatterns, answer: ModelAnswer, count: int, message: string, existing: Record)
    requires !answer.Json? && !existing.complete && count != 0
    ensures GenerateResponse(p, answer, count, message, existing).PartialData?
  {
  }

  // -------------------------------------------------------- final summary

  /** The keys format_final_summary reads, in its order, with their labels. */
  const FinalKeys: seq<string> := ["nome_animal", "valor_animal", "raca", "sexo", "data_nascimento", "utilizacao", "registro", "endereco"]
  const FinalLabels: seq<string> := ["Animal", "Valor", "Raça", "Sexo", "Nascimento", "Uso", "Registro", "Cocheira"]

  /** One summary line: the position of its key in the fixed order, its caption and the value shown. */
  datatype SummaryLine = SummaryLine(field: nat, caption: string, value: string)

  /** The line of field `j`: the value, with "R$ " before the animal's value. */
  function LineOf(d: Items, j: nat): SummaryLine
    requires j < |FinalKeys|
  {
    var v := GetOr(d, FinalKeys[j]);
    SummaryLine(j, FinalLabels[j], if j == 1 then "R$ " + v else v)
  }

  /** The positions of the truthy keys of `keys`, in increasing order. */
  function TruthyPositions(d: Items, keys: seq<string>): (r: seq<nat>)
    ensures |r| <= |keys|
    ensures forall a | 0 <= a < |r| :: r[a] < |keys| && Truthy(d, keys[r[a]])
    ensures forall j | 0 <= j < |keys| :: Truthy(d, keys[j]) ==> j in r
    ensures forall a, b | 0 <= a < b < |r| :: r[a] < r[b]
  {
    var flags := seq(|keys|, j requires 0 <= j < |keys| => Truthy(d, keys[j]));
    var r := SetFrom(flags, 0);
    PositionsBound(r, |keys|);
    SetFromCovers(flags, 0);
    r
  }

  /**
   * format_final_summary: one line per truthy key, in the fixed order, and
   * no other line.
   */
  function FormatFinalSummary(d: Items): (r: seq<SummaryLine>)
    ensures |r| <= |FinalKeys|
    ensures forall a | 0 <= a < |r| :: r[a].field < |FinalKeys| && Truthy(d, FinalKeys[r[a].field]) && r[a] == LineOf(d, r[a].field)
    ensures forall j | 0 <= j < |FinalKeys| :: Truthy(d, FinalKeys[j]) <==> exists a | 0 <= a < |r| :: r[a].field == j
    ensures forall a, b | 0 <= a < b < |r| :: r[a].field < r[b].field
  {
    var fields := TruthyPositions(d, FinalKeys);
    var r := seq(|fields|, a requires 0 <= a < |fields| => LineOf(d, fields[a]));
    assert forall a | 0 <= a < |r| :: r[a].field == fields[a];
    r
  }
}

=== FILE: swissre.dfy ===
/*
 * The quotation run against the insurer's site (app/bot/swissre_melhorado.py):
 * the values typed into the animal item form, and the order of the steps of
 * `gerar_cotacao` with the cleanup that always follows them.
 *
 * The browser is not modelled. What the site does is a parameter: whether
 * the driver starts, at which login attempts the logged-in page shows, and
 * whether each later step gets through its clicks.
 */
module SwissRe {
  import opened Wrappers
  import opened Text
  import opened Fields
  import Cep
  import OrderedDict
  import BotCollector

  // ------------------------------------------------------------ form values

  /** `_extrair_cep`: the first `\d{5}-?\d{3}` match with its hyphen deleted, or None. */
  function ExtractCep(address: string): (r: Option<string>)
    ensures r.None? <==> Cep.Search(address).None?
    ensures r.Some? ==> |r.value| == 8 && AllDigits(r.value)
    ensures r.Some? ==> r.value == Cep.Unhyphenated(Cep.Search(address).value)
  {
    match Cep.Search(address)
    case None => None
    case Some(m) =>
      HyphenDeleted(m);
      Some(Replace(m, "-", []))
  }

  /** Deleting the hyphen of a CEP match leaves its eight digits. */
  lemma HyphenDeleted(m: string)
    requires Cep.CepShaped(m)
    ensures Replace(m, "-", []) == Cep.Unhyphenated(m)
  {
    var r := Replace(m, "-", []);
    assert Digits("-") == [];
    DigitsOfDeletion(m, "-");
    DeletionKeepsChars(m, "-");
    DeleteChar(m, '-');
    ContainsCharAt(r, '-');
    forall i | 0 <= i < |r| ensures IsDigit(r[i]) {
      assert r[i] in m;
      var j :| 0 <= j < |m| && m[j] == r[i];
      if |m| == 9 && j != 5 {
        if j < 5 {
          assert m[j] == m[..5][j];
        } else {
          assert m[j] == m[6..][j - 6];
        }
      }
    }
    assert Digits(r) == r;
    if |m| == 9 {
      assert m == m[..5] + "-" + m[6..];
      DigitsAppend(m[..5] + "-", m[6..]);
      DigitsAppend(m[..5], "-");
    }
  }

  /** The CEP typed into the form when the address holds none. */
  const DefaultCep := "76280000"

  /** `cep or "76280000"`: always eight digits. */
  function CepField(address: string): (r: string)
    ensures |r| == 8 && AllDigits(r)
    ensures Cep.Search(address).None? ==> r == DefaultCep
    ensures Cep.Search(address).Some? ==> r == Cep.Unhyphenated(Cep.Search(address).value)
  {
    ExtractCep(address).UnwrapOr(DefaultCep)
  }

  /** The birth date as typed: `data_nascimento.replace('/', '')`. */
  function BirthDate(date: string): (r: string)
    ensures '/' !in r
    ensures Digits(r) == Digits(date)
    ensures forall c | c in r :: c in date
  {
    assert Digits("/") == [];
    DigitsOfDeletion(date, "/");
    DeletionKeepsChars(date, "/");
    DeleteChar(date, '/');
    ContainsCharAt(Replace(date, "/", []), '/');
    Replace(date, "/", [])
  }

  /** A date written DD/MM/AAAA is typed as DDMMAAAA. */
  lemma BirthDateOfSlashed(date: string)
    requires |date| == 10 && date[2] == '/' && date[5] == '/'
    requires AllDigits(date[..2]) && AllDigits(date[3..5]) && AllDigits(date[6..])
    ensures BirthDate(date) == date[..2] + date[3..5] + date[6..]
  {
    var r := BirthDate(date);
    forall i | 0 <= i < |r| ensures IsDigit(r[i]) {
      assert r[i] in r;
      var j :| 0 <= j < |date| && date[j] == r[i];
      if j < 2 {
        assert date[j] == date[..2][j];
      } else if 2 < j < 5 {
        assert date[j] == date[3..5][j - 3];
      } else if j > 5 {
        assert date[j] == date[6..][j - 6];
      }
    }
    assert date == date[..2] + "/" + date[3..5] + "/" + date[6..];
    DigitsAppend(date[..2] + "/" + date[3..5] + "/", date[6..]);
    DigitsAppend(date[..2] + "/" + date[3..5], "/");
    DigitsAppend(date[..2] + "/", date[3..5]);
    DigitsAppend(date[..2], "/");
  }

  const Femea := "2 - Fêmea"
  const Inteiro := "1 - Inteiro"
  const Castrado := "3 - Castrado"

  /** `sexo_map`: both spellings of fêmea, inteiro and castrado. */
  const SexoMap: map<string, string> :=
    map["fêmea" := Femea, "femea" := Femea, "inteiro" := Inteiro, "castrado" := Castrado]

  /** `sexo_map.get(sexo.lower(), '2 - Fêmea')`: anything unknown is a mare. */
  function SexoOption(sexo: string): (r: string)
    ensures r == Inteiro <==> LowerStr(sexo) == "inteiro"
    ensures r == Castrado <==> LowerStr(sexo) == "castrado"
    ensures r == Femea <==> LowerStr(sexo) != "inteiro" && LowerStr(sexo) != "castrado"
  {
    var key := LowerStr(sexo);
    if key in SexoMap then SexoMap[key] else Femea
  }

  /** The keys of the animal data the form reads, in the order it reads them. */
  const FormKeys: seq<string> := ["nome_animal", "registro_passaporte", "data_nascimento", "sexo", "endereco_cocheira"]

  /** What `adicionar_item_animal` types and selects in the item form. */
  datatype Form = Form(
    name: string, registro: string, birthDate: string,
    utilizacao: string, raca: string, sexo: string,
    plano: string, afinidade: string,
    cep: string, address: string, number: string, district: string)

  /**
   * The form for the animal data, or None when a key it reads is absent
   * (the KeyError the step catches). Use, breed, plan and affinity are fixed
   * options, as are the street, the number and the district.
   */
  function AnimalForm(dados: Data): (r: Option<Form>)
    ensures r.None? <==> exists i | 0 <= i < |FormKeys| :: FormKeys[i] !in dados
    ensures r.Some? ==> |r.value.cep| == 8 && AllDigits(r.value.cep) && '/' !in r.value.birthDate
    ensures r.Some? ==> "nome_animal" in dados && r.value.name == dados["nome_animal"]
    ensures r.Some? ==> "registro_passaporte" in dados && r.value.registro == dados["registro_passaporte"]
    ensures r.Some? ==> r.value.sexo in {Femea, Inteiro, Castrado}
  {
    if "nome_animal" !in dados then assert FormKeys[0] !in dados; None
    else if "registro_passaporte" !in dados then assert FormKeys[1] !in dados; None
    else if "data_nascimento" !in dados then assert FormKeys[2] !in dados; None
    else if "sexo" !in dados then assert FormKeys[3] !in dados; None
    else if "endereco_cocheira" !in dados then assert FormKeys[4] !in dados; None
    else
      Some(Form(
        dados["nome_animal"], dados["registro_passaporte"], BirthDate(dados["data_nascimento"]),
        "49 - Reprodução", "1022 - Quarto de Milha", SexoOption(dados["sexo"]),
        "99999 - Padrão", "26 - Padrão",
        CepField(dados["endereco_cocheira"]), "SITIO", "1", "ZONA RURAL"))
  }

  /** The form depends on the five keys it reads only: breed, use and value never reach the site. */
  lemma FormReadsFiveKeys(a: Data, b: Data)
    requires forall i | 0 <= i < |FormKeys| :: (FormKeys[i] in a <==> FormKeys[i] in b)
    requires forall i | 0 <= i < |FormKeys| && FormKeys[i] in a :: a[FormKeys[i]] == b[FormKeys[i]]
    ensures AnimalForm(a) == AnimalForm(b)
  {
    assert FormKeys[0] == "nome_animal" && FormKeys[1] == "registro_passaporte";
    assert FormKeys[2] == "data_nascimento" && FormKeys[3] == "sexo" && FormKeys[4] == "endereco_cocheira";
  }

  // ------------------------------------------------------------ the session

  /** The cotador's state: whether a browser is open, and `logged_in`. */
  datatype Session = Session(driver: bool, loggedIn: bool)

  /** `SwissReCotador()`. */
  const Fresh := Session(false, false)

  /** Logged in only with a browser open, as every state the cotador reaches. */
  predicate Consistent(s: Session) {
    s.loggedIn ==> s.driver
  }

  /** `cleanup`: close an open browser and forget the login; without a browser nothing changes. */
  function Cleanup(s: Session): (r: Session)
    ensures !r.driver
    ensures Consistent(s) ==> r == Fresh
  {
    if s.driver then Session(false, false) else s
  }

  /** What the site does on this run. */
  datatype Site = Site(driverStarts: bool, reaches: nat -> bool, stepOk: Step -> bool)

  const MaxLoginAttempts := 3

  /** The login loop from attempt `tried + 1`: every attempt that does not reach the logged-in page leads to the next. */
  function LoginFrom(reaches: nat -> bool, tried: nat): (r: (bool, nat))
    requires tried <= MaxLoginAttempts
    ensures tried <= r.1 <= MaxLoginAttempts
    ensures r.0 <==> exists k | tried < k <= MaxLoginAttempts :: reaches(k)
    ensures r.0 ==> reaches(r.1) && forall k | tried < k < r.1 :: !reaches(k)
    ensures !r.0 ==> r.1 == MaxLoginAttempts
    decreases MaxLoginAttempts - tried
  {
    if tried == MaxLoginAttempts then (false, tried)
    else if reaches(tried + 1) then (true, tried + 1)
    else LoginFrom(reaches, tried + 1)
  }

  /**
   * `login_swissre`: start a browser when there is none (failing at once if
   * it does not start), then up to three attempts. The result is the new
   * session, whether it logged in, and the attempts made.
   */
  function LoginSwissre(s: Session, site: Site): (r: (Session, bool, nat))
    ensures r.2 <= MaxLoginAttempts
    ensures r.1 <==> (s.driver || site.driverStarts) && exists k | 0 < k <= MaxLoginAttempts :: site.reaches(k)
    ensures r.1 ==> r.0 == Session(true, true)
    ensures !r.1 ==> r.0.loggedIn == s.loggedIn
    ensures Consistent(s) ==> Consistent(r.0)
  {
    if !s.driver && !site.driverStarts then (s, false, 0)
    else
      var (ok, attempts) := LoginFrom(site.reaches, 0);
      (Session(true, s.loggedIn || ok), ok, attempts)
  }

  // -------------------------------------------------------------- the steps

  datatype Step = Login | Navigate | SelectType | FillContract | AddAnimal

  /** The steps of `gerar_cotacao`, in order. */
  const Steps: seq<Step> := [Login, Navigate, SelectType, FillContract, AddAnimal]

  /** The message `gerar_cotacao` returns when the step fails. */
  function FailureMessage(step: Step): string {
    match step
    case Login => "Erro no login"
    case Navigate => "Erro ao navegar para cotação"
    case SelectType => "Erro ao selecionar tipo de cotação"
    case FillContract => "Erro ao preencher dados contratuais"
    case AddAnimal => "Erro ao adicionar dados do animal"
  }

  const Done := "Cotação gerada com sucesso"

  /** Each step's failure message is its own. */
  lemma FailureMessagesDistinct(a: Step, b: Step)
    requires a != b
    ensures FailureMessage(a) != FailureMessage(b)
  {
  }

  /** One step run in the session: whether it got through, and the session after it. */
  function Perform(site: Site, dados: Data, s: Session, step: Step): (bool, Session) {
    match step
    case Login => var (s', ok, _) := LoginSwissre(s, site); (ok, s')
    case Navigate => (s.loggedIn && site.stepOk(Navigate), s)
    case AddAnimal => (AnimalForm(dados).Some? && site.stepOk(AddAnimal), s)
    case _ => (site.stepOk(step), s)
  }

  /**
   * Whether a step gets through when every step before it did. The guard of
   * `navegar_para_cotacao` on `logged_in` never decides: the login before it
   * succeeded.
   */
  predicate Passes(site: Site, dados: Data, start: Session, step: Step) {
    match step
    case Login => LoginSwissre(start, site).1
    case AddAnimal => AnimalForm(dados).Some? && site.stepOk(AddAnimal)
    case _ => site.stepOk(step)
  }

  /**
   * `gerar_cotacao`: the steps in order, stopping at the first that fails
   * with its message, and `cleanup` in any case. It never leaves a browser
   * open, and from a consistent session it leaves the fresh one.
   */
  method GerarCotacao(site: Site, dados: Data, start: Session) returns (success: bool, message: string, finish: Session)
    ensures success <==> forall i | 0 <= i < |Steps| :: Passes(site, dados, start, Steps[i])
    ensures success ==> message == Done
    ensures !success ==> exists i | 0 <= i < |Steps| ::
                           && !Passes(site, dados, start, Steps[i])
                           && (forall j | 0 <= j < i :: Passes(site, dados, start, Steps[j]))
                           && message == FailureMessage(Steps[i])
    ensures !finish.driver
    ensures Consistent(start) ==> finish == Fresh
  {
    var session := start;
    var i := 0;
    while i < |Steps|
      invariant 0 <= i <= |Steps|
      invariant forall j | 0 <= j < i :: Passes(site, dados, start, Steps[j])
      invariant i == 0 ==> session == start
      invariant i > 0 ==> session == Session(true, true)
    {
      var (ok, after) := Perform(site, dados, session, Steps[i]);
      session := after;
      if !ok {
        return false, FailureMessage(Steps[i]), Cleanup(session);
      }
      i := i + 1;
    }
    return true, Done, Cleanup(session);
  }

  /** `executar_cotacao_swissre`: a fresh cotador's run; no PDF is ever produced. */
  method ExecutarCotacaoSwissre(site: Site, dados: Data) returns (success: bool, message: string, pdfPath: Option<string>)
    ensures pdfPath.None?
    ensures success <==> forall i | 0 <= i < |Steps| :: Passes(site, dados, Fresh, Steps[i])
    ensures success ==> message == Done
    ensures !success ==> exists i | 0 <= i < |Steps| ::
                           && !Passes(site, dados, Fresh, Steps[i])
                           && (forall j | 0 <= j < i :: Passes(site, dados, Fresh, Steps[j]))
                           && message == FailureMessage(Steps[i])
  {
    var finish;
    success, message, finish := GerarCotacao(site, dados, Fresh);
    pdfPath := None;
  }

  /**
   * The data the overwriting collector formats for the quotation always holds
   * the five keys the form reads, so the animal step never fails on a
   * missing key with it.
   */
  lemma CollectorDataFillsForm(d: OrderedDict.Items, phone: string, timestamp: string)
    ensures AnimalForm(BotCollector.FormattedForSwissre(d, phone, timestamp)).Some?
  {
    var r := BotCollector.FormattedForSwissre(d, phone, timestamp);
    assert BotCollector.Schema[0].key == FormKeys[0] && BotCollector.Schema[2].key == FormKeys[1];
    assert BotCollector.Schema[4].key == FormKeys[2] && BotCollector.Schema[5].key == FormKeys[3];
    assert BotCollector.Schema[7].key == FormKeys[4];
    assert forall i | 0 <= i < |FormKeys| :: BotCollector.Known(FormKeys[i]);
  }
}

=== FILE: text.dfy ===
/*
 * The Python `str` operations the bot relies on, over Dafny strings
 * (sequences of Unicode scalar values).
 *
 * Case mapping covers ASCII and the Latin-1 letters (the accented letters of
 * Portuguese); whitespace is exactly Python's `str.isspace` set; a digit is
 * an ASCII digit.
 */
module Text {
  import opened Wrappers

  // ---------------------------------------------------------------- characters

  /** An ASCII digit: the model of regex `\d` and of `str.isdigit`. */
  predicate IsDigit(c: char) {
    '0' <= c <= '9'
  }

  predicate AllDigits(s: string) {
    forall i | 0 <= i < |s| :: IsDigit(s[i])
  }

  /** Python's `str.isspace`: the characters `str.strip()` removes. */
  predicate IsSpace(c: char) {
    c == ' ' || ('\t' <= c <= '\r') || ('\U{1C}' <= c <= '\U{1F}')
    || c == '\U{85}' || c == '\U{A0}' || c == '\U{1680}'
    || ('\U{2000}' <= c <= '\U{200A}') || c == '\U{2028}' || c == '\U{2029}'
    || c == '\U{202F}' || c == '\U{205F}' || c == '\U{3000}'
  }

  predicate IsUpper(c: char) {
    ('A' <= c <= 'Z') || ('\U{C0}' <= c <= '\U{DE}' && c != '\U{D7}')
  }

  predicate IsLower(c: char) {
    ('a' <= c <= 'z') || ('\U{E0}' <= c <= '\U{FE}' && c != '\U{F7}')
  }

  predicate IsCased(c: char) {
    IsUpper(c) || IsLower(c)
  }

  function Lower(c: char): (r: char)
    ensures !IsUpper(r)
    ensures IsUpper(c) ==> IsLower(r)
    ensures !IsUpper(c) ==> r == c
  {
    if IsUpper(c) then (c as int + 32) as char else c
  }

  function Upper(c: char): (r: char)
    ensures !IsLower(r)
    ensures IsLower(c) ==> IsUpper(r)
    ensures !IsLower(c) ==> r == c
  {
    if IsLower(c) then (c as int - 32) as char else c
  }

  /** Lowering then uppercasing gives back every uppercase letter. */
  lemma UpperOfLower(c: char)
    ensures IsUpper(c) ==> Upper(Lower(c)) == c
    ensures IsCased(Lower(c)) <==> IsCased(c)
  {
  }

  // ------------------------------------------------------------------- strings

  /** `str.lower()`. */
  function LowerStr(s: string): (r: string)
    ensures |r| == |s|
    ensures forall i | 0 <= i < |s| :: r[i] == Lower(s[i])
  {
    if s == [] then [] else [Lower(s[0])] + LowerStr(s[1..])
  }

  /** `str.upper()`. */
  function UpperStr(s: string): (r: string)
    ensures |r| == |s|
    ensures forall i | 0 <= i < |s| :: r[i] == Upper(s[i])
  {
    if s == [] then [] else [Upper(s[0])] + UpperStr(s[1..])
  }

  lemma UpperStrIdempotent(s: string)
    ensures UpperStr(UpperStr(s)) == UpperStr(s)
  {
  }

  /** The digits of `s`, in order: `re.sub(r'\D', '', s)`, `''.join(filter(str.isdigit, s))`. */
  function Digits(s: string): (r: string)
    ensures AllDigits(r)
    ensures |r| <= |s|
    ensures AllDigits(s) ==> r == s
  {
    if s == [] then []
    else (if IsDigit(s[0]) then [s[0]] else []) + Digits(s[1..])
  }

  lemma {:induction false} DigitsAppend(a: string, b: string)
    ensures Digits(a + b) == Digits(a) + Digits(b)
    decreases |a|
  {
    if a == [] {
      assert a + b == b;
    } else {
      assert (a + b)[1..] == a[1..] + b;
      DigitsAppend(a[1..], b);
    }
  }

  /** Removing a digit-free piece of text never changes the digits that remain. */
  lemma DigitsFree(s: string)
    ensures (forall i | 0 <= i < |s| :: !IsDigit(s[i])) <==> Digits(s) == []
  {
    if s != [] {
      DigitsFree(s[1..]);
    }
  }

  /** Keeping the digits twice is keeping them once. */
  lemma DigitsIdempotent(s: string)
    ensures Digits(Digits(s)) == Digits(s)
  {
  }

  /** Python's `str.lstrip()`. */
  function LStrip(s: string): (r: string)
    ensures |r| <= |s| && r == s[|s| - |r|..]
    ensures r == [] || !IsSpace(r[0])
    ensures forall i | 0 <= i < |s| - |r| :: IsSpace(s[i])
    ensures s == [] || !IsSpace(s[0]) ==> r == s
  {
    if |s| > 0 && IsSpace(s[0]) then LStrip(s[1..]) else s
  }

  /** Python's `str.rstrip()`. */
  function RStrip(s: string): (r: string)
    ensures |r| <= |s| && r == s[..|r|]
    ensures r == [] || !IsSpace(r[|r| - 1])
    ensures forall i | |r| <= i < |s| :: IsSpace(s[i])
    ensures s == [] || !IsSpace(s[|s| - 1]) ==> r == s
  {
    if |s| > 0 && IsSpace(s[|s| - 1]) then RStrip(s[..|s| - 1]) else s
  }

  /** Python's `str.strip()`: the text between the leading and the trailing whitespace. */
  function Strip(s: string): (r: string)
    ensures |r| <= |s|
    ensures r == [] || (!IsSpace(r[0]) && !IsSpace(r[|r| - 1]))
    ensures r == [] <==> forall i | 0 <= i < |s| :: IsSpace(s[i])
  {
    var l := LStrip(s);
    RStrip(l)
  }

  /** Text without surrounding whitespace is its own strip. */
  lemma StripTrimmed(s: string)
    requires s == [] || (!IsSpace(s[0]) && !IsSpace(s[|s| - 1]))
    ensures Strip(s) == s
  {
  }

  lemma StripIdempotent(s: string)
    ensures Strip(Strip(s)) == Strip(s)
  {
    StripTrimmed(Strip(s));
  }

  /** Python's `str.title()`, scanning with "the previous character is cased". */
  function TitleFrom(s: string, previousCased: bool): (r: string)
    ensures |r| == |s|
  {
    if s == [] then []
    else [if previousCased then Lower(s[0]) else Upper(s[0])] + TitleFrom(s[1..], IsCased(s[0]))
  }

  function Title(s: string): (r: string)
    ensures |r| == |s|
  {
    TitleFrom(s, false)
  }

  /** Each character of `title()` depends only on whether its left neighbour is cased. */
  lemma {:induction false} TitleFromAt(s: string, previousCased: bool, i: nat)
    requires i < |s|
    ensures TitleFrom(s, previousCased)[i]
         == (if (if i == 0 then previousCased else IsCased(s[i - 1])) then Lower(s[i]) else Upper(s[i]))
    decreases i
  {
    if i > 0 {
      TitleFromAt(s[1..], IsCased(s[0]), i - 1);
    }
  }

  lemma TitleAt(s: string, i: nat)
    requires i < |s|
    ensures Title(s)[i] == (if i > 0 && IsCased(s[i - 1]) then Lower(s[i]) else Upper(s[i]))
  {
    TitleFromAt(s, false, i);
  }

  predicate StartsWith(s: string, prefix: string) {
    |prefix| <= |s| && s[..|prefix|] == prefix
  }

  /** Python's `sub in s`. */
  predicate Contains(s: string, sub: string)
    decreases |s|
  {
    StartsWith(s, sub) || (|s| > 0 && Contains(s[1..], sub))
  }

  /** `any(k in s for k in keywords)`. */
  predicate ContainsAny(s: string, keywords: seq<string>) {
    exists i | 0 <= i < |keywords| :: Contains(s, keywords[i])
  }

  /** Python's `s.replace(old, new)`: every non-overlapping occurrence, left to right. */
  function Replace(s: string, target: string, replacement: string): (r: string)
    requires target != []
    decreases |s|
  {
    if s == [] then []
    else if StartsWith(s, target) then replacement + Replace(s[|target|..], target, replacement)
    else [s[0]] + Replace(s[1..], target, replacement)
  }

  /** Replacing one character by another touches exactly the positions holding it. */
  lemma {:induction false} ReplaceChar(s: string, a: char, b: char)
    ensures |Replace(s, [a], [b])| == |s|
    ensures forall i | 0 <= i < |s| :: Replace(s, [a], [b])[i] == (if s[i] == a then b else s[i])
    decreases |s|
  {
    if s != [] {
      ReplaceChar(s[1..], a, b);
    }
  }

  /** Deleting a character removes every occurrence of it. */
  lemma {:induction false} DeleteChar(s: string, a: char)
    ensures !Contains(Replace(s, [a], []), [a])
    ensures |Replace(s, [a], [])| <= |s|
    decreases |s|
  {
    if s != [] {
      DeleteChar(s[1..], a);
      var rest := Replace(s[1..], [a], []);
      assert StartsWith(s, [a]) <==> s[0] == a by {
        assert s[..1] == [s[0]];
      }
      if s[0] == a {
        assert Replace(s, [a], []) == rest;
      } else {
        assert Replace(s, [a], []) == [s[0]] + rest;
        NotContainsCons(s[0], rest, a);
      }
    }
  }

  lemma NotContainsCons(c: char, s: string, a: char)
    requires c != a && !Contains(s, [a])
    ensures !Contains([c] + s, [a])
  {
    assert ([c] + s)[1..] == s;
    assert ([c] + s)[..1] == [c];
  }

  /** `a in s` for one character: some position holds it. */
  lemma {:induction false} ContainsCharAt(s: string, a: char)
    ensures Contains(s, [a]) <==> exists i | 0 <= i < |s| :: s[i] == a
    decreases |s|
  {
    if s != [] {
      ContainsCharAt(s[1..], a);
      assert StartsWith(s, [a]) <==> s[0] == a by {
        assert s[..1] == [s[0]];
      }
      assert forall i | 1 <= i < |s| :: s[1..][i - 1] == s[i];
    }
  }

  /** Deleting a piece of text brings in no new character. */
  lemma {:induction false} DeletionKeepsChars(s: string, target: string)
    requires target != []
    ensures forall c | c in Replace(s, target, []) :: c in s
    decreases |s|
  {
    if s != [] {
      if StartsWith(s, target) {
        DeletionKeepsChars(s[|target|..], target);
        assert forall c | c in s[|target|..] :: c in s;
      } else {
        DeletionKeepsChars(s[1..], target);
        assert forall c | c in s[1..] :: c in s;
      }
    }
  }

  /** Replacing one non-digit by another keeps the digits. */
  lemma {:induction false} ReplaceKeepsDigits(s: string, a: char, b: char)
    requires !IsDigit(a) && !IsDigit(b)
    ensures Digits(Replace(s, [a], [b])) == Digits(s)
    decreases |s|
  {
    if s != [] {
      ReplaceKeepsDigits(s[1..], a, b);
      assert StartsWith(s, [a]) <==> s[0] == a by {
        assert s[..1] == [s[0]];
      }
      assert s == [s[0]] + s[1..];
      DigitsAppend([s[0]], s[1..]);
      if s[0] == a {
        assert Replace(s, [a], [b]) == [b] + Replace(s[1..], [a], [b]);
        DigitsAppend([b], Replace(s[1..], [a], [b]));
      } else {
        assert Replace(s, [a], [b]) == [s[0]] + Replace(s[1..], [a], [b]);
        DigitsAppend([s[0]], Replace(s[1..], [a], [b]));
      }
    }
  }

  /** Deleting a piece of text that holds no digit leaves the digits alone. */
  lemma {:induction false} DigitsOfDeletion(s: string, target: string)
    requires target != [] && Digits(target) == []
    ensures Digits(Replace(s, target, [])) == Digits(s)
    decreases |s|
  {
    if s != [] {
      if StartsWith(s, target) {
        assert s == s[..|target|] + s[|target|..];
        assert Replace(s, target, []) == Replace(s[|target|..], target, []);
        DigitsAppend(target, s[|target|..]);
        DigitsOfDeletion(s[|target|..], target);
      } else {
        assert s == [s[0]] + s[1..];
        DigitsAppend([s[0]], s[1..]);
        DigitsAppend([s[0]], Replace(s[1..], target, []));
        DigitsOfDeletion(s[1..], target);
      }
    }
  }

  // --------------------------------------------------------- decimal numerals

  function DigitChar(d: nat): (c: char)
    requires d < 10
    ensures IsDigit(c)
  {
    ('0' as int + d) as char
  }

  function DigitValue(c: char): (d: nat)
    requires IsDigit(c)
    ensures d < 10 && DigitChar(d) == c
  {
    c as int - '0' as int
  }

  /** Python's `str(n)` for a natural number. */
  function NatToString(n: nat): (r: string)
    ensures |r| > 0 && AllDigits(r)
  {
    if n < 10 then [DigitChar(n)] else NatToString(n / 10) + [DigitChar(n % 10)]
  }

  /** The value of a string of decimal digits (the empty string reads as 0). */
  function DigitsToNat(s: string): nat
    requires AllDigits(s)
  {
    if s == [] then 0 else DigitsToNat(s[..|s| - 1]) * 10 + DigitValue(s[|s| - 1])
  }

  /** Reading back a rendered number gives the number. */
  lemma {:induction false} NatToStringRoundTrip(n: nat)
    ensures DigitsToNat(NatToString(n)) == n
  {
    if n >= 10 {
      var s := NatToString(n);
      assert s[..|s| - 1] == NatToString(n / 10);
      NatToStringRoundTrip(n / 10);
    }
  }

  /** Distinct numbers render as distinct strings. */
  lemma NatToStringInjective(a: nat, b: nat)
    ensures NatToString(a) == NatToString(b) <==> a == b
  {
    NatToStringRoundTrip(a);
    NatToStringRoundTrip(b);
  }

  /** Zero-padded two-digit rendering (`%d`, `%m` in strftime). */
  function Pad2(n: nat): (r: string)
    requires n < 100
    ensures |r| == 2 && AllDigits(r) && DigitsToNat(r) == n
  {
    var r := [DigitChar(n / 10), DigitChar(n % 10)];
    assert r[..1] == [DigitChar(n / 10)];
    assert r[..1][..0] == [];
    assert DigitValue(r[0]) == n / 10 && DigitValue(r[1]) == n % 10;
    assert DigitsToNat(r[..1]) == n / 10;
    assert DigitsToNat(r) == DigitsToNat(r[..1]) * 10 + DigitValue(r[1]);
    r
  }

  /** The digit body of a Python integer literal: digits, single underscores only between digits. */
  predicate IntBody(s: string) {
    |s| > 0 && IsDigit(s[0]) && IsDigit(s[|s| - 1])
    && (forall i | 0 <= i < |s| :: IsDigit(s[i]) || s[i] == '_')
    && (forall i | 0 <= i < |s| - 1 :: s[i] == '_' ==> s[i + 1] != '_')
  }

  /**
   * Python's `int(s)` for a `str`: surrounding whitespace, an optional sign,
   * and underscores between digits are accepted; `None` where Python raises
   * ValueError.
   */
  function ParseInt(s: string): (r: Option<int>)
    ensures r.Some? <==> (var t := Strip(s);
                          IntBody(t) || (|t| > 0 && (t[0] == '+' || t[0] == '-') && IntBody(t[1..])))
  {
    var t := Strip(s);
    var signed := |t| > 0 && (t[0] == '+' || t[0] == '-');
    var body := if signed then t[1..] else t;
    if !IntBody(body) then None
    else
      var magnitude: int := DigitsToNat(Digits(body));
      Some(if signed && t[0] == '-' then -magnitude else magnitude)
  }

  /** `int(str(n)) == n`. */
  lemma ParseIntOfNatToString(n: nat)
    ensures ParseInt(NatToString(n)) == Some(n)
  {
    var s := NatToString(n);
    assert !IsSpace(s[0]) && !IsSpace(s[|s| - 1]);
    StripTrimmed(s);
    assert IntBody(s);
    assert !(s[0] == '+' || s[0] == '-');
    assert Digits(s) == s;
    NatToStringRoundTrip(n);
  }
}

=== FILE: ultramsg.dfy ===
/*
 * ultramsg_integration.py: the phone formatting, the retrying request, the
 * bulk send and the Twilio-style adapter's choice of message kind.
 *
 * The network is a parameter: `outcome(n)` is what the n-th attempt of a
 * request meets (0 for the first try). URL quoting of the payload, the
 * sleeps between attempts and the logging are not modelled.
 */
module UltraMsg {
  import opened Wrappers
  import opened Text

  // ------------------------------------------------------------------ phone

  /** Removing the Twilio prefix, the '+' and surrounding whitespace leaves the digits as they were. */
  lemma CleaningKeepsDigits(phone: string)
    ensures Digits(Strip(Replace(Replace(phone, "whatsapp:", ""), "+", ""))) == Digits(phone)
  {
    var s1 := Replace(phone, "whatsapp:", "");
    DigitsFree("whatsapp:");
    DigitsOfDeletion(phone, "whatsapp:");
    var s2 := Replace(s1, "+", "");
    DigitsFree("+");
    DigitsOfDeletion(s1, "+");
    StripKeepsDigits(s2);
  }

  lemma SpaceIsNoDigit(s: string)
    requires forall i | 0 <= i < |s| :: IsSpace(s[i])
    ensures Digits(s) == []
  {
    DigitsFree(s);
  }

  lemma LStripKeepsDigits(s: string)
    ensures Digits(LStrip(s)) == Digits(s)
  {
    var l := LStrip(s);
    var k := |s| - |l|;
    assert s == s[..k] + l;
    DigitsAppend(s[..k], l);
    SpaceIsNoDigit(s[..k]);
  }

  lemma RStripKeepsDigits(s: string)
    ensures Digits(RStrip(s)) == Digits(s)
  {
    var r := RStrip(s);
    assert s == r + s[|r|..];
    DigitsAppend(r, s[|r|..]);
    SpaceIsNoDigit(s[|r|..]);
  }

  lemma StripKeepsDigits(s: string)
    ensures Digits(Strip(s)) == Digits(s)
  {
    LStripKeepsDigits(s);
    RStripKeepsDigits(LStrip(s));
  }

  /** The digits _format_phone_number works on. */
  function CleanPhone(phone: string): (r: string)
    ensures r == Digits(phone)
  {
    CleaningKeepsDigits(phone);
    Digits(Strip(Replace(Replace(phone, "whatsapp:", ""), "+", "")))
  }

  /** The country-code rules on the digits: "55" in front unless the number is São Paulo's or already has it. */
  function WithCountryCode(d: string): (r: string)
    requires AllDigits(d)
    ensures |r| >= 2 && r[..2] == "55" && AllDigits(r) && |d| <= |r|
    ensures |d| == 11 && StartsWith(d, "11") ==> r == "55" + d
    ensures |d| == 10 ==> r == "5511" + d
    ensures StartsWith(d, "55") && |d| != 10 ==> r == d
    ensures !StartsWith(d, "55") && |d| != 10 ==> r == "55" + d
  {
    if |d| == 11 && StartsWith(d, "11") then "55" + d
    else if |d| == 10 then "5511" + d
    else if !StartsWith(d, "55") then "55" + d
    else d
  }

  /** The '+' and the country-code rules on a string of digits. */
  function PlusCountryCode(d: string): (r: string)
    requires AllDigits(d)
    ensures |r| >= 3 && r[0] == '+' && r[1..3] == "55" && AllDigits(r[1..])
    ensures r[1..] == WithCountryCode(d)
    ensures Digits(r) == r[1..]
  {
    var full := WithCountryCode(d);
    var r := "+" + full;
    assert r[1..] == full && r[1..3] == full[..2];
    DigitsAppend("+", full);
    r
  }

  /**
   * _format_phone_number: keep the digits; an 11-digit number starting "11"
   * gains the country code, a 10-digit one gains "5511", any other lacking
   * "55" gains "55"; then a '+' in front.
   */
  function FormatPhoneNumber(phone: string): (r: string)
    ensures |r| >= 3 && r[0] == '+' && r[1..3] == "55" && AllDigits(r[1..])
    ensures r == "+" + WithCountryCode(Digits(phone))
    ensures Digits(r) == r[1..]
  {
    var r := PlusCountryCode(CleanPhone(phone));
    assert r == [r[0]] + r[1..];
    r
  }

  /**
   * Formatting is stable on its own output except when that output carries
   * ten digits: those read as a number without area code and gain "5511".
   */
  lemma FormatTwice(phone: string)
    ensures FormatPhoneNumber(FormatPhoneNumber(phone)) == FormatPhoneNumber(phone)
            <==> |FormatPhoneNumber(phone)| != 11
  {
    var r := FormatPhoneNumber(phone);
    var d := Digits(r);
    assert d == r[1..] && d[..2] == "55";
    assert StartsWith(d, "55");
    assert "+" + d == r;
    if |d| == 10 {
      assert |FormatPhoneNumber(r)| > |r|;
    }
  }

  /** An eight-digit local number without the country code is changed again by a second formatting. */
  lemma EightDigitsFormatTwice(s: string)
    requires AllDigits(s) && |s| == 8 && !StartsWith(s, "55")
    ensures FormatPhoneNumber(s)[..3] == "+55" && FormatPhoneNumber(s)[3..] == s
    ensures FormatPhoneNumber(FormatPhoneNumber(s)) != FormatPhoneNumber(s)
  {
    var w := WithCountryCode(Digits(s));
    assert Digits(s) == s;
    assert w == "55" + s;
    PlusFiftyFive(s);
    FormatTwice(s);
  }

  /** "+55" in front of a string, and how to take it apart again. */
  lemma PlusFiftyFive(s: string)
    ensures var r := "+" + ("55" + s); |r| == |s| + 3 && r[..3] == "+55" && r[3..] == s
  {
  }

  // ---------------------------------------------------------------- request

  const MaxRetries: nat := 3

  /** What one attempt met: an HTTP answer (with its body parsed as JSON, if it parses), a timeout or another request error. */
  datatype Attempt = Http(code: nat, text: string, json: Option<string>) | Timeout | RequestError(message: string)

  /** The `response` of a success: `{}` for an empty body, the parsed JSON, or `{"message": text}`. */
  datatype Body = EmptyObject | Document(json: string) | MessageOf(text: string)

  /** The dict `_make_request` returns. */
  datatype Outcome =
    | Succeeded(code: nat, body: Body, raw: string)
    | HttpFailed(code: nat, error: string, raw: string)
    | Failed(error: string)
  {
    predicate Success() { Succeeded? }
  }

  predicate IsOk(a: Attempt) {
    a.Http? && a.code == 200
  }

  /** What one attempt reports, before any retry. */
  function Report(a: Attempt): (r: Outcome)
    ensures r.Success() <==> IsOk(a)
    ensures r.Succeeded? && a.text == [] ==> r.body == EmptyObject
  {
    match a
    case Http(code, text, json) =>
      if code == 200 then
        Succeeded(200, if text == [] then EmptyObject else if json.Some? then Document(json.value) else MessageOf(text), text)
      else HttpFailed(code, "HTTP " + NatToString(code) + ": " + text, text)
    case Timeout => Failed("Timeout na requisição")
    case RequestError(message) => Failed("Erro na requisição: " + message)
  }

  /**
   * _make_request from the `retries`-th attempt on: a 200 answer is
   * reported at once; any failure is retried while fewer than MaxRetries
   * retries have been made, and reported otherwise. The second component is
   * the number of attempts made.
   */
  function MakeRequest(outcome: nat -> Attempt, retries: nat): (r: (Outcome, nat))
    ensures 1 <= r.1 && (retries <= MaxRetries ==> retries + r.1 <= MaxRetries + 1)
    ensures retries > MaxRetries ==> r.1 == 1
    ensures r.0 == Report(outcome(retries + r.1 - 1))
    ensures r.0.Success() <==> IsOk(outcome(retries + r.1 - 1))
    ensures forall j | retries <= j < retries + r.1 - 1 :: !IsOk(outcome(j))
    ensures !r.0.Success() ==> retries + r.1 - 1 >= MaxRetries
    decreases if retries < MaxRetries then MaxRetries - retries else 0
  {
    var here := Report(outcome(retries));
    if here.Success() || retries >= MaxRetries then (here, 1)
    else
      var (rest, n) := MakeRequest(outcome, retries + 1);
      (rest, n + 1)
  }

  /** A request succeeds exactly when one of the first four attempts meets a 200, and stops at the first such. */
  lemma {:induction false} RequestSucceedsIffSomeOk(outcome: nat -> Attempt)
    ensures MakeRequest(outcome, 0).0.Success() <==> exists j | 0 <= j <= MaxRetries :: IsOk(outcome(j))
    ensures MakeRequest(outcome, 0).0.Success() ==>
              forall j | 0 <= j < MakeRequest(outcome, 0).1 - 1 :: !IsOk(outcome(j))
  {
    var (res, n) := MakeRequest(outcome, 0);
    if exists j | 0 <= j <= MaxRetries :: IsOk(outcome(j)) {
      var j :| 0 <= j <= MaxRetries && IsOk(outcome(j));
    }
  }

  // ---------------------------------------------------------------- sending

  /** A send's dict: the request's outcome with `phone` (formatted) and `original_phone` added. */
  datatype Sent = Sent(outcome: Outcome, phone: string, originalPhone: string)

  /** send_text_message and the other send_* methods: format the phone, make the request, tag the result. */
  function Send(phone: string, outcome: nat -> Attempt): (r: Sent)
    ensures r.phone == FormatPhoneNumber(phone) && r.originalPhone == phone
    ensures r.outcome.Success() <==> exists j | 0 <= j <= MaxRetries :: IsOk(outcome(j))
  {
    RequestSucceedsIffSomeOk(outcome);
    Sent(MakeRequest(outcome, 0).0, FormatPhoneNumber(phone), phone)
  }

  /** One entry of a bulk send: `msg_data.get("phone")` and `msg_data.get("message")`. */
  datatype BulkEntry = BulkEntry(phone: Option<string>, message: Option<string>)

  predicate Present(v: Option<string>) {
    v.Some? && v.value != []
  }

  /** One bulk result: a send's dict, or the error dict of an entry without phone or message. */
  datatype BulkResult = Delivered(sent: Sent) | Incomplete(phone: Option<string>)

  /** The result of one bulk entry: the send's dict, or an error naming the entry's phone. */
  function ResultFor(e: BulkEntry, outcome: nat -> Attempt): (r: BulkResult)
    ensures r.Delivered? <==> Present(e.phone) && Present(e.message)
    ensures r.Delivered? ==> r.sent.originalPhone == e.phone.value
    ensures r.Incomplete? ==> r.phone == e.phone
  {
    if Present(e.phone) && Present(e.message) then Delivered(Send(e.phone.value, outcome))
    else Incomplete(e.phone)
  }

  /**
   * send_bulk_messages: one result per entry, in order; an entry without
   * both a phone and a message gets an error result and causes no send.
   * `network(i)` is what the i-th entry's request meets; `sends` lists the
   * sends made, in order.
   */
  method SendBulkMessages(entries: seq<BulkEntry>, network: nat -> (nat -> Attempt))
    returns (results: seq<BulkResult>, sends: seq<(string, string)>)
    ensures |results| == |entries|
    ensures forall i | 0 <= i < |entries| :: results[i] == ResultFor(entries[i], network(i))
    ensures sends == CompleteEntries(entries)
  {
    results := seq(|entries|, i requires 0 <= i < |entries| => ResultFor(entries[i], network(i)));
    sends := [];
    var i := 0;
    while i < |entries|
      invariant 0 <= i <= |entries|
      invariant sends == CompleteEntries(entries[..i])
    {
      var e := entries[i];
      BulkStep(entries, i);
      if Present(e.phone) && Present(e.message) {
        sends := sends + [(e.phone.value, e.message.value)];
      }
      i := i + 1;
    }
    assert entries[..i] == entries;
  }

  lemma BulkStep(entries: seq<BulkEntry>, i: nat)
    requires i < |entries|
    ensures CompleteEntries(entries[..i + 1])
            == CompleteEntries(entries[..i])
               + (if Present(entries[i].phone) && Present(entries[i].message) then [(entries[i].phone.value, entries[i].message.value)] else [])
  {
    assert entries[..i + 1] == entries[..i] + [entries[i]];
    CompleteEntriesAppend(entries[..i], entries[i]);
  }

  /** The (phone, message) pairs of the entries that have both, in order. */
  function CompleteEntries(entries: seq<BulkEntry>): (r: seq<(string, string)>)
    ensures |r| <= |entries|
  {
    if entries == [] then []
    else
      var e := entries[0];
      (if Present(e.phone) && Present(e.message) then [(e.phone.value, e.message.value)] else [])
      + CompleteEntries(entries[1..])
  }

  lemma {:induction false} CompleteEntriesAppend(entries: seq<BulkEntry>, e: BulkEntry)
    ensures CompleteEntries(entries + [e])
            == CompleteEntries(entries) + (if Present(e.phone) && Present(e.message) then [(e.phone.value, e.message.value)] else [])
  {
    if entries != [] {
      assert (entries + [e])[1..] == entries[1..] + [e];
      CompleteEntriesAppend(entries[1..], e);
    }
  }

  // ---------------------------------------------------------------- adapter

  /** Which UltraMsg call the adapter makes, with its arguments. */
  datatype Call =
    | Text(to: string, body: string)
    | Image(to: string, url: string, caption: string)
    | DocumentCall(to: string, url: string, filename: string, caption: string)
    | Audio(to: string, url: string)

  const ImageExtensions: seq<string> := [".jpg", ".jpeg", ".png", ".gif"]
  const DocumentExtensions: seq<string> := [".pdf", ".doc", ".docx"]
  const AudioExtensions: seq<string> := [".mp3", ".wav", ".ogg"]

  /**
   * TwilioToUltraMsgAdapter.send_message: with a media URL, the kind is
   * chosen by the first extension list with an entry anywhere in the
   * lowercased URL (image, then document, then audio); any other URL goes
   * as a document named "arquivo". Without media (None or ""), plain text.
   */
  function Dispatch(to: string, body: string, mediaUrl: Option<string>): (r: Call)
    ensures !Present(mediaUrl) <==> r == Text(to, body)
    ensures Present(mediaUrl) ==>
              var u := LowerStr(mediaUrl.value);
              && (r.Image? <==> ContainsAny(u, ImageExtensions))
              && (r.Audio? <==> !ContainsAny(u, ImageExtensions) && !ContainsAny(u, DocumentExtensions) && ContainsAny(u, AudioExtensions))
              && (r.DocumentCall? <==> !r.Image? && !r.Audio?)
              && (r.DocumentCall? ==> r.filename == (if ContainsAny(u, DocumentExtensions) then "documento.pdf" else "arquivo"))
              && (r.Image? ==> r == Image(to, mediaUrl.value, body))
              && (r.Audio? ==> r == Audio(to, mediaUrl.value))
              && (r.DocumentCall? ==> r.to == to && r.url == mediaUrl.value && r.caption == body)
  {
    if !Present(mediaUrl) then Text(to, body)
    else
      var u := LowerStr(mediaUrl.value);
      if ContainsAny(u, ImageExtensions) then Image(to, mediaUrl.value, body)
      else if ContainsAny(u, DocumentExtensions) then DocumentCall(to, mediaUrl.value, "documento.pdf", body)
      else if ContainsAny(u, AudioExtensions) then Audio(to, mediaUrl.value)
      else DocumentCall(to, mediaUrl.value, "arquivo", body)
  }
}

=== FILE: ultramsg_api.dfy ===
/*
 * app/integrations/ultramsg_api.py: the phone formatting and the shaping of
 * a request's result. The request's data is an ordered dict; what the POST
 * meets is a parameter. URL quoting and the latin-1 re-decoding of the
 * payload are not modelled.
 */
module UltraMsgApi {
  import opened Wrappers
  import opened Text
  import opened OrderedDict

  /** _format_phone: the digits, "55" in front unless already there, then '+'. */
  function FormatPhone(phone: string): (r: string)
    ensures |r| >= 3 && r[0] == '+' && r[1..3] == "55" && AllDigits(r[1..])
    ensures StartsWith(Digits(phone), "55") ==> r == "+" + Digits(phone)
    ensures !StartsWith(Digits(phone), "55") ==> r == "+55" + Digits(phone)
  {
    var d := Digits(phone);
    var withCode := if !StartsWith(d, "55") then "55" + d else d;
    // the digits never start with '+', so the '+' is always added
    assert |withCode| >= 2 && withCode[..2] == "55" && AllDigits(withCode);
    assert withCode[0] == '5' && "+"[0] == '+';
    assert !StartsWith(withCode, "+");
    if !StartsWith(withCode, "+") then "+" + withCode else withCode
  }

  /** The digits of a formatted number are the number without its '+'. */
  lemma DigitsOfFormatted(phone: string)
    ensures Digits(FormatPhone(phone)) == FormatPhone(phone)[1..]
  {
    var r := FormatPhone(phone);
    assert r == [r[0]] + r[1..];
    DigitsAppend([r[0]], r[1..]);
  }

  /** Formatting a formatted number changes nothing. */
  lemma FormatPhoneIdempotent(phone: string)
    ensures FormatPhone(FormatPhone(phone)) == FormatPhone(phone)
  {
    var r := FormatPhone(phone);
    DigitsOfFormatted(phone);
    assert StartsWith(Digits(r), "55");
    assert r == "+" + r[1..];
  }

  /** A number already written "+55" and digits is its own format. */
  lemma FormattedIsFixed(phone: string)
    requires |phone| >= 3 && phone[0] == '+' && phone[1..3] == "55" && AllDigits(phone[1..])
    ensures FormatPhone(phone) == phone
  {
    assert phone == [phone[0]] + phone[1..];
    DigitsAppend([phone[0]], phone[1..]);
    assert Digits(phone) == phone[1..];
    assert StartsWith(phone[1..], "55");
  }

  /** The body read as JSON: the document, or the message of the error `response.json()` raises. */
  datatype Json = Parsed(doc: string) | Unparsable(error: string)

  /** What the POST met: an HTTP answer, a timeout, a connection error, or another exception. */
  datatype Attempt =
    | Http(code: nat, text: string, json: Json)
    | Timeout
    | ConnectionError(message: string)
    | Unexpected(message: string)

  /** `{"success": True, "data": ...}` or `{"success": False, "error": ...}`. */
  datatype Outcome = Success(data: string) | Failure(error: string)

  /**
   * _make_request: the token is put into the caller's data (overwriting any
   * 'token' there); a 200 answer reports its parsed JSON (a body that
   * is not JSON makes `response.json()` raise a JSONDecodeError, which the
   * requests library, from version 2.27 on, makes a RequestException, so it
   * is reported as a connection error), any other status
   * reports "HTTP <code>: <text>", and each kind of exception its own
   * message. The first component is the data as sent.
   */
  function MakeRequest(token: string, data: Items, attempt: Attempt): (r: (Items, Outcome))
    ensures Lookup(r.0, "token") == Some(token)
    ensures forall k | k != "token" :: Lookup(r.0, k) == Lookup(data, k)
    ensures HasKey(data, "token") ==> KeyList(r.0) == KeyList(data)
    ensures !HasKey(data, "token") ==> KeyList(r.0) == KeyList(data) + ["token"]
    ensures r.1.Success? <==> attempt.Http? && attempt.code == 200 && attempt.json.Parsed?
    ensures r.1.Success? ==> r.1.data == attempt.json.doc
    ensures attempt.Http? && attempt.code != 200 ==> r.1 == Failure("HTTP " + NatToString(attempt.code) + ": " + attempt.text)
    ensures attempt.Timeout? ==> r.1 == Failure("Timeout na requisição")
    ensures attempt.Http? && attempt.code == 200 && attempt.json.Unparsable? ==> r.1 == Failure("Erro de conexão: " + attempt.json.error)
    ensures attempt.ConnectionError? ==> r.1 == Failure("Erro de conexão: " + attempt.message)
    ensures attempt.Unexpected? ==> r.1 == Failure("Erro inesperado: " + attempt.message)
  {
    var sent := Set(data, "token", token);
    var outcome := match attempt
      case Http(code, text, json) =>
        if code != 200 then Failure("HTTP " + NatToString(code) + ": " + text)
        else if json.Parsed? then Success(json.doc)
        else Failure("Erro de conexão: " + json.error)
      case Timeout => Failure("Timeout na requisição")
      case ConnectionError(message) => Failure("Erro de conexão: " + message)
      case Unexpected(message) => Failure("Erro inesperado: " + message);
    (sent, outcome)
  }
}

=== FILE: utils_collector.dfy ===
/*
 * The guarded collector of the eight horse fields
 * (app/utils/animal_data_collector.py): a field is written only while it is
 * empty, each from the first pattern hit that passes its check; the
 * collector reports which fields it wrote, which are still missing, and
 * hands the complete set to the quotation script.
 *
 * Patterns are abstract; the conversion of a value to currency text and the
 * parsing of a date (both float- and calendar-based) are parameters.
 */
module UtilsCollector {
  import opened Wrappers
  import opened Text
  import opened Fields
  import opened Patterns
  import opened Collect

  /** REQUIRED_FIELDS, in dict order: key and display name. */
  const Schema: Fields.Schema := [
    Field("nome_animal", "Nome do Animal"),
    Field("valor_animal", "Valor do Animal"),
    Field("registro_passaporte", "Número de Registro ou Passaporte"),
    Field("raca", "Raça"),
    Field("data_nascimento", "Data de Nascimento"),
    Field("sexo", "Sexo (inteiro, castrado ou fêmea)"),
    Field("utilizacao", "Utilização (lazer, salto, laço etc.)"),
    Field("endereco_cocheira", "Endereço da Cocheira (CEP e cidade)")
  ]

  /** SEXO_OPTIONS, in the order they are tried. */
  const SexoOptions: seq<string> := ["inteiro", "castrado", "fêmea", "femea"]

  /** The regex lists of the seven pattern-driven fields. */
  datatype CollectorPatterns = CollectorPatterns(
    nome: seq<Matcher>, valor: seq<Matcher>, registro: seq<Matcher>, raca: seq<Matcher>,
    nascimento: seq<Matcher>, utilizacao: seq<Matcher>, endereco: seq<Matcher>)

  /**
   * The two conversions the model leaves abstract: the currency text of a
   * captured value (None when it does not parse as a positive float), and
   * the `DD/MM/YYYY` text of a captured date (None when no format parses).
   */
  datatype Conversions = Conversions(value: string -> Option<string>, date: string -> Option<string>)

  /** A cleaned capture is kept only when it is longer than `min` characters. */
  function Guard(min: nat, t: string): (r: Option<string>)
    ensures r.Some? <==> |t| > min
    ensures r.Some? ==> r.value == t
  {
    if |t| > min then Some(t) else None
  }

  /** `match.group(1).strip().title()` kept when longer than `min`. */
  function TitledAbove(min: nat, x: string): Option<string> {
    Guard(min, Title(Strip(x)))
  }

  /** `sexo_option in message_lower`, as a pattern whose hit is the option itself. */
  function OptionMatcher(option: string): Matcher {
    t => if Contains(t, option) then Some(option) else None
  }

  /** The eight keys are distinct: all lengths differ except "raca" and "sexo", which differ at the start. */
  lemma SchemaKeysDistinct()
    ensures forall i, j | 0 <= i < j < |Schema| :: Schema[i].key != Schema[j].key
  {
    assert |Schema[0].key| == 11 && |Schema[1].key| == 12 && |Schema[2].key| == 19 && |Schema[3].key| == 4;
    assert |Schema[4].key| == 15 && |Schema[5].key| == 4 && |Schema[6].key| == 10 && |Schema[7].key| == 17;
    assert Schema[3].key[0] != Schema[5].key[0];
  }

  /** One pattern per option of SEXO_OPTIONS, in order. */
  function SexoMatchers(): (r: seq<Matcher>)
    ensures |r| == |SexoOptions|
    ensures forall i | 0 <= i < |SexoOptions| :: r[i] == OptionMatcher(SexoOptions[i])
  {
    seq(|SexoOptions|, i requires 0 <= i < |SexoOptions| => OptionMatcher(SexoOptions[i]))
  }

  /** The rule of the `i`-th field, as extract_and_update_data runs it. */
  function RuleAt(p: CollectorPatterns, c: Conversions, i: nat): (r: Rule)
    requires i < |Schema|
    ensures r.key == Schema[i].key
  {
    var key := Schema[i].key;
    if i == 0 then Rule(key, p.nome, false, x => TitledAbove(2, x))
    else if i == 1 then Rule(key, p.valor, false, x => c.value(Replace(x, ",", ".")))
    else if i == 2 then Rule(key, p.registro, false, x => Guard(2, UpperStr(Strip(x))))
    else if i == 3 then Rule(key, p.raca, false, x => TitledAbove(2, x))
    else if i == 4 then Rule(key, p.nascimento, true, c.date)
    else if i == 5 then Rule(key, SexoMatchers(), false, x => Some(Title(x)))
    else if i == 6 then Rule(key, p.utilizacao, false, x => TitledAbove(2, x))
    else Rule(key, p.endereco, false, x => TitledAbove(5, x))
  }

  /** The field rules of extract_and_update_data, in the order the method runs them. */
  function Rules(p: CollectorPatterns, c: Conversions): (r: seq<Rule>)
    ensures |r| == |Schema|
    ensures forall i | 0 <= i < |Schema| :: r[i] == RuleAt(p, c, i) && r[i].key == Schema[i].key
    ensures DistinctRules(r)
  {
    SchemaKeysDistinct();
    seq(|Schema|, i requires 0 <= i < |Schema| => RuleAt(p, c, i))
  }

  /** The keys of REQUIRED_FIELDS. */
  predicate Required(k: string) {
    exists i | 0 <= i < |Schema| :: Schema[i].key == k
  }

  /**
   * extract_and_update_data: the data after the message and the fields
   * written. A truthy field never changes; only required, previously empty
   * fields are written, each reported once; every other key is untouched.
   */
  function ExtractAndUpdate(p: CollectorPatterns, c: Conversions, d: Data, message: string): (r: Outcome)
    ensures forall k | Filled(d, k) :: Find(r.data, k) == Find(d, k) && k !in r.updated
    ensures forall k | k in r.updated :: Required(k) && !Filled(d, k) && k in r.data
    ensures forall k | k !in r.updated :: Find(r.data, k) == Find(d, k)
    ensures forall i, j | 0 <= i < j < |r.updated| :: r.updated[i] != r.updated[j]
  {
    var rules := Rules(p, c);
    var r := ApplyRules(rules, d, LowerStr(message), message);
    forall k ensures
      && (Filled(d, k) ==> Find(r.data, k) == Find(d, k) && k !in r.updated)
      && (k in r.updated ==> Required(k) && !Filled(d, k) && k in r.data)
      && (k !in r.updated ==> Find(r.data, k) == Find(d, k))
    {
      ApplyReports(rules, d, LowerStr(message), message, k);
      if Filled(d, k) {
        ApplyKeepsFilled(rules, d, LowerStr(message), message, k);
      }
      if Covers(rules, k) {
        var i :| 0 <= i < |rules| && rules[i].key == k;
        assert Schema[i].key == k;
      }
    }
    r
  }

  /**
   * The length checks: a written name (field 0), registration (2), breed (3)
   * or use (6) has more than two characters, and a written stable address
   * (7) more than five.
   */
  lemma LengthGuards(p: CollectorPatterns, c: Conversions, d: Data, message: string, i: int)
    requires 0 <= i < |Schema| && Schema[i].key in ExtractAndUpdate(p, c, d, message).updated
    ensures var v := ExtractAndUpdate(p, c, d, message).data[Schema[i].key];
            && (i == 0 || i == 2 || i == 3 || i == 6 ==> |v| > 2)
            && (i == 7 ==> |v| > 5)
  {
    var rules := Rules(p, c);
    var lower := LowerStr(message);
    var r := ApplyRules(rules, d, lower, message);
    assert Find(r.data, Schema[i].key) == Written(rules[i], d, lower, message);
    if i == 7 {
      AcceptedLongerThan(p, c, i, 5);
      WrittenSatisfies(rules[i], d, lower, message, x => |x| > 5);
    } else if i == 0 || i == 2 || i == 3 || i == 6 {
      AcceptedLongerThan(p, c, i, 2);
      WrittenSatisfies(rules[i], d, lower, message, x => |x| > 2);
    }
  }

  /** What the guarded rules accept is longer than their minimum. */
  lemma AcceptedLongerThan(p: CollectorPatterns, c: Conversions, i: int, min: nat)
    requires (i == 7 && min == 5) || ((i == 0 || i == 2 || i == 3 || i == 6) && min == 2)
    ensures forall x :: RuleAt(p, c, i).accept(x).Some? ==> |RuleAt(p, c, i).accept(x).value| > min
  {
  }

  /**
   * A written sexo is the title-cased form of the first option the
   * lower-cased message contains; when sexo was empty and none is contained,
   * it stays as it was.
   */
  lemma SexoFirstOption(p: CollectorPatterns, c: Conversions, d: Data, message: string)
    requires !Filled(d, "sexo")
    ensures var r := ExtractAndUpdate(p, c, d, message);
            && ("sexo" in r.updated <==> exists i | 0 <= i < |SexoOptions| :: Contains(LowerStr(message), SexoOptions[i]))
            && ("sexo" in r.updated ==>
                  exists i | 0 <= i < |SexoOptions| ::
                    && Contains(LowerStr(message), SexoOptions[i])
                    && r.data["sexo"] == Title(SexoOptions[i])
                    && forall j | 0 <= j < i :: !Contains(LowerStr(message), SexoOptions[j]))
  {
    var rules := Rules(p, c);
    var lower := LowerStr(message);
    var r := ApplyRules(rules, d, lower, message);
    var rule := rules[5];
    assert rule.key == "sexo";
    assert forall i | 0 <= i < 4 :: rule.patterns[i](lower) == if Contains(lower, SexoOptions[i]) then Some(SexoOptions[i]) else None;
    assert forall i | 0 <= i < 4 :: AcceptedAt(rule.patterns, lower, rule.accept, i) <==> Contains(lower, SexoOptions[i]);
    assert Find(r.data, "sexo") == After(rule, d, lower, message);
  }

  /** Running the collector again on the same message changes no field. */
  lemma ExtractIdempotent(p: CollectorPatterns, c: Conversions, d: Data, message: string)
    ensures var once := ExtractAndUpdate(p, c, d, message).data;
            ExtractAndUpdate(p, c, once, message).data == once
  {
    ApplyIdempotent(Rules(p, c), d, LowerStr(message), message);
  }

  /** get_missing_fields: the display names of the empty required fields, in table order. */
  function MissingFields(d: Data): (r: seq<string>)
    ensures forall x :: x in r <==> exists i | 0 <= i < |Schema| :: !Filled(d, Schema[i].key) && Schema[i].name == x
    ensures r == [] <==> AllFilled(Schema, d)
  {
    MissingNames(Schema, d)
  }

  /** is_complete. */
  function IsComplete(d: Data): (r: bool)
    ensures r <==> forall k | Required(k) :: Filled(d, k)
  {
    |MissingFields(d)| == 0
  }

  /**
   * get_formatted_data_for_swissre: nothing while a field is missing;
   * otherwise exactly the eight required keys with their collected values.
   */
  function FormattedForSwissre(d: Data): (r: Option<Data>)
    ensures r.None? <==> !IsComplete(d)
    ensures r.Some? ==> forall k :: k in r.value <==> Required(k)
    ensures r.Some? ==> forall k | k in r.value :: Filled(d, k) && r.value[k] == d[k]
  {
    if !IsComplete(d) then None
    else Some(map k | k in d && Required(k) :: d[k])
  }
}

=== FILE: wrappers.dfy ===
/*
 * Option: the model of Python's `None`-or-value results (dict.get, re.search,
 * a collaborator that is not configured).
 */
module Wrappers {

  datatype Option<T> = None | Some(value: T) {

    function UnwrapOr(default: T): T {
      match this
      case Some(v) => v
      case None => default
    }
  }
}
